=== FILE: README.md ===
# FTP server and client command interpreters

This project models the two halves of a small FTP system:

- **The server** (`src/FTPServer.java`) reads command lines from one control
  connection at a time. It splits each line into tokens and rebuilds the
  parameter from them. It then dispatches on the upper-cased verb to one
  of USER, PASS, TYPE, PORT, RETR, SYST, NOOP and QUIT. Every line
  that does not halt the server is answered by exactly one reply
  `code text.` CRLF. Most replies come from a fixed table; TYPE, PORT
  and NOOP build their 200 reply with `set` instead. A RETR that opens
  the file writes a 150 line before its reply, and a RETR that halts the
  server writes nothing. Three session flags gate the commands:
  - `userSet`: a USER was accepted;
  - `loggedIn`: a PASS was accepted;
  - `portSet`: a PORT was accepted and its address is decoded.

  RETR copies a file over the data connection and clears `portSet` on
  success. When the connection closes, the flags are reset.
- **The client** (`src/FTPClient.java`) reads request lines from its
  user: CONNECT host port, GET path and QUIT. It tokenizes each line into
  runs of spaces and non-spaces and validates it with the local error
  codes 1 (request), 2 (server-host), 3 (server-port) and 4 (pathname).
  GET and QUIT before a connection get code 0 (expecting CONNECT), and an
  accepted QUIT prints code 5, which is not an error. It then carries out
  the request:
  - CONNECT opens the control connection and logs in with USER, PASS,
    SYST and TYPE, stopping at the first refused reply.
  - GET announces its data port with PORT (`port / 256`, `port % 256`),
    sends RETR and copies the file.
  - QUIT sends QUIT.

  Every server reply is checked by the client's own tokenizer and reply
  parser (error 10 for the code, 11 for the text, 12 for a missing CRLF).
  The codes 500, 501, 503, 530 and 550 count as a refusal.

## Structure

The pure logic is written as functions, in these modules:

| module | file | what it holds |
|---|---|---|
| `ServerSpec` | `server_spec.dfy` | the server's per-line logic |
| `ServerReplies` | `server_replies.dfy` | the server's reply table |
| `ClientTokens` | `client_tokens.dfy` | the client's tokenizer |
| `ReplyCheck` | `reply_check.dfy` | the client's reply check |
| `ClientSpec` | `client_spec.dfy` | the client's request handling |
| `Text` | `text.dfy` | Java's `indexOf`, `split`, `parseInt`, `toString` and 32-bit `int` arithmetic |

The Java code updates objects and static fields in place. That part is
modelled by classes:

- `FtpServer.Server` and `ServerReplies.ServerReply`;
- `FtpClient.Client` and `FtpClient.ClientReply`.

Each of their methods follows the Java handler branch by branch, and is
proved to leave exactly the state its specification function prescribes.

Properties relating several calls are proved in these modules:

- `ServerProperties` holds the server's properties.
- `ClientProperties` holds the client's properties.
- `Interop` shows that every line a connection writes passes the client's
  check with the intended verdict. These are the greeting, the lines of the
  reply table, and the 200 lines that TYPE, PORT and NOOP build with `set`.
  It also shows that the PORT argument the client writes decodes, on the
  server, to the client's address and data port.

The outside world is an input:

- The server is given its token arrays and, for RETR, the outcome of
  the data transfer (`DataOutcome`).
- The client is given, per request, whether the connection opens, the
  greeting, the replies read after each line written, whether the data
  port binds and whether the copy succeeds (`Env`).
- Where the Java code throws an exception that ends the program, the
  model sets the client's `crashed` flag, or the reply check yields `None`.
  On the server it sets the `halted` flag of the step's result. The client
  is also given `crashed` when a reply it waits for is missing from `Env`,
  where Java would block instead (see "## Left out").

The model keeps these quirks of the code:

- `CONNECT host` without a port is refused with code 2 (server-host), not
  3. The length tests for the port (src/FTPClient.java:210-216) come after
  the host tests (src/FTPClient.java:189-207).
- A `PASS` line whose parameter check fails still logs the client in. The
  `if` at src/FTPServer.java:180 ends in a stray `;`, so the check's result
  is ignored.
- A server reply with code 425 or 502 passes the client's check as a
  success. The client's list of refusals (src/FTPClient.java:157-161)
  holds only 500, 501, 503, 530 and 550. After a RETR answered by 425
  the client therefore waits for a second reply
  (src/FTPClient.java:124-128) that the server never sends. The model
  treats that reply as missing from `Env`, and the client stops with
  `crashed`.
- A negative PORT field passes the server's check, which tests only
  `> 255` (src/FTPServer.java:227). The decoded port can then lie outside
  [0, 65535], and a later RETR halts the server: `new Socket` throws
  `IllegalArgumentException` (src/FTPServer.java:428), and only
  `IOException` is caught (src/FTPServer.java:429).

## Model

| member | source | states |
|---|---|---|
| Text.Wrap32 | src/FTPServer.java:389-391 | Java `int` arithmetic: the result lies in [-2^31, 2^31 - 1], equals its argument when that fits, and differs from it by a multiple of 2^32 |
| Text.Inc32 | src/FTPClient.java:497 | Java's `fileCount++`: an `int` stays an `int`, and below the largest value the result is one more |
| Text.IncIsWrap | src/FTPClient.java:497 | on an `int` the increment is the 32-bit wrap-around of the successor, so the largest value wraps round to the smallest |
| Text.IndexOf | src/FTPServer.java:334-344 | `indexOf(c)`: -1 exactly when `c` does not occur, otherwise a position holding `c` with no earlier occurrence |
| Text.IndexOfCrlf | src/FTPServer.java:320-331 | `indexOf("\r\n")`: -1 exactly when no CR is followed by LF, otherwise the first position where one is |
| Text.Utf16Length | src/FTPServer.java:101 | Java's `length()` counts UTF-16 code units: one or two per character, and exactly one per character when none is above U+FFFF |
| Text.FindSpecial | src/FTPServer.java:99 | the lookup in the table of special casings: a result is the upper-case form of an entry for the character, and there is none exactly when no entry is for it |
| Text.UpperOf | src/FTPServer.java:99 | the upper case of one character is never empty and never shorter in UTF-16 code units; on ASCII it is the character with its letter raised; it is plain ASCII only for an ASCII character, dotless i, long s, sharp s and the ligatures U+FB00 to U+FB06 |
| Text.UpperOfSharpS | src/FTPServer.java:99 | sharp s upper-cases to "SS" |
| Text.UpperOfLigatureFfi | src/FTPServer.java:99 | the ffi ligature U+FB03 upper-cases to "FFI" |
| Text.UpperOfLigatureSt | src/FTPServer.java:99 | the st ligature U+FB06 upper-cases to "ST" |
| Text.UpperOfApostropheN | src/FTPServer.java:99 | U+0149 upper-cases to the modifier letter U+02BC followed by "N" |
| Text.UpperOfAstral | src/FTPServer.java:99 | a character above U+FFFF is kept |
| Text.ToUpper | src/FTPServer.java:99 | `toUpperCase` never makes a string shorter |
| Text.ToUpperUtf16 | src/FTPServer.java:99-101 | `toUpperCase` never makes a string shorter in UTF-16 code units either |
| Text.ToUpperCons | src/FTPServer.java:99 | upper-casing works one character at a time, from the front |
| Text.ToUpperAscii | src/FTPServer.java:99 | on an ASCII string, `toUpperCase` keeps the length and raises each lower-case letter, keeping every other character |
| Text.ToUpperAsciiSource | src/FTPServer.java:99 | a string whose upper case is plain ASCII holds only ASCII, dotless i, long s, sharp s and the ligatures U+FB00 to U+FB06 |
| Text.UpperLongSWord | src/FTPServer.java:99 | "u", long s, "er" upper-cases to "USER" |
| Text.UpperSharpSWord | src/FTPServer.java:99 | "PA" and sharp s upper-cases to "PASS" |
| Text.UpperLigatureWord | src/FTPServer.java:99 | "SY" and the st ligature upper-cases to "SYST" |
| Text.UpperDotlessIWord | src/FTPClient.java:69 | "qu", dotless i, "t" upper-cases to "QUIT" |
| Text.Split | src/FTPServer.java:216 | `split(sep)`: the input itself when the separator does not occur; no piece contains the separator |
| Text.SplitOfJoin | src/FTPServer.java:216 | splitting a joined list of separator-free pieces whose last piece is non-empty gives the pieces back |
| Text.ParseInt | src/FTPServer.java:225-235 | `Integer.parseInt`: a value is produced only inside the 32-bit range, only from an optional sign followed by digits, and a negative one only after "-"; digits alone, or after "+", read as their decimal value, and after "-" as its negation, whenever that fits in 32 bits; a lone sign and a value outside the range are refused |
| Text.NatToString | src/FTPServer.java:542-544 | decimal rendering: at least one digit, only digits, a single digit exactly below 10 |
| Text.ParseNatToString | src/FTPServer.java:389-391 | `parseInt` reads back what `toString` wrote for every non-negative `int` |
| Text.ParseIntToString | src/FTPServer.java:389-391 | `parseInt` reads back what `toString` wrote for every `int` |
| Text.ParseNegToString | src/FTPServer.java:389-391 | a minus sign followed by the digits of n in (0, 2^31] parses to -n |
| ServerReplies.TableShape | src/FTPServer.java:501-540 | every error code is in the reply table, and every table code is in [100, 599] |
| ServerReplies.ByCodeProperties | src/FTPServer.java:501-544 | setReplyByCode stores the code; a raised error flag stays raised; from a clear flag it is raised exactly for an error code; a table code always yields its fixed reply line |
| ServerReplies.ReplyLineDeterministic | src/FTPServer.java:501-544 | the line sent for a table code does not depend on what the reply object held before |
| ServerReplies.ServerReply.constructor | src/FTPServer.java:480-484 | a new reply object is blank with a clear error flag |
| ServerReplies.ServerReply.SetErrorFlag | src/FTPServer.java:490-492 | only the error flag changes, to the given value |
| ServerReplies.ServerReply.Set | src/FTPServer.java:494-498 | code and text replaced, error flag untouched |
| ServerReplies.ServerReply.SetReplyByCode | src/FTPServer.java:501-540 | the reply object becomes the table encoding of the code applied to its old state |
| ServerSpec.ParseVerb | src/FTPServer.java:36-46 | a verb is recognised exactly when it is the name of one of the eight commands, and then names that command |
| ServerSpec.Run | src/FTPServer.java:88-152 | the read loop handles at most as many lines as it is given |
| FtpServer.CheckParam | src/FTPServer.java:334-344 | succeeds exactly when the first space is at offset 4 and the parameter is non-empty; otherwise the reply gets 500 or 501 |
| FtpServer.CheckNoParam | src/FTPServer.java:320-326 | succeeds exactly when CRLF first occurs at offset 4; otherwise the reply gets 501 |
| FtpServer.CheckAscii | src/FTPServer.java:347-355 | succeeds exactly when no character is above 127; otherwise the reply gets 501 |
| FtpServer.BuildParameter | src/FTPServer.java:358-375 | the loop computes the parameter: the tokens from index 2 up to the line ending, leading single-whitespace tokens skipped, concatenated; "" when the array is too short |
| FtpServer.BuildAddress | src/FTPServer.java:378-395 | the loop joins the first four fields with "." and the port is field 5 * 256 + field 6 in 32-bit arithmetic |
| FtpServer.Server.constructor | src/FTPServer.java:48-50 | the server starts with no user, no login, no port and an empty transcript |
| FtpServer.Server.SendReply | src/FTPServer.java:398-406 | exactly the reply's wire line is appended to the control connection |
| FtpServer.Server.CheckAuthentication | src/FTPServer.java:308-317 | succeeds exactly when logged in; otherwise 530 without USER, 503 after USER only |
| FtpServer.Server.ProcessUser | src/FTPServer.java:167-177 | first USER: userSet raised, 331; a repeated USER: 503, state unchanged |
| FtpServer.Server.ParseUser | src/FTPServer.java:161-165 | parameter check, ASCII check, then processUSER, with their replies |
| FtpServer.Server.ProcessPass | src/FTPServer.java:185-197 | PASS after USER and before login: loggedIn raised, 230; otherwise 503 |
| FtpServer.Server.ParsePass | src/FTPServer.java:179-183 | the parameter check's reply is set but its result ignored; then the ASCII check and processPASS |
| FtpServer.Server.ProcessType | src/FTPServer.java:208-212 | gated by authentication; then 200 "Type set to" the type |
| FtpServer.Server.ParseType | src/FTPServer.java:199-206 | parameter check; only "A" and "I" accepted (else 501); then processTYPE |
| FtpServer.Server.ProcessPort | src/FTPServer.java:240-247 | gated by authentication; then the decoded address is stored, portSet raised, 200 with the address |
| FtpServer.Server.CheckPortFields | src/FTPServer.java:225-235 | the loop succeeds exactly when all six fields parse as integers not above 255 |
| FtpServer.Server.ParsePort | src/FTPServer.java:214-238 | parameter check, six fields, each field checked, then processPORT |
| FtpServer.Server.CopyFile | src/FTPServer.java:424-468 | no stored address, or a stored port outside [0, 65535], halts the server, since the socket constructor throws an exception nothing catches; otherwise no data connection: 425; missing file: 550; a broken copy sends 150 then gets 550; a completed copy sends 150, delivers the file and gets 250 |
| FtpServer.Server.ProcessRetr | src/FTPServer.java:262-272 | one leading "/" or "\" removed; portSet cleared exactly when the copy succeeds; halts when the copy halts |
| FtpServer.Server.ParseRetr | src/FTPServer.java:249-260 | parameter, ASCII, portSet (503), CRLF (no reply), authentication, then processRETR, halting exactly when it halts |
| FtpServer.Server.ParseSyst | src/FTPServer.java:274-283 | no parameter allowed (501), gated by authentication, then 215 |
| FtpServer.Server.ParseNoop | src/FTPServer.java:285-294 | no parameter allowed (501), gated by authentication, then 200 "Command OK" |
| FtpServer.Server.ParseQuit | src/FTPServer.java:296-305 | no parameter allowed (501), then 221, with no gate |
| FtpServer.Server.DispatchVerb | src/FTPServer.java:110-126 | each verb goes to its own handler; only RETR can halt the server |
| FtpServer.Server.HandleCommand | src/FTPServer.java:89-142 | one line: clear the error flag, reject an unknown verb with 502 or 500, dispatch, send one reply; only QUIT ends the loop; a line that halts the server sends nothing |
| FtpServer.Server.ResetState | src/FTPServer.java:409-414 | the three session flags are cleared and nothing else changes |
| FtpServer.Server.ReadLoop | src/FTPServer.java:88-152 | the loop handles lines in order until QUIT, the end of input or a halt, and reports how many it handled and whether it halted |
| FtpServer.Server.ServeConnection | src/FTPServer.java:83-149 | a connection: the 220 greeting, the read loop, then resetState unless the server halted |
| ServerProperties.DispatchPreservesInv | src/FTPServer.java:161-305 | every handler keeps portSet ⇒ loggedIn ⇒ userSet, with a decoded address whenever portSet |
| ServerProperties.PortPreservesInv | src/FTPServer.java:214-247 | PORT raises portSet only for a logged-in user and stores the decoded address with it, so the invariant holds after it |
| ServerProperties.StepPreservesInv | src/FTPServer.java:88-152 | every command line keeps that session invariant |
| ServerProperties.RunPreservesInv | src/FTPServer.java:88-152 | any sequence of command lines keeps the invariant |
| ServerProperties.ConnectionLifecycle | src/FTPServer.java:83-149 | after a connection that did not halt all three flags are down; in any case the invariant holds and the first line sent was the 220 greeting |
| ServerProperties.RunKeepsTranscript | src/FTPServer.java:88-152 | the transcript only grows: what was sent before is a prefix of what is sent after |
| ServerProperties.StepSendsReplies | src/FTPServer.java:100-142 | every line that does not halt is answered by exactly one reply line, preceded by the 150 line for a started transfer; a line that halts is a RETR, writes nothing and changes nothing |
| ServerProperties.DispatchSends | src/FTPServer.java:110-126 | no handler writes to the control connection except RETR's 150 line; only RETR halts, and then nothing has changed |
| ServerProperties.RetrSends | src/FTPServer.java:249-272 | RETR writes at most the 150 line, and when it halts nothing has changed |
| ServerProperties.LoginKeepsSent | src/FTPServer.java:161-197 | USER and PASS write nothing and never halt |
| ServerProperties.TypeKeepsSent | src/FTPServer.java:199-212 | TYPE writes nothing and never halts |
| ServerProperties.PortKeepsSent | src/FTPServer.java:214-247 | PORT writes nothing and never halts |
| ServerProperties.SkipBlankTokensShape | src/FTPServer.java:361-369 | skipping leading blank tokens leaves a suffix that does not start with a blank token, and only blank tokens are skipped |
| ServerProperties.ServerParameterShape | src/FTPServer.java:358-375 | the parameter is the concatenation of the tokens from the first non-blank one at index 2 or later up to the line ending |
| ServerProperties.EmbeddedSpaceLost | src/FTPServer.java:358-375 | "RETR my file" CRLF asks for "myfile": the spaces inside a parameter are lost |
| ServerProperties.UnknownVerb | src/FTPServer.java:99-107 | an unknown verb gets 502 when its upper-cased form is three or four UTF-16 code units long and 500 otherwise, with the error flag, and the loop goes on |
| ServerProperties.UnknownVerbSession | src/FTPServer.java:100-107 | an unknown verb changes nothing in the session and sends exactly the table line for its code |
| ServerProperties.AsciiVerbLength | src/FTPServer.java:99-101 | for an ASCII verb the length tested is its own number of characters |
| ServerProperties.VerbCharacters | src/FTPServer.java:99-100 | a verb that is dispatched holds only ASCII, dotless i, long s, sharp s and the ligatures U+FB00 to U+FB06 |
| ServerProperties.LongSVerb | src/FTPServer.java:99-100 | "u", long s, "er" is dispatched as USER |
| ServerProperties.SharpSVerb | src/FTPServer.java:99-100 | "PA" and sharp s is dispatched as PASS |
| ServerProperties.LigatureVerb | src/FTPServer.java:99-100 | "SY" and the st ligature is dispatched as SYST |
| ServerProperties.DotlessIVerb | src/FTPServer.java:99-100 | "qu", dotless i, "t" is dispatched as QUIT |
| ServerProperties.SharpSLength | src/FTPServer.java:99-105 | an unknown verb of one sharp s gets 500 and of two gets 502, their upper cases being two and four units long |
| ServerProperties.LigatureLength | src/FTPServer.java:99-105 | the ffi ligature alone gets 502, its upper case being three units long |
| ServerProperties.AstralLength | src/FTPServer.java:99-105 | two characters above U+FFFF get 502, being four units long |
| ServerProperties.ApostropheNLength | src/FTPServer.java:99-105 | two U+0149 characters get 502, their upper case being four units long |
| ServerProperties.ParameterRequired | src/FTPServer.java:334-344 | USER, TYPE, PORT and RETR without a space at offset 4 get 500, and with an empty parameter get 501; the session is unchanged |
| ServerProperties.NoParameterAllowed | src/FTPServer.java:320-326 | SYST, NOOP and QUIT not directly followed by CRLF get 501; QUIT still ends the loop |
| ServerProperties.StepKnown | src/FTPServer.java:110-142 | for a known verb the handler's outcome is sent once unless it halted the server, and only QUIT ends the loop |
| ServerProperties.TypeValues | src/FTPServer.java:199-212 | TYPE accepts only "A" and "I", and succeeds with "Type set to" the type exactly when logged in |
| ServerProperties.UserSequence | src/FTPServer.java:161-177 | a well-formed USER succeeds with 331 exactly when no USER was accepted before; otherwise 503 and nothing changes |
| ServerProperties.PassSequence | src/FTPServer.java:179-197 | PASS succeeds with 230 exactly after USER and before login; otherwise 503 and nothing changes |
| ServerProperties.PassWithoutPassword | src/FTPServer.java:179-183 | a bare "PASS" CRLF after USER fails the parameter check yet logs the client in with 230 |
| ServerProperties.AuthenticationGate | src/FTPServer.java:308-317 | TYPE, PORT, SYST and NOOP that pass their syntax checks get 530 without USER and 503 without PASS, changing nothing; once logged in they succeed |
| ServerProperties.DispatchGate | src/FTPServer.java:308-317 | the same gate at the level of the handlers |
| ServerProperties.RetrGateNeverFires | src/FTPServer.java:249-260 | in a valid session the authentication check in parseRETR can never fail, since portSet implies login |
| ServerProperties.PortRule | src/FTPServer.java:214-247 | a logged-in PORT succeeds exactly when the parameter has six integer fields none above 255; the stored address is then the decoded one; otherwise 501 and the session is unchanged |
| ServerProperties.ParsePortRule | src/FTPServer.java:214-247 | the same rule for the PORT handler, which never halts |
| ServerProperties.DecodedPortExact | src/FTPServer.java:389-391 | with the two port fields in [0, 255] the decoded port is exactly high * 256 + low, a TCP port number |
| ServerProperties.NegativeFieldWraps | src/FTPServer.java:225-235 | a negative field passes the check, and "-8388609","0" wraps around to the port 0x7FFFFF00 |
| ServerProperties.NegativeFieldOutOfRange | src/FTPServer.java:225-235 | the fields 1,2,3,4,-1,0 pass PORT's check and decode to the port -256, outside [0, 65535] |
| ServerProperties.RetrBeforePort | src/FTPServer.java:249-256 | RETR without a preceding PORT gets 503 before any transfer is tried; no file is delivered |
| ServerProperties.RetrTransfer | src/FTPServer.java:262-272 | an admitted RETR with a stored port in [0, 65535] never halts: portSet stays raised unless the copy completes; only a completed copy delivers the path; 425 or 550 on failure; 150 is sent exactly when the file was opened |
| ServerProperties.RetrHalts | src/FTPServer.java:424-432 | an admitted RETR with a stored port outside [0, 65535] halts the server with nothing sent and nothing changed |
| ServerProperties.RunHalts | src/FTPServer.java:88-152 | a line that halts the server is the last one handled, and the loop ends in the state before it |
| ServerProperties.ThreeDigitPrefixDiffers | src/FTPServer.java:542-544 | reply lines with different three-digit codes differ |
| ServerProperties.AnonymousUserLine | src/FTPServer.java:95-99 | the tokens of "USER anonymous" CRLF name USER with the well-placed ASCII parameter "anonymous" |
| ServerProperties.GuestPassLine | src/FTPServer.java:95-99 | the tokens of "PASS guest@" CRLF name PASS with the parameter "guest@" |
| ServerProperties.SingleTokenParameter | src/FTPServer.java:358-375 | for five tokens whose third is not blank, the parameter is that third token |
| ClientTokens.RunLength | src/FTPClient.java:428-446 | the first run: all its characters are spaces or all are not, as the first one is, and the next character is of the other kind |
| ClientTokens.Runs | src/FTPClient.java:422-451 | the runs of a string start with its first run |
| ClientTokens.TrimLeadingSpaces | src/FTPClient.java:448 | leading spaces removed: a suffix not starting with a space, and only spaces dropped |
| ClientTokens.RunsIsRunSplit | src/FTPClient.java:422-451 | the runs concatenate to the string, each is non-empty and uniform, and neighbours differ in kind |
| ClientTokens.RunSplitUnique | src/FTPClient.java:422-451 | those three properties determine the split: any two such splits are equal |
| ClientTokens.RunSplitIsRuns | src/FTPClient.java:422-451 | any split with those properties is the runs |
| ClientTokens.ScanRuns | src/FTPClient.java:423-446 | the scanning loop, seeded with one space, yields the runs of the line with a space in front |
| ClientTokens.RunsAfterSpace | src/FTPClient.java:425-448 | the seed run absorbs the line's leading spaces; the rest are the runs of the trimmed line |
| ClientTokens.SplitRequest | src/FTPClient.java:422-451 | splitRequest yields the runs of the line without its leading spaces |
| ClientTokens.RequestTokensProperties | src/FTPClient.java:422-451 | the tokens split the trimmed line into alternating runs, the first has no space, and there are none exactly for a blank line |
| ClientTokens.SplitReply | src/FTPClient.java:650-689 | the reply tokenizer keeps the seed run and cuts a space-free last run at its first CR (else LF); None where the cut throws |
| ClientTokens.BuildParameter | src/FTPClient.java:407-419 | the loop concatenates the tokens from index 2 on, leading whitespace-only tokens skipped |
| ClientTokens.CheckAscii | src/FTPClient.java:454-462 | true exactly when no character is above 127 |
| ReplyCheck.ResponseByCode | src/FTPClient.java:782-800 | code and text kept; the error flag is raised exactly for 10, 11 and 12 or when it already was |
| ReplyCheck.ParseReplyCode | src/FTPClient.java:576-599 | passes only with three tokens and an integer in [100, 599] before the first space, which it records; otherwise error 10 |
| ReplyCheck.StripLineEnd | src/FTPClient.java:623-629 | removes one trailing LF, then one trailing CR; None exactly where charAt throws on an empty text |
| ReplyCheck.ParseReplyText | src/FTPClient.java:602-634 | passes only for a single space at index 2 and an ASCII text other than " ", recording it without line end; otherwise error 11; None where it throws |
| ReplyCheck.AcceptedExactly | src/FTPClient.java:133-168 | a reply is accepted exactly when it has three tokens, a code in [100, 599] that is not a failure code, a single space, a non-empty ASCII text other than " ", and CRLF |
| ReplyCheck.CheckAccepted | src/FTPClient.java:133-168 | the same characterisation for the check on given tokens |
| ReplyCheck.CodeStage | src/FTPClient.java:576-599 | the code stage passes exactly for three tokens and a code in [100, 599], recording that code; a failure raises the flag |
| ReplyCheck.TextStage | src/FTPClient.java:602-634 | the text stage passes exactly for a single space and a non-empty ASCII text other than " ", keeping the code and flag; a failure raises the flag |
| ReplyCheck.BadReplyCode | src/FTPClient.java:576-599 | a missing or out-of-range code gives error 10 and a refusal |
| ReplyCheck.BadReplyText | src/FTPClient.java:602-621 | a good code with a bad text gives error 11 and a refusal |
| ReplyCheck.MissingCrlf | src/FTPClient.java:142-145 | a well-formed reply without CRLF gives error 12 and a refusal |
| ReplyCheck.WellFormedReply | src/FTPClient.java:133-168 | a well-formed reply with CRLF records its code and text, gets the acceptance message, and is refused exactly for a failure code |
| ReplyCheck.CrashCases | src/FTPClient.java:133-168 | the reply check throws exactly where the tokenizer's cut throws, or a good code is followed by a single space and an empty text |
| ReplyCheck.CheckCrash | src/FTPClient.java:133-168 | the check on given tokens throws exactly in the second of those cases |
| ReplyCheck.TextCrash | src/FTPClient.java:623-629 | the text stage throws exactly on an empty text after a single space |
| ClientSpec.ParseCommand | src/FTPClient.java:34-38 | a request command is valid exactly when it names CONNECT, GET or QUIT, and then names it |
| ClientSpec.ConnectCheck | src/FTPClient.java:177-238 | CONNECT validation refuses with code 1, 2 or 3, or yields the host and port to connect to |
| ClientSpec.GetCheck | src/FTPClient.java:286-306 | GET validation refuses with code 1 or 4, or yields the path |
| ClientSpec.QuitCheck | src/FTPClient.java:358-368 | QUIT validation either proceeds or refuses with code 1 |
| FtpClient.CheckResponse | src/FTPClient.java:133-168 | parseResponse: split, then check; None where the client throws |
| FtpClient.ReadReplies | src/FTPClient.java:118-130 | reads the first reply, and after an accepted RETR at least one more; the verdict is the last reply's |
| FtpClient.ReadLater | src/FTPClient.java:126-129 | the loop checks each further reply and keeps the last verdict, stopping where a check throws |
| FtpClient.ClientReply.constructor | src/FTPClient.java:701-705 | a new reply has an empty message and a clear flag |
| FtpClient.ClientReply.SetMessage | src/FTPClient.java:707-710 | only the message changes |
| FtpClient.ClientReply.SetReplyByCode | src/FTPClient.java:713-738 | the code's text and a line feed; the flag raised for codes 0 to 4 and otherwise left |
| FtpClient.Client.constructor | src/FTPClient.java:40-51 | the client starts disconnected, with nothing written or printed, file count 1 and the given data port |
| FtpClient.Client.PrintMessage | src/FTPClient.java:740-742 | the reply's message is appended to the console |
| FtpClient.Client.ProcessRequest | src/FTPClient.java:110-131 | the line is written, then its replies are read; a throw crashes the client |
| FtpClient.Client.ProcessConnectRequest | src/FTPClient.java:240-267 | host and port stored; the connection flag raised with the acceptance message exactly when the connection opens, otherwise "CONNECT failed" |
| FtpClient.Client.OnConnect | src/FTPClient.java:269-283 | reads the greeting, then USER, PASS, SYST and TYPE in turn, stopping at the first refusal |
| FtpClient.Client.ProcessGetRequest | src/FTPClient.java:308-318 | accepted exactly when connected; otherwise local code 0 |
| FtpClient.Client.OnGet | src/FTPClient.java:320-355 | binds the data port, sends PORT with the counter moved on, then RETR; the counter moves back on a refusal |
| FtpClient.Client.Retrieve | src/FTPClient.java:338-345 | the RETR exchange, then the copy, which raises the file count by Java's `int` increment |
| FtpClient.Client.ProcessQuitRequest | src/FTPClient.java:370-383 | accepted exactly when connected, setting the loop flag and code 5; otherwise code 0 |
| FtpClient.Client.OnQuit | src/FTPClient.java:385-395 | the QUIT line is sent and its replies read |
| FtpClient.Client.HandleRequest | src/FTPClient.java:55-99 | one iteration of the main loop equals the client's step function |
| FtpClient.Client.HandleCommand | src/FTPClient.java:72-87 | the switch on the command, unknown commands getting code 1 |
| FtpClient.Client.HandleConnect | src/FTPClient.java:75-98 | CONNECT: validate, try the connection, print, log in |
| FtpClient.Client.HandleGet | src/FTPClient.java:77-98 | GET: validate, check the connection, print, transfer |
| FtpClient.Client.HandleQuit | src/FTPClient.java:79-96 | QUIT: validate, check the connection, print, send QUIT |
| FtpClient.Client.Run | src/FTPClient.java:55-100 | the loop over request lines until QUIT is accepted, the input ends or the client throws |
| ClientProperties.DispatchByFirstToken | src/FTPClient.java:64-74 | a request goes to a command exactly when its first token, upper-cased, names it; a blank line goes to none |
| ClientProperties.DotlessIQuit | src/FTPClient.java:64-74 | a first token "qu", dotless i, "t" is dispatched as QUIT |
| ClientProperties.UnknownCommandRefused | src/FTPClient.java:84-86 | an unknown command prints "ERROR -- request" with the flag raised; nothing is written and the session is unchanged |
| ClientProperties.UnknownPrinted | src/FTPClient.java:712-743 | code 1 with the flag lowered first gives "ERROR -- request" with the flag raised, printed once; nothing else changes |
| ClientProperties.LocalCodes | src/FTPClient.java:713-738 | the flag is raised exactly for codes 0 to 4 or when it already was; every message ends in a line feed; codes 0 to 5 have their own text |
| ClientProperties.ConnectCodes | src/FTPClient.java:177-238 | code 1 exactly for a bare CONNECT; code 2 for a missing or invalid host or a missing port; code 3 for a bad, out-of-range or trailing port; otherwise the host and the parsed port |
| ClientProperties.SingleLabelHost | src/FTPClient.java:195-207 | a host without dots is valid exactly when it is one label |
| ClientProperties.DoubleDotInvalid | src/FTPClient.java:201-207 | two dots in a row make a host invalid |
| ClientProperties.DoubleDotExample | src/FTPClient.java:201-207 | "exa..mple" is refused |
| ClientProperties.GetCodes | src/FTPClient.java:286-306 | code 1 for a bare GET, code 4 for a missing or non-ASCII path; otherwise the rebuilt path |
| ClientProperties.QuitCodes | src/FTPClient.java:358-368 | QUIT proceeds exactly when it stands alone |
| ClientProperties.ParameterShape | src/FTPClient.java:407-419 | the parameter is the concatenation of the tokens from the first non-whitespace one at index 2 or later |
| ClientProperties.GetPathKept | src/FTPClient.java:286-306 | "GET path" with one space keeps the whole path, inner spaces included |
| ClientProperties.GetLineTokens | src/FTPClient.java:422-451 | the tokens of "GET path" are the verb, the space and the runs of the path |
| ClientProperties.SendEffect | src/FTPClient.java:110-131 | writing a line appends exactly it, and changes no flag, counter or console |
| ClientProperties.SendAnswered | src/FTPClient.java:110-131 | a line whose replies are read without a throw is written and yields the last verdict |
| ClientProperties.ExchangeVerdict | src/FTPClient.java:118-130 | the exchange yields a verdict exactly when the replies are non-empty, all readable, and an accepted RETR has a further reply; that verdict is the last reply's |
| ClientProperties.LaterVerdictsLast | src/FTPClient.java:126-129 | the further replies' verdict, when there is one, is the last reply's |
| ClientProperties.FirstAndRest | src/FTPClient.java:118-130 | every reply is readable exactly when the first one and all the later ones are |
| ClientProperties.LoginKeeps | src/FTPClient.java:271-278 | the login chain only adds to what was written and never touches the session flags |
| ClientProperties.OnConnectKeeps | src/FTPClient.java:269-283 | onConnect only adds to what was written |
| ClientProperties.RetrieveKeeps | src/FTPClient.java:338-345 | the RETR exchange only adds to what was written |
| ClientProperties.TransferKeeps | src/FTPClient.java:337-346 | the PORT exchange only adds to what was written |
| ClientProperties.OnGetKeeps | src/FTPClient.java:320-355 | onGet only adds to what was written and printed |
| ClientProperties.OnGetOutOfRange | src/FTPClient.java:320-328 | with the data port outside [0, 65535] the bind throws an exception nothing catches: the client crashes, having written nothing and moved no counter |
| ClientProperties.OnGetUnbound | src/FTPClient.java:322-328 | when the data port does not bind, "GET failed" is printed, nothing is written and neither counter moves |
| ClientProperties.OnGetWrites | src/FTPClient.java:331-345 | PORT is written with the current counter's high and low bytes, RETR only after PORT is accepted; the client crashes exactly when a reply it waits for is missing or unreadable |
| ClientProperties.OnGetCounters | src/FTPClient.java:337-343 | without a crash the counter ends one higher exactly when PORT and RETR are both accepted and is back where it was otherwise; the file count rises exactly when the copy also succeeds |
| ClientProperties.TransferCounters | src/FTPClient.java:337-345 | the PORT exchange with the counter moved on: what it writes, when it crashes, and where both counters end |
| ClientProperties.RetrieveCounters | src/FTPClient.java:338-345 | the RETR exchange: what it writes, when it crashes, the counter moved back on a refusal, and the file counted after an accepted RETR and a successful copy |
| ClientProperties.SendVerdict | src/FTPClient.java:110-131 | writing a line crashes the client exactly when no verdict comes back, counts as accepted exactly on acceptance, and changes nothing else |
| ClientProperties.StepGrows | src/FTPClient.java:55-99 | one request only adds to what was written and printed, never disconnects, and writes nothing unless connected |
| ClientProperties.DoConnectGrows | src/FTPClient.java:177-283 | CONNECT only adds, keeps QUIT, and writes only once connected |
| ClientProperties.DoGetGrows | src/FTPClient.java:286-355 | GET only adds and keeps the session flags |
| ClientProperties.DoQuitGrows | src/FTPClient.java:358-395 | QUIT only adds, keeps the connection, and is accepted only while connected |
| ClientProperties.StepPreservesInvariant | src/FTPClient.java:55-99 | every request keeps the invariant: QUIT accepted, or a line written, only once connected |
| ClientProperties.LoopKeeps | src/FTPClient.java:55-100 | a property every step keeps holds after the loop |
| ClientProperties.RunPreservesInvariant | src/FTPClient.java:55-100 | the invariant holds after any sequence of requests |
| ClientProperties.RunGrows | src/FTPClient.java:55-100 | a whole session only adds to what was written and printed |
| ClientProperties.StartInvariant | src/FTPClient.java:40-51 | the initial state satisfies the invariant, with file count 1 and nothing written |
| ClientProperties.DoGetDisconnected | src/FTPClient.java:308-318 | without a connection GET prints its refusal code, or 0 when well formed |
| ClientProperties.DoQuitDisconnected | src/FTPClient.java:370-383 | without a connection QUIT prints its refusal code, or 0 when well formed |
| ClientProperties.GetNeedsConnection | src/FTPClient.java:308-318 | without a connection GET is refused locally; a well-formed one gets "ERROR -- expecting CONNECT" |
| ClientProperties.QuitNeedsConnection | src/FTPClient.java:370-383 | without a connection QUIT is refused locally; a bare one gets "ERROR -- expecting CONNECT" |
| ClientProperties.QuitAccepted | src/FTPClient.java:370-395 | an accepted QUIT sets the loop flag, prints code 5 without error, writes exactly the QUIT line, and crashes only where reading its reply throws |
| ClientProperties.RunStops | src/FTPClient.java:55 | once QUIT is accepted or the client throws, no further line is read |
| ClientProperties.LoopStops | src/FTPClient.java:55 | the same for any step function |
| ClientProperties.LoginIsChain | src/FTPClient.java:271-278 | the login is a short-circuit chain over the replies' verdicts |
| ClientProperties.ChainPrefix | src/FTPClient.java:271-278 | a chain writes its lines up to and including the first refused one, and changes nothing else |
| ClientProperties.LoginAccepted | src/FTPClient.java:269-283 | with every login reply accepted, exactly USER, PASS, SYST and TYPE are written |
| ClientProperties.LoginStops | src/FTPClient.java:269-283 | the login stops at the first refused line, which is the last one written |
| ClientProperties.OnConnectLogin | src/FTPClient.java:269-283 | after the greeting, CONNECT's follow-up is the login chain |
| ClientProperties.LoginWithoutGreeting | src/FTPClient.java:270 | without a readable greeting the client throws before writing anything |
| Interop.LineRuns | src/FTPServer.java:542-544 | the runs of a server reply line: seed space, code, space, the runs of the text and dot, CRLF on the last |
| Interop.ReplyLineTokens | src/FTPClient.java:650-689 | the client's tokens of a server reply line, with CRLF cut off as its own token |
| Interop.ReplyLineText | src/FTPClient.java:637-647 | the text the client rebuilds is the single space, the text and the final dot |
| Interop.FramedText | src/FTPClient.java:637-647 | between the code token and the CRLF the client joins the space and the runs back into one text |
| Interop.ReplyLineCode | src/FTPClient.java:576-599 | the code stage passes on a server line and records its code |
| Interop.ReplyLineCodeDigits | src/FTPClient.java:582-586 | the first space of a server reply line follows the code's three digits, which are what the client cuts off as the code |
| Interop.ReplyLineTextStage | src/FTPClient.java:602-634 | the text stage passes on a server line |
| Interop.WellFormedLineAccepted | src/FTPClient.java:133-168 | any line `code text.` CRLF with a code in [100, 599] and clean text is accepted exactly when the code is not a failure code |
| Interop.ReplyLineChecked | src/FTPClient.java:133-168 | the checks pass on such a line and raise the flag exactly for a failure code |
| Interop.TableTextOk | src/FTPServer.java:501-540 | every text of the server's table is ASCII, has no line end and does not start with a space |
| Interop.ServerLinesAccepted | src/FTPServer.java:501-544 | every line of the reply table passes the client's check, and is accepted exactly when its code is not 500, 501, 503, 530 or 550 |
| Interop.CleanReplyAccepted | src/FTPClient.java:133-168 | the message of any reply with a code in [100, 599] and text that may follow it is read by the client and refused exactly for a failure code |
| Interop.ByCodeClean | src/FTPServer.java:501-540 | setReplyByCode with a table code leaves such a reply |
| Interop.SetTextsClean | src/FTPServer.java:208-212 | TYPE's "Type set to A" or "I", and NOOP's "Command OK", are such texts |
| Interop.PortTextClean | src/FTPServer.java:240-247 | the 200 text PORT builds from six fields that passed its check is such a text |
| Interop.PortTextPrintable | src/FTPServer.java:244 | PORT's 200 text for a printable host is such a text |
| Interop.ErrorsClean | src/FTPServer.java:501-540 | the replies 500, 501, 503 and 530 are such replies |
| Interop.UserClean | src/FTPServer.java:161-177 | the USER handler leaves such a reply |
| Interop.PassClean | src/FTPServer.java:179-183 | the PASS handler leaves such a reply |
| Interop.ProcessPassClean | src/FTPServer.java:185-197 | processPASS leaves such a reply |
| Interop.TypeClean | src/FTPServer.java:199-212 | the TYPE handler leaves such a reply |
| Interop.PortClean | src/FTPServer.java:214-247 | the PORT handler leaves such a reply |
| Interop.RetrClean | src/FTPServer.java:249-272 | the RETR handler leaves such a reply |
| Interop.CopyFileClean | src/FTPServer.java:424-468 | copyFile leaves such a reply |
| Interop.NoParamClean | src/FTPServer.java:274-305 | the SYST, NOOP and QUIT handlers leave such a reply |
| Interop.DispatchClean | src/FTPServer.java:110-126 | every handler leaves such a reply |
| Interop.StepReplyClean | src/FTPServer.java:89-142 | one command line leaves such a reply |
| Interop.NewLinesClean | src/FTPServer.java:398-406 | what a command line appends to the transcript, the 150 line or its reply, is the message of such a reply |
| Interop.StepClean | src/FTPServer.java:89-142 | one command line keeps the reply clean and only appends messages of such replies |
| Interop.RunClean | src/FTPServer.java:88-152 | the read loop keeps the reply clean and only appends messages of such replies |
| Interop.ConnectionLinesClean | src/FTPServer.java:83-149 | every line a connection writes, the 220 greeting first, is the message of such a reply |
| Interop.ConnectionLinesAccepted | src/FTPServer.java:83-149 | so the client reads every line a connection writes, and refuses it exactly for a failure code |
| Interop.PortArgumentDecodes | src/FTPClient.java:332-335 | the PORT argument the client writes for a port in [0, 65535] splits into six fields that the server decodes to the client's address and exactly that port |
| Interop.PortFieldsSplit | src/FTPServer.java:216 | that argument splits at its commas into the four address parts and the two decimal port fields |

## Left out

- Sockets: the welcome socket, `accept`, `close`, the client's `Socket` and `ServerSocket` objects, and `createSocket` with its retry. Whether a connection opens, binds or delivers is an input.
- The server's line reader (`Scanner` with its line-end delimiter) and its splitting regex. The token array of each line is an input, and must be non-empty. The Java code throws on an empty array.
- The client's `available()` polling loop and `Thread.sleep`. The replies read after each line are given as an input sequence.
- Console output: the echo of requests and commands, `System.out` in `sendReply` and `parseResponse`, and `FTPCommands.printMessage`, whose message is `""` at the point where it is printed. Only the client's `printMessage` of its reply object is recorded.
- The `FTPCommands` methods `onConnect`, `onGet` and `onQuit`: they only set the console message.
- `resetConnection` has an empty body.
- `InetAddress.getLocalHost`: the host address, with commas for dots, is an input.
- The byte-copying loops of both file managers and the file system. The outcome of a transfer is an input, and file contents are not modelled.
- An `IOException` while writing to the control connection is not modelled.
- A reply the client waits for that never arrives: Java blocks in `fromServer.next()` (src/FTPClient.java:122, 128, 271) with the connection still open, and throws only at the end of the stream. The model cannot tell the two apart. A reply missing from `Env` is treated as the end of the stream, and the client stops with `crashed`.
- The command-line arguments: the welcome port and the client's data port are given values.
- Text.ToUpper: `toUpperCase` runs in the default locale. The model follows a locale without language rules. Under a Turkish or Azeri locale Java maps "i" to a dotted capital I, so "quit" is not dispatched and gets 502; the Lithuanian rules are not modelled either.
- Text.UpperOf: raises the ASCII letters and applies the table of special casings of Unicode 15, the version of Java 21, together with dotless i and long s. Every other character is kept, while Java replaces it by its one-character upper case when it has one (e with acute becomes E with acute). Such a replacement never yields plain ASCII and never changes the UTF-16 length, so neither the dispatch nor the 502/500 choice depends on it.
- Text.UpperOfAstral: keeps every character above U+FFFF. Java raises those with a one-character upper case (Deseret, Osage, Adlam and others) to another character above U+FFFF, of the same UTF-16 length, so the gap is the one the Text.UpperOf line describes.
- Text.ParseInt: reads ASCII digits only, while `Integer.parseInt` also reads the other Unicode decimal digits, such as the fullwidth U+FF10 to U+FF19. Such digits are accepted by Java but refused by the model in a PORT field (src/FTPServer.java:227), a CONNECT port (src/FTPClient.java:222) and a reply code (src/FTPClient.java:588).
- A halt of the server ends the program with the uncaught exception. The model stops the read loop there, sends nothing more and does not reset the session; what the Java runtime does next is not modelled.
- ServerSpec.Run: its own contract states only the bound on lines handled. What the loop does is stated by the lemmas about it and by `FtpServer.Server.ReadLoop`.

=== FILE: client.dfy ===
/** The FTP client's imperative core: the ClientReply object and the static
    state of FTPClient, FTPCommands and ClientFileManager as a class whose
    methods follow the Java handlers step by step. Each method is proved to
    leave the state that ClientSpec prescribes. */
module FtpClient {
  import opened Text
  import opened ClientTokens
  import opened ReplyCheck
  import opened ClientSpec

  /** The client's reply object, updated in place by the handlers. */
  class ClientReply {
    var message: string
    var errorFlag: bool

    function Value(): LocalReply
      reads this
    {
      LocalReply(message, errorFlag)
    }

    constructor ()
      ensures Value() == NewLocalReply
    {
      message := "";
      errorFlag := false;
    }

    method SetMessage(m: string)
      modifies this
      ensures Value() == WithMessage(old(Value()), m)
    {
      message := m;
    }

    method SetReplyByCode(code: int)
      modifies this
      ensures Value() == LocalByCode(old(Value()), code)
    {
      var reply := LocalText(code);
      if IsLocalError(code) {
        errorFlag := true;
      }
      message := reply + "\n";
    }
  }

  /** parseResponse: split the reply, then check it. */
  method CheckResponse(response: string) returns (r: Option<bool>)
    ensures r == ParseResponse(response)
  {
    var splitted := SplitReply(response);
    if splitted.None? {
      return None;
    }
    var msg := CheckReply(response, splitted.value);
    if msg.None? {
      return None;
    }
    return Some(!msg.value.error);
  }

  /** The reading half of processRequest: check the first reply; after an
      accepted RETR at least one more must follow. None where a read or a
      check throws. */
  method ReadReplies(isRetr: bool, responses: seq<string>) returns (r: Option<bool>)
    ensures r == Exchange(isRetr, responses)
  {
    if |responses| == 0 {
      return None;
    }
    var first := CheckResponse(responses[0]);
    if first.None? {
      return None;
    }
    var msgCount := if isRetr && first.value then 1 else 0;
    if |responses| < 1 + msgCount {
      return None;
    }
    r := ReadLater(responses[1..], first.value);
  }

  /** The replies read after the first: each is checked and the last verdict
      counts. */
  method ReadLater(responses: seq<string>, first: bool) returns (r: Option<bool>)
    ensures r == LaterVerdicts(responses, first)
  {
    var result := first;
    var i := 0;
    while i < |responses|
      invariant 0 <= i <= |responses|
      invariant LaterVerdicts(responses, first) == LaterVerdicts(responses[i..], result)
    {
      assert responses[i..][1..] == responses[i + 1..];
      var next := CheckResponse(responses[i]);
      if next.None? {
        return None;
      }
      result := next.value;
      i := i + 1;
    }
    assert responses[i..] == [];
    return Some(result);
  }

  class Client {
    var connectedState: bool
    var quitLoop: bool
    var crashed: bool
    var host: string
    var port: int
    var portNumber: int
    var fileCount: int
    var hostAddress: string
    var printed: seq<string>
    var written: seq<string>
    const reply: ClientReply

    function State(): ClientState
      reads this, reply
    {
      ClientState(connectedState, quitLoop, crashed, host, port, portNumber, fileCount,
                  hostAddress, reply.Value(), printed, written)
    }

    /** The state at the start of main. */
    constructor (initialPort: int, address: string)
      ensures State() == Start(initialPort, address)
    {
      connectedState := false;
      quitLoop := false;
      crashed := false;
      host := "";
      port := 0;
      portNumber := initialPort;
      fileCount := 1;
      hostAddress := address;
      printed := [];
      written := [];
      reply := new ClientReply();
    }

    /** ClientReply.printMessage. */
    method PrintMessage()
      modifies this
      ensures State() == Print(old(State()), old(State()).reply)
    {
      printed := printed + [reply.message];
    }

    /** processRequest: write a line, then read and check its replies. */
    method ProcessRequest(line: string, isRetr: bool, responses: seq<string>) returns (ok: bool)
      modifies this
      ensures Sent(State(), ok) == Send(old(State()), line, isRetr, responses)
    {
      written := written + [line];
      var verdict := ReadReplies(isRetr, responses);
      if verdict.None? {
        crashed := true;
        return false;
      }
      return verdict.value;
    }

    method ProcessConnectRequest(newHost: string, newPort: int, connectOk: bool) returns (ok: bool)
      modifies this, reply
      ensures ok == connectOk
      ensures var st1 := old(State()).(host := newHost, port := newPort);
        State() == if connectOk then st1.(connected := true, reply := WithMessage(st1.reply, ConnectAccepted(newHost, newPort)))
                   else st1.(reply := WithMessage(st1.reply, ConnectFailed))
    {
      host := newHost;
      port := newPort;
      if connectOk {
        reply.SetMessage(ConnectAccepted(newHost, newPort));
        connectedState := true;
        return true;
      }
      reply.SetMessage(ConnectFailed);
      return false;
    }

    method OnConnect(env: Env)
      modifies this
      ensures State() == ClientSpec.OnConnect(old(State()), env)
    {
      if env.greeting.None? {
        crashed := true;
        return;
      }
      var greeting := CheckResponse(env.greeting.value);
      if greeting.None? {
        crashed := true;
        return;
      }
      ghost var st := State();
      var ok := ProcessRequest(UserLine, false, Answer(env, 0));
      LoginNext(st, LoginLines, env, 0);
      if ok {
        ghost var st1 := State();
        ok := ProcessRequest(PassLine, false, Answer(env, 1));
        LoginNext(st1, LoginLines[1..], env, 1);
        if ok {
          ghost var st2 := State();
          ok := ProcessRequest(SystLine, false, Answer(env, 2));
          LoginNext(st2, LoginLines[2..], env, 2);
          if ok {
            ghost var st3 := State();
            ok := ProcessRequest(TypeLine, false, Answer(env, 3));
            LoginNext(st3, LoginLines[3..], env, 3);
          }
        }
      }
    }

    method ProcessGetRequest(path: string) returns (ok: bool)
      modifies reply
      ensures ok == connectedState
      ensures State() == if connectedState then old(State()).(reply := WithMessage(old(State()).reply, GetAccepted(path)))
                         else old(State()).(reply := LocalByCode(old(State()).reply, 0))
    {
      if connectedState {
        reply.SetMessage(GetAccepted(path));
        return true;
      }
      reply.SetReplyByCode(0);
      return false;
    }

    method OnGet(path: string, env: Env)
      modifies this, reply
      ensures State() == ClientSpec.OnGet(old(State()), path, env)
    {
      if portNumber < 0 || portNumber > 65535 {
        crashed := true;
        return;
      }
      if !env.bindOk {
        reply.SetMessage(GetFailed);
        PrintMessage();
        return;
      }
      ghost var st0 := State();
      var portLine := PortLine(hostAddress, portNumber);
      portNumber := Wrap32(portNumber + 1);
      ghost var st1 := State();
      OnGetStart(st0, path, env);
      assert st1 == st0.(portNumber := Wrap32(st0.portNumber + 1));
      var ok := ProcessRequest(portLine, false, Answer(env, 0));
      if crashed {
        return;
      }
      if !ok {
        portNumber := Wrap32(portNumber - 1);
        return;
      }
      Retrieve(path, env);
    }

    /** The RETR exchange of onGet after an accepted PORT, and the copy. */
    method Retrieve(path: string, env: Env)
      modifies this
      ensures State() == ClientSpec.Retrieve(old(State()), path, env)
    {
      var ok := ProcessRequest(RetrLine(path), true, Answer(env, 1));
      if crashed {
        return;
      }
      if !ok {
        portNumber := Wrap32(portNumber - 1);
        return;
      }
      if env.copyOk {
        fileCount := Inc32(fileCount);
      }
    }

    method ProcessQuitRequest() returns (ok: bool)
      modifies this, reply
      ensures ok == old(connectedState)
      ensures State() == if ok then old(State()).(quit := true, reply := LocalByCode(old(State()).reply, 5))
                         else old(State()).(reply := LocalByCode(old(State()).reply, 0))
    {
      if connectedState {
        quitLoop := true;
        reply.SetReplyByCode(5);
        return true;
      }
      reply.SetReplyByCode(0);
      return false;
    }

    method OnQuit(env: Env)
      modifies this
      ensures State() == ClientSpec.OnQuit(old(State()), env)
    {
      var _ := ProcessRequest(QuitLine, false, Answer(env, 0));
    }

    /** One iteration of main's loop. */
    method HandleRequest(request: string, env: Env)
      modifies this, reply
      ensures State() == Step(old(State()), request, env)
    {
      StepIsDispatch(old(State()), request, env);
      reply.errorFlag := false;
      ghost var st0 := State();
      assert st0 == old(State()).(reply := old(State()).reply.(error := false));
      var splitted := SplitRequest(request);
      var command := if |splitted| == 0 then "NULL" else ToUpper(splitted[0]);
      assert command == CommandOf(splitted);
      var c := ParseCommand(command);
      HandleCommand(splitted, c, env);
    }

    /** The switch on the request's command in main. */
    method HandleCommand(splitted: seq<string>, c: Option<Command>, env: Env)
      requires c.Some? ==> |splitted| >= 1
      modifies this, reply
      ensures State() == Dispatch(old(State()), splitted, c, env)
    {
      if c.None? {
        reply.SetReplyByCode(1);
        PrintMessage();
        return;
      }
      match c.value
      case CONNECT => HandleConnect(splitted, env);
      case GET => HandleGet(splitted, env);
      case QUIT => HandleQuit(splitted, env);
    }

    method HandleConnect(splitted: seq<string>, env: Env)
      requires |splitted| >= 1
      modifies this, reply
      ensures State() == DoConnect(old(State()), splitted, env)
    {
      var v := ConnectCheck(splitted);
      var result := false;
      if v.Refuse? {
        reply.SetReplyByCode(v.code);
      } else {
        result := ProcessConnectRequest(v.host, v.port, env.connectOk);
      }
      PrintMessage();
      if result {
        OnConnect(env);
      }
    }

    method HandleGet(splitted: seq<string>, env: Env)
      requires |splitted| >= 1
      modifies this, reply
      ensures State() == DoGet(old(State()), splitted, env)
    {
      var v := GetCheck(splitted);
      var result := false;
      if v.Refuse? {
        reply.SetReplyByCode(v.code);
      } else {
        result := ProcessGetRequest(v.path);
      }
      PrintMessage();
      if result {
        OnGet(v.path, env);
      }
    }

    method HandleQuit(splitted: seq<string>, env: Env)
      modifies this, reply
      ensures State() == DoQuit(old(State()), splitted, env)
    {
      var v := QuitCheck(splitted);
      var result := false;
      if v.Refuse? {
        reply.SetReplyByCode(v.code);
      } else {
        result := ProcessQuitRequest();
      }
      PrintMessage();
      if result {
        OnQuit(env);
      }
    }

    /** main's loop over the user's request lines. */
    method Run(requests: seq<string>, envs: seq<Env>)
      requires |envs| == |requests|
      modifies this, reply
      ensures State() == ClientSpec.Run(old(State()), requests, envs)
    {
      var i := 0;
      while !quitLoop && !crashed && i < |requests|
        invariant 0 <= i <= |requests|
        invariant ClientSpec.Run(old(State()), requests, envs) == ClientSpec.Run(State(), requests[i..], envs[i..])
      {
        assert requests[i..][1..] == requests[i + 1..] && envs[i..][1..] == envs[i + 1..];
        HandleRequest(requests[i], envs[i]);
        i := i + 1;
      }
    }
  }
}

=== FILE: client_properties.dfy ===
/** What the FTP client promises about a request line: how it is dispatched
    and validated, which local code each malformed request gets, what it
    writes to the server, how its data-port counter moves, and the state
    invariant its main loop keeps. */
module ClientProperties {
  import opened Text
  import opened ClientTokens
  import opened ReplyCheck
  import opened ClientSpec

  // ---------------------------------------------------------------------------
  // Dispatch

  /** A request is dispatched to a handler exactly when its first token,
      upper-cased, names one of CONNECT, GET and QUIT; a blank line is
      dispatched on "NULL" and so to none. */
  lemma DispatchByFirstToken(request: string, c: Command)
    ensures var ts := RequestTokens(request);
      ParseCommand(CommandOf(ts)) == Some(c) <==> ts != [] && ToUpper(ts[0]) == CommandName(c)
    ensures AllSpaces(request) ==> ParseCommand(CommandOf(RequestTokens(request))).None?
  {
    RequestTokensProperties(request);
  }

  /** The upper-casing is Java's full one: a first token "qu" dotless-i "t"
      is dispatched as QUIT. */
  lemma DotlessIQuit()
    ensures ParseCommand(CommandOf(["qu\U{0131}t"])) == Some(QUIT)
  {
    UpperDotlessIWord();
  }

  /** A request line that names no known command is answered with local code
      1, which raises the error flag, and nothing else changes: no line is
      written and the session is as it was. */
  lemma UnknownCommandRefused(st: ClientState, request: string, env: Env)
    requires ParseCommand(CommandOf(RequestTokens(request))).None?
    ensures var r := Step(st, request, env);
      r.reply == LocalReply("ERROR -- request\n", true) &&
      r.printed == st.printed + ["ERROR -- request\n"] &&
      r.(reply := st.reply, printed := st.printed) == st
  {
    StepUnknown(st, request, env);
    UnknownPrinted(st);
  }

  /** Code 1 printed after the flag was lowered. */
  lemma UnknownPrinted(st: ClientState)
    ensures var st0 := st.(reply := st.reply.(error := false));
      var r := Print(st0, LocalByCode(st0.reply, 1));
      r.reply == LocalReply("ERROR -- request\n", true) &&
      r.printed == st.printed + ["ERROR -- request\n"] &&
      r.(reply := st.reply, printed := st.printed) == st
  {
  }

  /** The local codes: 0 to 4 are errors and raise the flag, 5 (QUIT
      accepted) leaves it as it was, and the flag is never lowered. Every
      message ends with a line feed and only the six codes have their own
      text. */
  lemma LocalCodes(r: LocalReply, code: int)
    ensures var n := LocalByCode(r, code);
      (n.error <==> r.error || 0 <= code <= 4) &&
      (r.error ==> n.error) &&
      n.message[|n.message| - 1] == '\n' &&
      (0 <= code <= 5 <==> n.message != "Invalid code\n")
  {
  }

  // ---------------------------------------------------------------------------
  // CONNECT

  /** The code of every refused CONNECT, and the requests that are accepted:
      a bare CONNECT is code 1; a missing or malformed host, or a host with
      no port token after it, is code 2; a missing, non-integer or
      out-of-range port, or anything after the port, is code 3. */
  lemma ConnectCodes(s: seq<string>)
    requires |s| >= 1
    ensures ConnectCheck(s) == Refuse(1) <==> |s| == 1
    ensures ConnectCheck(s) == Refuse(2) <==> |s| == 2 || (|s| >= 3 && (!ValidHost(s[2]) || |s| == 3))
    ensures ConnectCheck(s) == Refuse(3) <==>
      |s| >= 4 && ValidHost(s[2]) &&
      (|s| == 4 || |s| > 5 || ParseInt(s[4]).None? || ParseInt(s[4]).value < 0 || ParseInt(s[4]).value > 65535)
    ensures ConnectCheck(s).ConnectTo? <==>
      |s| == 5 && ValidHost(s[2]) && ParseInt(s[4]).Some? && 0 <= ParseInt(s[4]).value <= 65535
    ensures ConnectCheck(s).ConnectTo? ==> ConnectCheck(s) == ConnectTo(s[2], ParseInt(s[4]).value)
  {
  }

  /** Without a dot the host is valid exactly when it is one label. */
  lemma SingleLabelHost(h: string)
    requires '.' !in h
    ensures ValidHost(h) <==> IsLabel(h)
  {
    assert Split(h, '.') == [h];
    if IsLabel(h) {
      assert h[0] in h && h[|h| - 1] in h;
    }
    if ValidHost(h) {
      assert IsLabel(Split(h, '.')[0]);
    }
  }

  /** The last piece between separators is not empty when the string does
      not end with a separator. */
  lemma {:induction false} PiecesLastNonEmpty(s: string, sep: char)
    requires s != [] && s[|s| - 1] != sep
    ensures var ps := Pieces(s, sep); ps[|ps| - 1] != []
    decreases |s|
  {
    var i := IndexOf(s, sep);
    if i >= 0 {
      var rest := s[i + 1..];
      assert rest[|rest| - 1] == s[|s| - 1];
      PiecesLastNonEmpty(rest, sep);
    }
  }

  /** Two separators in a row after a separator-free start leave an empty
      piece between them. */
  lemma DoubleSepPieces(a: string, sep: char, b: string)
    requires sep !in a
    ensures Pieces(a + [sep] + ([sep] + b), sep) == [a, []] + Pieces(b, sep)
  {
    var rest := [sep] + b;
    var pb := Pieces(b, sep);
    assert Pieces(rest, sep) == [[]] + pb by {
      PiecesJoin([], sep, b);
      assert [] + [sep] + b == rest;
    }
    PiecesJoin(a, sep, rest);
    assert [a] + ([[]] + pb) == [a, []] + pb;
  }

  /** Two dots in a row leave an empty label between them, so the host is
      refused (for example "exa..mple"). */
  lemma DoubleDotInvalid(a: string, b: string)
    requires '.' !in a
    ensures !ValidHost(a + ".." + b)
  {
    var h := a + ['.'] + (['.'] + b);
    assert h == a + ".." + b;
    if h[|h| - 1] != '.' {
      DoubleSepPieces(a, '.', b);
      var ps := Pieces(h, '.');
      PiecesLastNonEmpty(h, '.');
      assert h[|a|] == '.';
      assert Split(h, '.') == DropTrailingEmpty(ps) == ps;
      assert !IsLabel(ps[1]);
    }
  }

  lemma DoubleDotExample()
    ensures !ValidHost("exa..mple")
  {
    DoubleDotInvalid("exa", "mple");
    assert "exa" + ".." + "mple" == "exa..mple";
  }

  // ---------------------------------------------------------------------------
  // GET and QUIT validation

  /** The code of every refused GET, and the requests that are accepted: a
      bare GET is code 1; no pathname, or a pathname with a non-ASCII
      character, is code 4; otherwise the rebuilt parameter is fetched. */
  lemma GetCodes(s: seq<string>)
    requires |s| >= 1
    ensures GetCheck(s) == Refuse(1) <==> |s| == 1
    ensures GetCheck(s) == Refuse(4) <==> |s| == 2 || (|s| >= 3 && !IsAscii(ClientParameter(s)))
    ensures GetCheck(s).Fetch? <==> |s| >= 3 && IsAscii(ClientParameter(s))
    ensures GetCheck(s).Fetch? ==> GetCheck(s).path == ClientParameter(s)
  {
  }

  /** QUIT is accepted only on its own. */
  lemma QuitCodes(s: seq<string>)
    ensures QuitCheck(s) == Leave <==> |s| == 1
    ensures QuitCheck(s) == Refuse(1) <==> |s| != 1
  {
  }

  /** Skipping the whitespace runs in front of a token list leaves the list
      from its first other token on. */
  lemma {:induction false} SkipPrefix(us: seq<string>, m: nat)
    requires m <= |us|
    requires forall j :: 0 <= j < m ==> IsWhitespaceRun(us[j])
    requires m == |us| || !IsWhitespaceRun(us[m])
    ensures SkipWhitespaceRuns(us) == us[m..]
  {
    if m > 0 {
      SkipPrefix(us[1..], m - 1);
      assert us[1..][m - 1..] == us[m..];
    }
  }

  /** The parameter of a request: the tokens from the first one at index 2 or
      later that is not whitespace-only, concatenated. */
  lemma ParameterShape(ts: seq<string>, k: nat)
    requires 2 <= k <= |ts|
    requires forall j :: 2 <= j < k ==> IsWhitespaceRun(ts[j])
    requires k == |ts| || !IsWhitespaceRun(ts[k])
    ensures ClientParameter(ts) == Concat(ts[k..])
  {
    var us := ts[2..];
    SkipPrefix(us, k - 2);
    assert us[k - 2..] == ts[k..];
  }

  /** `GET path`, with one space and a path that does not start with
      whitespace, fetches the whole path, spaces included. */
  lemma GetPathKept(path: string)
    requires path != [] && !IsJavaWhitespace(path[0])
    ensures GetCheck(RequestTokens("GET " + path)) ==
            if IsAscii(path) then Fetch(path) else Refuse(4)
  {
    GetLineTokens(path);
    var rs := Runs(path);
    var ts := ["GET", " "] + rs;
    assert !IsWhitespaceRun(ts[2]);
    ParameterShape(ts, 2);
    assert ts[2..] == rs;
  }

  /** The tokens of `GET path`: the verb, the space, and the runs of the path. */
  lemma GetLineTokens(path: string)
    requires path != [] && path[0] != ' '
    ensures var rs := Runs(path);
      rs != [] && rs[0][0] == path[0] && Concat(rs) == path &&
      RequestTokens("GET " + path) == ["GET", " "] + rs
  {
    var line := "GET " + path;
    var rs := Runs(path);
    RunsIsRunSplit(path);
    assert rs[0][0] == path[0];
    assert IsRunSplit("GET", ["GET"]) by {
      ConcatCons("GET", []);
      assert ["GET"] + [] == ["GET"];
    }
    assert IsRunSplit(" ", [" "]) by {
      ConcatCons(" ", []);
      assert [" "] + [] == [" "];
    }
    RunSplitAppend("GET", ["GET"], " ", [" "]);
    assert ["GET"] + [" "] == ["GET", " "];
    RunSplitAppend("GET ", ["GET", " "], path, rs);
    assert TrimLeadingSpaces(line) == line;
    RunSplitIsRuns(line, ["GET", " "] + rs);
  }

  // ---------------------------------------------------------------------------
  // What a request may change

  /** Nothing already written or printed is taken back, a connection or an
      accepted QUIT is never undone, and the host's address never changes. */
  predicate Grows(a: ClientState, b: ClientState) {
    a.written <= b.written && a.printed <= b.printed &&
    (a.connected ==> b.connected) && (a.quit ==> b.quit) && b.hostAddress == a.hostAddress
  }

  /** The connection and QUIT flags are as they were. */
  predicate SameSession(a: ClientState, b: ClientState) {
    b.connected == a.connected && b.quit == a.quit
  }

  /** Writing a line appends exactly that line and touches no flag. */
  lemma SendEffect(st: ClientState, line: string, isRetr: bool, responses: seq<string>)
    ensures var r := Send(st, line, isRetr, responses).st;
      r.written == st.written + [line] && r.printed == st.printed &&
      SameSession(st, r) && Grows(st, r) && r.portNumber == st.portNumber && r.fileCount == st.fileCount
  {
  }

  /** A line whose replies are read without a throw: it is written and the
      verdict is the last reply's. */
  lemma SendAnswered(st: ClientState, line: string, isRetr: bool, responses: seq<string>, ok: bool)
    requires Exchange(isRetr, responses) == Some(ok)
    ensures Send(st, line, isRetr, responses) == Sent(st.(written := st.written + [line]), ok)
  {
  }

  /** processRequest's verdict: a verdict exists exactly when at least one
      reply was read, every reply read passed the check, and an accepted
      first reply to RETR was followed by another; the verdict is then the
      check's verdict on the last reply read. */
  lemma ExchangeVerdict(isRetr: bool, responses: seq<string>)
    ensures var v := Exchange(isRetr, responses);
      (v.Some? <==>
         responses != [] && (forall k :: 0 <= k < |responses| ==> ParseResponse(responses[k]).Some?) &&
         !(isRetr && ParseResponse(responses[0]) == Some(true) && |responses| < 2)) &&
      (v.Some? ==> v == ParseResponse(responses[|responses| - 1]))
  {
    if responses != [] && ParseResponse(responses[0]).Some? {
      var first := ParseResponse(responses[0]).value;
      var rest := responses[1..];
      LaterVerdictsLast(rest, first);
      FirstAndRest(responses);
      if rest != [] {
        assert rest[|rest| - 1] == responses[|responses| - 1];
      }
    }
  }

  /** Every reply passes the check exactly when the first and all later ones do. */
  lemma FirstAndRest(responses: seq<string>)
    requires responses != []
    ensures (forall k :: 0 <= k < |responses| ==> ParseResponse(responses[k]).Some?) <==>
            ParseResponse(responses[0]).Some? &&
            (forall k :: 0 <= k < |responses[1..]| ==> ParseResponse(responses[1..][k]).Some?)
  {
    forall k | 1 <= k < |responses|
      ensures ParseResponse(responses[k]) == ParseResponse(responses[1..][k - 1])
    {
    }
  }

  /** The further replies: a verdict exists exactly when each of them passes
      the check, and it is the last one's, or `result` when there are none. */
  lemma {:induction false} LaterVerdictsLast(responses: seq<string>, result: bool)
    ensures var v := LaterVerdicts(responses, result);
      (v.Some? <==> forall k :: 0 <= k < |responses| ==> ParseResponse(responses[k]).Some?) &&
      (v.Some? ==> v == if responses == [] then Some(result) else ParseResponse(responses[|responses| - 1]))
    decreases |responses|
  {
    if responses != [] && ParseResponse(responses[0]).Some? {
      var rest := responses[1..];
      LaterVerdictsLast(rest, ParseResponse(responses[0]).value);
      forall k | 1 <= k < |responses|
        ensures ParseResponse(responses[k]) == ParseResponse(rest[k - 1])
      {
      }
      if rest != [] {
        assert rest[|rest| - 1] == responses[|responses| - 1];
      }
    }
  }

  lemma {:induction false} LoginKeeps(st: ClientState, lines: seq<string>, env: Env, j: nat)
    ensures Grows(st, Login(st, lines, env, j)) && SameSession(st, Login(st, lines, env, j))
    decreases |lines|
  {
    if lines != [] {
      var s := Send(st, lines[0], false, Answer(env, j));
      SendEffect(st, lines[0], false, Answer(env, j));
      LoginKeeps(s.st, lines[1..], env, j + 1);
      GrowsTransitive(st, s.st, Login(s.st, lines[1..], env, j + 1));
    }
  }

  lemma OnConnectKeeps(st: ClientState, env: Env)
    ensures Grows(st, OnConnect(st, env)) && SameSession(st, OnConnect(st, env))
  {
    LoginKeeps(st, LoginLines, env, 0);
  }

  lemma RetrieveKeeps(st: ClientState, path: string, env: Env)
    ensures Grows(st, Retrieve(st, path, env)) && SameSession(st, Retrieve(st, path, env))
  {
    SendEffect(st, RetrLine(path), true, Answer(env, 1));
  }

  lemma TransferKeeps(st: ClientState, portLine: string, path: string, env: Env)
    ensures Grows(st, Transfer(st, portLine, path, env)) && SameSession(st, Transfer(st, portLine, path, env))
  {
    var port := Send(st, portLine, false, Answer(env, 0));
    SendEffect(st, portLine, false, Answer(env, 0));
    RetrieveKeeps(port.st, path, env);
  }

  lemma OnGetKeeps(st: ClientState, path: string, env: Env)
    ensures Grows(st, OnGet(st, path, env)) && SameSession(st, OnGet(st, path, env))
  {
    if 0 <= st.portNumber <= 65535 && env.bindOk {
      TransferKeeps(st.(portNumber := Wrap32(st.portNumber + 1)), PortLine(st.hostAddress, st.portNumber), path, env);
    }
  }

  /** One request only adds to what was written and printed and never
      disconnects; a line is written only while connected. */
  lemma StepGrows(st: ClientState, request: string, env: Env)
    ensures Grows(st, Step(st, request, env))
    ensures !Step(st, request, env).connected ==> Step(st, request, env).written == st.written
  {
    var st0 := st.(reply := st.reply.(error := false));
    var ts := RequestTokens(request);
    var c := ParseCommand(CommandOf(ts));
    if c == Some(CONNECT) {
      DoConnectGrows(st0, ts, env);
    } else if c == Some(GET) {
      DoGetGrows(st0, ts, env);
    } else if c == Some(QUIT) {
      DoQuitGrows(st0, ts, env);
    }
  }

  lemma DoConnectGrows(st: ClientState, ts: seq<string>, env: Env)
    requires |ts| >= 1
    ensures var r := DoConnect(st, ts, env);
      Grows(st, r) && (!r.connected ==> r.written == st.written) && (r.quit == st.quit)
  {
    var v := ConnectCheck(ts);
    if v.ConnectTo? && env.connectOk {
      var st1 := st.(host := v.host, port := v.port);
      var st2 := Print(st1.(connected := true), WithMessage(st1.reply, ConnectAccepted(v.host, v.port)));
      OnConnectKeeps(st2, env);
    }
  }

  lemma DoGetGrows(st: ClientState, ts: seq<string>, env: Env)
    requires |ts| >= 1
    ensures var r := DoGet(st, ts, env);
      Grows(st, r) && SameSession(st, r) && (!r.connected ==> r.written == st.written)
  {
    var v := GetCheck(ts);
    if v.Fetch? && st.connected {
      OnGetKeeps(Print(st, WithMessage(st.reply, GetAccepted(v.path))), v.path, env);
    }
  }

  lemma DoQuitGrows(st: ClientState, ts: seq<string>, env: Env)
    ensures var r := DoQuit(st, ts, env);
      Grows(st, r) && r.connected == st.connected && (!r.connected ==> r.written == st.written) &&
      (r.quit ==> r.connected || st.quit)
  {
    var v := QuitCheck(ts);
    if v == Leave && st.connected {
      SendEffect(Print(st.(quit := true), LocalByCode(st.reply, 5)), QuitLine, false, Answer(env, 0));
    }
  }

  /** Every request keeps the client's invariant: QUIT is accepted, and a
      line is written to the server, only once connected. */
  lemma StepPreservesInvariant(st: ClientState, request: string, env: Env)
    requires Invariant(st)
    ensures Invariant(Step(st, request, env))
  {
    var st0 := st.(reply := st.reply.(error := false));
    var ts := RequestTokens(request);
    var c := ParseCommand(CommandOf(ts));
    if c == Some(CONNECT) {
      DoConnectGrows(st0, ts, env);
    } else if c == Some(GET) {
      DoGetGrows(st0, ts, env);
    } else if c == Some(QUIT) {
      DoQuitGrows(st0, ts, env);
    }
  }

  /** A property of states that every step keeps holds after the loop. */
  lemma {:induction false} LoopKeeps(step: (ClientState, string, Env) -> ClientState,
                                     inv: ClientState -> bool,
                                     st: ClientState, requests: seq<string>, envs: seq<Env>)
    requires |envs| == |requests| && inv(st)
    requires forall s: ClientState, r: string, e: Env :: inv(s) ==> inv(step(s, r, e))
    ensures inv(Loop(step, st, requests, envs))
    decreases |requests|
  {
    if requests != [] && !st.quit && !st.crashed {
      LoopKeeps(step, inv, step(st, requests[0], envs[0]), requests[1..], envs[1..]);
    }
  }

  /** The invariant holds after any sequence of requests. */
  lemma RunPreservesInvariant(st: ClientState, requests: seq<string>, envs: seq<Env>)
    requires |envs| == |requests| && Invariant(st)
    ensures Invariant(Run(st, requests, envs))
  {
    forall s: ClientState, r: string, e: Env | Invariant(s)
      ensures Invariant(Step(s, r, e))
    {
      StepPreservesInvariant(s, r, e);
    }
    LoopKeeps(Step, Invariant, st, requests, envs);
  }

  lemma GrowsTransitive(a: ClientState, b: ClientState, c: ClientState)
    requires Grows(a, b) && Grows(b, c)
    ensures Grows(a, c)
  {
    assert a.written <= c.written by {
      assert c.written[..|a.written|] == b.written[..|b.written|][..|a.written|];
    }
    assert a.printed <= c.printed by {
      assert c.printed[..|a.printed|] == b.printed[..|b.printed|][..|a.printed|];
    }
  }

  /** A whole session only adds to what was written and printed. */
  lemma RunGrows(st: ClientState, requests: seq<string>, envs: seq<Env>)
    requires |envs| == |requests|
    ensures Grows(st, Run(st, requests, envs))
  {
    forall s: ClientState, r: string, e: Env | Grows(st, s)
      ensures Grows(st, Step(s, r, e))
    {
      StepGrows(s, r, e);
      GrowsTransitive(st, s, Step(s, r, e));
    }
    LoopKeeps(Step, s => Grows(st, s), st, requests, envs);
  }

  lemma StartInvariant(portNumber: int, hostAddress: string)
    ensures Invariant(Start(portNumber, hostAddress))
    ensures Start(portNumber, hostAddress).fileCount == 1 && Start(portNumber, hostAddress).written == []
  {
  }

  // ---------------------------------------------------------------------------
  // The data-port counter and the file count (onGet)

  /** onGet with a data port outside [0, 65535]: the bind throws and the
      client crashes before anything is written. */
  lemma OnGetOutOfRange(st: ClientState, path: string, env: Env)
    requires !(0 <= st.portNumber <= 65535)
    ensures var r := OnGet(st, path, env);
      r.crashed && r.written == st.written && r.portNumber == st.portNumber && r.fileCount == st.fileCount
  {
  }

  /** onGet when the data port cannot be bound: the failure is printed and
      neither counter moves. */
  lemma OnGetUnbound(st: ClientState, path: string, env: Env)
    requires 0 <= st.portNumber <= 65535 && !env.bindOk
    ensures var r := OnGet(st, path, env);
      r.crashed == st.crashed && r.written == st.written &&
      r.printed == st.printed + [GetFailed] &&
      r.portNumber == st.portNumber && r.fileCount == st.fileCount
  {
  }

  /** onGet of a running client with a bound data port: PORT is written, and
      RETR after it only when PORT is accepted; the client crashes exactly
      when a reply it waits for is missing or unreadable. */
  lemma OnGetWrites(st: ClientState, path: string, env: Env)
    requires 0 <= st.portNumber <= 65535 && env.bindOk && !st.crashed
    ensures var r := OnGet(st, path, env);
      var port := Exchange(false, Answer(env, 0));
      var retr := Exchange(true, Answer(env, 1));
      r.written == st.written + [PortLine(st.hostAddress, st.portNumber)] +
                   (if port == Some(true) then [RetrLine(path)] else []) &&
      (r.crashed <==> port.None? || (port == Some(true) && retr.None?))
  {
    var next := Wrap32(st.portNumber + 1);
    assert next == st.portNumber + 1;
    TransferCounters(st.(portNumber := next), PortLine(st.hostAddress, st.portNumber), path, env, st.fileCount);
  }

  /** The same onGet without a crash: the counter ends one higher exactly
      when both PORT and RETR were accepted and is back where it was
      otherwise, and the file count rises exactly when the copy also
      succeeded. */
  lemma OnGetCounters(st: ClientState, path: string, env: Env)
    requires 0 <= st.portNumber <= 65535 && env.bindOk && !st.crashed
    ensures var r := OnGet(st, path, env);
      var accepted := Exchange(false, Answer(env, 0)) == Some(true) && Exchange(true, Answer(env, 1)) == Some(true);
      !r.crashed ==>
        r.portNumber == (if accepted then st.portNumber + 1 else st.portNumber) &&
        r.fileCount == (if accepted && env.copyOk then Inc32(st.fileCount) else st.fileCount)
  {
    var next := Wrap32(st.portNumber + 1);
    assert next == st.portNumber + 1;
    TransferCounters(st.(portNumber := next), PortLine(st.hostAddress, st.portNumber), path, env, st.fileCount);
  }

  /** The PORT exchange of a running client with the counter moved on to a
      value in [1, 65536]. */
  lemma TransferCounters(st: ClientState, portLine: string, path: string, env: Env, count: int)
    requires 1 <= st.portNumber <= 65536 && !st.crashed && st.fileCount == count
    ensures var r := Transfer(st, portLine, path, env);
      var port := Exchange(false, Answer(env, 0));
      var retr := Exchange(true, Answer(env, 1));
      var accepted := port == Some(true) && retr == Some(true);
      r.written == st.written + [portLine] + (if port == Some(true) then [RetrLine(path)] else []) &&
      (r.crashed <==> port.None? || (port == Some(true) && retr.None?)) &&
      (!r.crashed ==>
         r.portNumber == (if accepted then st.portNumber else st.portNumber - 1) &&
         r.fileCount == (if accepted && env.copyOk then Inc32(count) else count))
  {
    var port := Exchange(false, Answer(env, 0));
    var sent := Send(st, portLine, false, Answer(env, 0));
    SendVerdict(st, portLine, false, Answer(env, 0));
    if port == Some(true) {
      RetrieveCounters(sent.st, path, env);
    }
  }

  /** The RETR exchange of a running client, then the copy. */
  lemma RetrieveCounters(st: ClientState, path: string, env: Env)
    requires !st.crashed
    ensures var r := Retrieve(st, path, env);
      var retr := Exchange(true, Answer(env, 1));
      r.written == st.written + [RetrLine(path)] &&
      (r.crashed <==> retr.None?) &&
      (!r.crashed ==>
         r.portNumber == (if retr == Some(true) then st.portNumber else Wrap32(st.portNumber - 1)) &&
         r.fileCount == (if retr == Some(true) && env.copyOk then Inc32(st.fileCount) else st.fileCount))
  {
    SendVerdict(st, RetrLine(path), true, Answer(env, 1));
  }

  /** Writing a line from a running client: it crashes exactly when no
      verdict comes back, and the line counts as accepted exactly when the
      verdict is acceptance; nothing else changes. */
  lemma SendVerdict(st: ClientState, line: string, isRetr: bool, responses: seq<string>)
    requires !st.crashed
    ensures var s := Send(st, line, isRetr, responses);
      var v := Exchange(isRetr, responses);
      s.st == st.(written := st.written + [line], crashed := v.None?) &&
      (s.ok <==> v == Some(true))
  {
  }

  // ---------------------------------------------------------------------------
  // The connection gate and QUIT

  /** Without a connection a GET that passes validation gets local code 0;
      a refused one gets its own code; either way nothing is written. */
  lemma DoGetDisconnected(st: ClientState, ts: seq<string>, env: Env)
    requires |ts| >= 1 && !st.connected
    ensures var v := GetCheck(ts);
      DoGet(st, ts, env) == Print(st, LocalByCode(st.reply, if v.Refuse? then v.code else 0))
  {
  }

  lemma DoQuitDisconnected(st: ClientState, ts: seq<string>, env: Env)
    requires !st.connected
    ensures var v := QuitCheck(ts);
      DoQuit(st, ts, env) == Print(st, LocalByCode(st.reply, if v.Refuse? then v.code else 0))
  {
  }

  /** A request answered locally: the error flag is raised, the reply is
      printed, and nothing else changes; in particular nothing is written. */
  predicate LocallyRefused(st: ClientState, r: ClientState) {
    r.reply.error && r.(reply := st.reply, printed := st.printed) == st &&
    r.printed == st.printed + [r.reply.message]
  }

  /** GET needs a connection: without one it is refused locally, with code 0
      when the request itself is well formed. */
  lemma GetNeedsConnection(st: ClientState, request: string, env: Env)
    requires !st.connected
    requires ParseCommand(CommandOf(RequestTokens(request))) == Some(GET)
    ensures LocallyRefused(st, Step(st, request, env))
    ensures var ts := RequestTokens(request);
      |ts| >= 3 && IsAscii(ClientParameter(ts)) ==>
      Step(st, request, env).reply.message == "ERROR -- expecting CONNECT\n"
  {
    var st0 := st.(reply := st.reply.(error := false));
    var ts := RequestTokens(request);
    StepGet(st, request, env);
    DoGetDisconnected(st0, ts, env);
    var v := GetCheck(ts);
    RefusedLocally(st, if v.Refuse? then v.code else 0);
  }

  /** Printing a local error code after the flag was cleared. */
  lemma RefusedLocally(st: ClientState, code: int)
    requires code in {0, 1, 4}
    ensures var st0 := st.(reply := st.reply.(error := false));
      var r := Print(st0, LocalByCode(st0.reply, code));
      LocallyRefused(st, r) && (code == 0 ==> r.reply.message == "ERROR -- expecting CONNECT\n")
  {
  }

  /** QUIT needs a connection: without one it is refused locally, with code
      0 when the request is the bare command. */
  lemma QuitNeedsConnection(st: ClientState, request: string, env: Env)
    requires !st.connected
    requires ParseCommand(CommandOf(RequestTokens(request))) == Some(QUIT)
    ensures LocallyRefused(st, Step(st, request, env))
    ensures |RequestTokens(request)| == 1 ==>
      Step(st, request, env).reply.message == "ERROR -- expecting CONNECT\n"
  {
    var st0 := st.(reply := st.reply.(error := false));
    StepQuit(st, request, env);
    DoQuitDisconnected(st0, RequestTokens(request), env);
    var v := QuitCheck(RequestTokens(request));
    RefusedLocally(st, if v.Refuse? then v.code else 0);
  }

  /** An accepted QUIT: the loop flag is set, code 5 is printed without
      raising the error flag, and exactly the QUIT line is written. */
  lemma QuitAccepted(st: ClientState, request: string, env: Env)
    requires st.connected
    requires |RequestTokens(request)| == 1 && ToUpper(RequestTokens(request)[0]) == "QUIT"
    ensures var r := Step(st, request, env);
      r.quit && r.connected && !r.reply.error &&
      r.reply.message == "QUIT accepted, terminating FTP client\n" &&
      r.printed == st.printed + [r.reply.message] &&
      r.written == st.written + [QuitLine] &&
      (r.crashed <==> st.crashed || Exchange(false, Answer(env, 0)).None?)
  {
    QuitStep(st, request, env);
    QuitSent(st, env);
  }

  /** Sending QUIT after the acceptance has been printed. */
  lemma QuitSent(st: ClientState, env: Env)
    requires st.connected
    ensures var r := OnQuit(QuitPrinted(st), env);
      r.quit && r.connected && !r.reply.error &&
      r.reply.message == "QUIT accepted, terminating FTP client\n" &&
      r.printed == st.printed + [r.reply.message] &&
      r.written == st.written + [QuitLine] &&
      (r.crashed <==> st.crashed || Exchange(false, Answer(env, 0)).None?)
  {
    SendEffect(QuitPrinted(st), QuitLine, false, Answer(env, 0));
  }

  /** The state after an accepted QUIT is printed, before the line is sent. */
  function QuitPrinted(st: ClientState): ClientState {
    var st0 := st.(reply := st.reply.(error := false));
    Print(st0.(quit := true), LocalByCode(st0.reply, 5))
  }

  lemma QuitStep(st: ClientState, request: string, env: Env)
    requires st.connected
    requires |RequestTokens(request)| == 1 && ToUpper(RequestTokens(request)[0]) == "QUIT"
    ensures Step(st, request, env) == OnQuit(QuitPrinted(st), env)
  {
    StepQuit(st, request, env);
  }

  /** Once QUIT is accepted or the client has thrown, no further line is read. */
  lemma RunStops(st: ClientState, requests: seq<string>, envs: seq<Env>)
    requires |envs| == |requests| && requests != []
    requires !st.quit && !st.crashed
    requires var r := Step(st, requests[0], envs[0]); r.quit || r.crashed
    ensures Run(st, requests, envs) == Step(st, requests[0], envs[0])
  {
    LoopStops(Step, st, requests, envs);
  }

  /** The same for any step function: a step that stops the loop is the last. */
  lemma LoopStops(step: (ClientState, string, Env) -> ClientState,
                  st: ClientState, requests: seq<string>, envs: seq<Env>)
    requires |envs| == |requests| && requests != []
    requires !st.quit && !st.crashed
    requires var r := step(st, requests[0], envs[0]); r.quit || r.crashed
    ensures Loop(step, st, requests, envs) == step(st, requests[0], envs[0])
  {
    var r := step(st, requests[0], envs[0]);
    assert Loop(step, st, requests, envs) == Loop(step, r, requests[1..], envs[1..]);
  }

  // ---------------------------------------------------------------------------
  // Logging in after CONNECT

  /** The verdict on the replies to the `i`-th line of the login chain. */
  function LoginVerdict(env: Env): nat -> Option<bool> {
    (i: nat) => Exchange(false, Answer(env, i))
  }

  /** A chain of lines, each written after the previous one was accepted,
      over an arbitrary source of verdicts. */
  function Chain(verdict: nat -> Option<bool>, st: ClientState, lines: seq<string>, j: nat): ClientState
    decreases |lines|
  {
    if lines == [] then st
    else
      var st1 := st.(written := st.written + [lines[0]]);
      match verdict(j)
      case None => st1.(crashed := true)
      case Some(ok) => if ok then Chain(verdict, st1, lines[1..], j + 1) else st1
  }

  /** The login chain is the chain over the verdicts of the login replies. */
  lemma {:induction false} LoginIsChain(st: ClientState, lines: seq<string>, env: Env, j: nat)
    ensures Login(st, lines, env, j) == Chain(LoginVerdict(env), st, lines, j)
    decreases |lines|
  {
    if lines != [] {
      LoginNext(st, lines, env, j);
      var s := Send(st, lines[0], false, Answer(env, j));
      if s.ok {
        LoginIsChain(s.st, lines[1..], env, j + 1);
      }
    }
  }

  /** How many lines of a chain are written when the first `k` are accepted
      and the next one, if any, is refused. */
  function LoginCount(lines: seq<string>, k: nat): nat {
    if k < |lines| then k + 1 else k
  }

  /** A chain writes its lines up to the first refused one (all of them when
      none is refused) and changes nothing else. */
  lemma {:induction false} ChainPrefix(verdict: nat -> Option<bool>, st: ClientState, lines: seq<string>, j: nat, k: nat)
    requires k <= |lines|
    requires forall i :: j <= i < j + k ==> verdict(i) == Some(true)
    requires k < |lines| ==> verdict(j + k) == Some(false)
    ensures Chain(verdict, st, lines, j) == st.(written := st.written + lines[..LoginCount(lines, k)])
    decreases |lines|
  {
    if lines != [] {
      var st1 := st.(written := st.written + [lines[0]]);
      if k > 0 {
        assert verdict(j) == Some(true);
        ChainPrefix(verdict, st1, lines[1..], j + 1, k - 1);
        assert [lines[0]] + lines[1..][..LoginCount(lines[1..], k - 1)] == lines[..LoginCount(lines, k)];
      } else {
        assert lines[..1] == [lines[0]];
      }
    }
  }

  /** With the greeting read and every login reply accepted, the client
      writes USER, PASS, SYST and TYPE and nothing else changes. */
  lemma LoginAccepted(st: ClientState, env: Env)
    requires env.greeting.Some? && ParseResponse(env.greeting.value).Some?
    requires forall i :: 0 <= i < 4 ==> Exchange(false, Answer(env, i)) == Some(true)
    ensures OnConnect(st, env) == st.(written := st.written + LoginLines)
  {
    OnConnectLogin(st, env);
    ChainPrefix(LoginVerdict(env), st, LoginLines, 0, 4);
    assert LoginLines[..LoginCount(LoginLines, 4)] == LoginLines;
  }

  /** The login stops at the first refused line: the lines up to and
      including it are written, and the client goes on. */
  lemma LoginStops(st: ClientState, env: Env, k: nat)
    requires env.greeting.Some? && ParseResponse(env.greeting.value).Some?
    requires k < 4
    requires forall i :: 0 <= i < k ==> Exchange(false, Answer(env, i)) == Some(true)
    requires Exchange(false, Answer(env, k)) == Some(false)
    ensures OnConnect(st, env) == st.(written := st.written + LoginLines[..k + 1])
  {
    OnConnectLogin(st, env);
    ChainStops(LoginVerdict(env), st, LoginLines, k);
  }

  /** Once the greeting is read, CONNECT's follow-up is the login chain. */
  lemma OnConnectLogin(st: ClientState, env: Env)
    requires env.greeting.Some? && ParseResponse(env.greeting.value).Some?
    ensures OnConnect(st, env) == Chain(LoginVerdict(env), st, LoginLines, 0)
  {
    LoginIsChain(st, LoginLines, env, 0);
  }

  /** A chain whose `k`-th line is the first refused writes `k + 1` lines. */
  lemma ChainStops(verdict: nat -> Option<bool>, st: ClientState, lines: seq<string>, k: nat)
    requires k < |lines|
    requires forall i :: 0 <= i < k ==> verdict(i) == Some(true)
    requires verdict(k) == Some(false)
    ensures Chain(verdict, st, lines, 0) == st.(written := st.written + lines[..k + 1])
  {
    ChainPrefix(verdict, st, lines, 0, k);
  }

  /** Without a greeting, or with one the reply check throws on, the client
      throws before writing anything. */
  lemma LoginWithoutGreeting(st: ClientState, env: Env)
    requires env.greeting.None? || ParseResponse(env.greeting.value).None?
    ensures OnConnect(st, env) == st.(crashed := true)
  {
  }
}

=== FILE: client_spec.dfy ===
/** The FTP client as a state machine: each line typed by the user is
    tokenized, dispatched on its first token, validated (CONNECT, GET, QUIT)
    and, when accepted, carried out over the control connection with the
    fixed command lines USER, PASS, SYST, TYPE, PORT, RETR and QUIT. Sockets,
    the server's answers and the file copy are inputs (an `Env` per request). */
module ClientSpec {
  import opened Text
  import opened ClientTokens
  import opened ReplyCheck

  // ---------------------------------------------------------------------------
  // The client's own replies (ClientReply)

  /** The abstract value of a ClientReply object. */
  datatype LocalReply = LocalReply(message: string, error: bool)

  const NewLocalReply: LocalReply := LocalReply("", false)

  /** The text of each local code of setReplyByCode. */
  function LocalText(code: int): string {
    match code
    case 0 => "ERROR -- expecting CONNECT"
    case 1 => "ERROR -- request"
    case 2 => "ERROR -- server-host"
    case 3 => "ERROR -- server-port"
    case 4 => "ERROR -- pathname"
    case 5 => "QUIT accepted, terminating FTP client"
    case _ => "Invalid code"
  }

  /** The local codes that raise the error flag. */
  predicate IsLocalError(code: int) {
    0 <= code <= 4
  }

  /** ClientReply.setReplyByCode: the code's text and a line feed; the error
      flag raised for codes 0 to 4 and otherwise left as it was. */
  function LocalByCode(r: LocalReply, code: int): LocalReply {
    LocalReply(LocalText(code) + "\n", r.error || IsLocalError(code))
  }

  /** ClientReply.setMessage. */
  function WithMessage(r: LocalReply, message: string): LocalReply {
    r.(message := message)
  }

  // ---------------------------------------------------------------------------
  // Fixed command lines (FTPCommands)

  const UserLine: string := "USER anonymous" + CRLF
  const PassLine: string := "PASS guest@" + CRLF
  const SystLine: string := "SYST" + CRLF
  const TypeLine: string := "TYPE I" + CRLF
  const QuitLine: string := "QUIT" + CRLF

  /** The data port the client advertises when none is given on its command line. */
  const DefaultPortNumber: int := 8080

  /** Java's `/` on int: the quotient truncated toward zero. */
  function JavaDiv(a: int, b: int): int
    requires b > 0
  {
    if a >= 0 then a / b else -((-a) / b)
  }

  /** Java's `%` on int: the remainder takes the sign of the dividend. */
  function JavaRem(a: int, b: int): int
    requires b > 0
  {
    if a >= 0 then a % b else -((-a) % b)
  }

  /** The argument of the PORT line for data port `p`: the host's address
      with commas for dots, then `p / 256` and `p % 256`. */
  function HostPort(hostAddress: string, p: int): string {
    hostAddress + "," + IntToString(JavaDiv(p, 256)) + "," + IntToString(JavaRem(p, 256))
  }

  function PortLine(hostAddress: string, p: int): string {
    "PORT " + HostPort(hostAddress, p) + CRLF
  }

  function RetrLine(path: string): string {
    "RETR " + path + CRLF
  }

  // ---------------------------------------------------------------------------
  // Request validation

  datatype Command = CONNECT | GET | QUIT

  function CommandName(c: Command): string {
    match c
    case CONNECT => "CONNECT"
    case GET => "GET"
    case QUIT => "QUIT"
  }

  /** Membership in the list of valid requests. */
  function ParseCommand(command: string): (c: Option<Command>)
    ensures c.Some? ==> CommandName(c.value) == command
    ensures c.None? ==> forall x :: CommandName(x) != command
  {
    if command == "CONNECT" then Some(CONNECT)
    else if command == "GET" then Some(GET)
    else if command == "QUIT" then Some(QUIT)
    else None
  }

  /** The dispatch key of a request: its first token upper-cased, or "NULL". */
  function CommandOf(splitted: seq<string>): string {
    if splitted == [] then "NULL" else ToUpper(splitted[0])
  }

  /** A host label: a letter followed by one or more letters or digits. */
  predicate IsLabel(e: string) {
    |e| >= 2 && IsLetter(e[0]) && forall i :: 1 <= i < |e| ==> IsLetter(e[i]) || IsDigit(e[i])
  }

  /** A server host: not starting or ending with a dot, and every piece
      between dots a label. */
  predicate ValidHost(h: string) {
    h != [] && h[0] != '.' && h[|h| - 1] != '.' &&
    forall i :: 0 <= i < |Split(h, '.')| ==> IsLabel(Split(h, '.')[i])
  }

  /** The verdict of a parse stage: a local error code, or what to carry out. */
  datatype Verdict = Refuse(code: int) | ConnectTo(host: string, port: int) | Fetch(path: string) | Leave

  /** FTPClient.parseConnectRequest, up to the connection attempt. */
  function ConnectCheck(splitted: seq<string>): (v: Verdict)
    requires |splitted| >= 1
    ensures v.Refuse? || v.ConnectTo?
    ensures v.Refuse? ==> v.code in {1, 2, 3}
  {
    if |splitted| == 1 then Refuse(1)
    else if |splitted| <= 2 then Refuse(2)
    else if !ValidHost(splitted[2]) then Refuse(2)
    else if |splitted| < 4 then Refuse(2)
    else if |splitted| < 5 then Refuse(3)
    else match ParseInt(splitted[4])
      case None => Refuse(3)
      case Some(port) =>
        if port < 0 || port > 65535 then Refuse(3)
        else if |splitted| > 5 then Refuse(3)
        else ConnectTo(splitted[2], port)
  }

  /** FTPClient.parseGetRequest, up to the connection check. */
  function GetCheck(splitted: seq<string>): (v: Verdict)
    requires |splitted| >= 1
    ensures v.Refuse? || v.Fetch?
    ensures v.Refuse? ==> v.code in {1, 4}
  {
    if |splitted| == 1 then Refuse(1)
    else if |splitted| == 2 then Refuse(4)
    else
      var path := ClientParameter(splitted);
      if !IsAscii(path) then Refuse(4) else Fetch(path)
  }

  /** FTPClient.parseQuitRequest, up to the connection check. */
  function QuitCheck(splitted: seq<string>): (v: Verdict)
    ensures v == Leave || v == Refuse(1)
  {
    if |splitted| != 1 then Refuse(1) else Leave
  }

  // ---------------------------------------------------------------------------
  // Client state and environment

  /** The client's static state (FTPClient, FTPCommands, ClientFileManager),
      its ClientReply, the messages it prints, and the lines it writes to the
      control connection. `crashed` records an uncaught runtime exception,
      which ends the program. */
  datatype ClientState = ClientState(
    connected: bool, quit: bool, crashed: bool,
    host: string, port: int,
    portNumber: int, fileCount: int, hostAddress: string,
    reply: LocalReply,
    printed: seq<string>,
    written: seq<string>)

  /** The client at the start of main, with the data port from its command
      line (or the default) and the host's address with commas for dots. */
  function Start(portNumber: int, hostAddress: string): ClientState {
    ClientState(false, false, false, "", 0, portNumber, 1, hostAddress, NewLocalReply, [], [])
  }

  /** What the outside world does during one request: whether the control
      connection opens, the greeting read after it, the replies read after
      each line the client writes (in order), whether the data port can be
      bound, and whether the file copy succeeds. */
  datatype Env = Env(connectOk: bool, greeting: Option<string>, answers: seq<seq<string>>,
                     bindOk: bool, copyOk: bool)

  /** The replies read after the `j`-th line written; none once the server has
      nothing more to send. */
  function Answer(env: Env, j: nat): seq<string> {
    if j < |env.answers| then env.answers[j] else []
  }

  predicate Invariant(st: ClientState) {
    (st.quit ==> st.connected) && (st.written != [] ==> st.connected)
  }

  // ---------------------------------------------------------------------------
  // One exchange on the control connection (processRequest)

  /** The verdicts of the further replies read after the first: the last one
      counts; None when one of them throws. */
  function LaterVerdicts(responses: seq<string>, result: bool): Option<bool>
    decreases |responses|
  {
    if responses == [] then Some(result)
    else match ParseResponse(responses[0])
      case None => None
      case Some(r) => LaterVerdicts(responses[1..], r)
  }

  /** processRequest: the verdict of the last reply read after writing a line.
      After RETR whose first reply is accepted a second reply must follow; a
      missing reply (the stream has ended) or a reply the check throws on
      gives None. */
  function Exchange(isRetr: bool, responses: seq<string>): Option<bool> {
    if responses == [] then None
    else match ParseResponse(responses[0])
      case None => None
      case Some(first) =>
        if isRetr && first && |responses| < 2 then None
        else LaterVerdicts(responses[1..], first)
  }

  datatype Sent = Sent(st: ClientState, ok: bool)

  /** Writing a line and reading its replies. */
  function Send(st: ClientState, line: string, isRetr: bool, responses: seq<string>): Sent {
    var st1 := st.(written := st.written + [line]);
    match Exchange(isRetr, responses)
    case None => Sent(st1.(crashed := true), false)
    case Some(ok) => Sent(st1, ok)
  }

  function Print(st: ClientState, r: LocalReply): ClientState {
    st.(reply := r, printed := st.printed + [r.message])
  }

  // ---------------------------------------------------------------------------
  // Carrying out accepted requests

  function ConnectAccepted(host: string, port: int): string {
    "CONNECT accepted for FTP server at host " + host + " and port " + IntToString(port) + CRLF
  }

  const ConnectFailed: string := "CONNECT failed" + CRLF

  function GetAccepted(path: string): string {
    "GET accepted for " + path + "\n"
  }

  const GetFailed: string := "GET failed, FTP-data port not allocated." + CRLF

  /** The four lines of the login, in the order onConnect sends them. */
  const LoginLines: seq<string> := [UserLine, PassLine, SystLine, TypeLine]

  /** The short-circuit chain of processRequest calls: send each line in
      turn (the `j`-th line written reads the `j`-th answers) and stop at the
      first one whose reply is refused or throws. */
  function Login(st: ClientState, lines: seq<string>, env: Env, j: nat): ClientState
    decreases |lines|
  {
    if lines == [] then st
    else
      var s := Send(st, lines[0], false, Answer(env, j));
      if !s.ok then s.st else Login(s.st, lines[1..], env, j + 1)
  }

  /** One link of the login chain. */
  lemma LoginNext(st: ClientState, lines: seq<string>, env: Env, j: nat)
    requires lines != []
    ensures var s := Send(st, lines[0], false, Answer(env, j));
      Login(st, lines, env, j) == if s.ok then Login(s.st, lines[1..], env, j + 1) else s.st
  {
  }

  /** onConnect: read the greeting, then log in with USER, PASS, SYST and
      TYPE, stopping at the first refusal. */
  function OnConnect(st: ClientState, env: Env): ClientState {
    match env.greeting
    case None => st.(crashed := true)
    case Some(g) =>
      if ParseResponse(g).None? then st.(crashed := true)
      else Login(st, LoginLines, env, 0)
  }

  /** onGet: bind the data port, send PORT then RETR, and copy the file. The
      port counter moves on before PORT is sent and moves back when PORT or
      RETR is refused. A port outside [0, 65535] makes the bind throw. */
  function OnGet(st: ClientState, path: string, env: Env): ClientState {
    if st.portNumber < 0 || st.portNumber > 65535 then st.(crashed := true)
    else if !env.bindOk then Print(st, WithMessage(st.reply, GetFailed))
    else Transfer(st.(portNumber := Wrap32(st.portNumber + 1)), PortLine(st.hostAddress, st.portNumber), path, env)
  }

  /** With the port in range and bound, onGet is the PORT exchange. */
  lemma OnGetStart(st: ClientState, path: string, env: Env)
    requires 0 <= st.portNumber <= 65535 && env.bindOk
    ensures OnGet(st, path, env) ==
            Transfer(st.(portNumber := Wrap32(st.portNumber + 1)), PortLine(st.hostAddress, st.portNumber), path, env)
  {
  }

  /** The counter moved back after a refusal. */
  function Restore(st: ClientState): ClientState {
    st.(portNumber := Wrap32(st.portNumber - 1))
  }

  /** The PORT exchange, with the counter already moved on. */
  function Transfer(st: ClientState, portLine: string, path: string, env: Env): ClientState {
    var port := Send(st, portLine, false, Answer(env, 0));
    if port.st.crashed then port.st
    else if !port.ok then Restore(port.st)
    else Retrieve(port.st, path, env)
  }

  /** The RETR exchange after an accepted PORT, then the copy. */
  function Retrieve(st: ClientState, path: string, env: Env): ClientState {
    var retr := Send(st, RetrLine(path), true, Answer(env, 1));
    if retr.st.crashed then retr.st
    else if !retr.ok then Restore(retr.st)
    else if env.copyOk then retr.st.(fileCount := Inc32(retr.st.fileCount))
    else retr.st
  }

  /** onQuit: send QUIT; its verdict is not used. */
  function OnQuit(st: ClientState, env: Env): ClientState {
    Send(st, QuitLine, false, Answer(env, 0)).st
  }

  /** One iteration of main's loop for a request line: the error flag is
      cleared, the line tokenized and dispatched on its first token. */
  function Step(st: ClientState, request: string, env: Env): ClientState {
    var splitted := RequestTokens(request);
    Dispatch(st.(reply := st.reply.(error := false)), splitted, ParseCommand(CommandOf(splitted)), env)
  }

  /** The handling of a tokenized request line by its command; an unknown
      command gets local code 1. */
  function Dispatch(st: ClientState, splitted: seq<string>, c: Option<Command>, env: Env): ClientState
    requires c.Some? ==> |splitted| >= 1
  {
    match c
    case None => Print(st, LocalByCode(st.reply, 1))
    case Some(CONNECT) => DoConnect(st, splitted, env)
    case Some(GET) => DoGet(st, splitted, env)
    case Some(QUIT) => DoQuit(st, splitted, env)
  }

  /** Step is the dispatch of the tokenized line with the error flag cleared. */
  lemma StepIsDispatch(st: ClientState, request: string, env: Env)
    ensures var splitted := RequestTokens(request);
      var c := ParseCommand(CommandOf(splitted));
      (c.Some? ==> |splitted| >= 1) &&
      Step(st, request, env) == Dispatch(st.(reply := st.reply.(error := false)), splitted, c, env)
  {
  }

  /** The dispatch of Step, one command at a time. */
  lemma StepUnknown(st: ClientState, request: string, env: Env)
    requires ParseCommand(CommandOf(RequestTokens(request))).None?
    ensures var st0 := st.(reply := st.reply.(error := false));
      Step(st, request, env) == Print(st0, LocalByCode(st0.reply, 1))
  {
  }

  lemma StepConnect(st: ClientState, request: string, env: Env)
    requires ParseCommand(CommandOf(RequestTokens(request))) == Some(CONNECT)
    ensures RequestTokens(request) != []
    ensures Step(st, request, env) == DoConnect(st.(reply := st.reply.(error := false)), RequestTokens(request), env)
  {
  }

  lemma StepGet(st: ClientState, request: string, env: Env)
    requires ParseCommand(CommandOf(RequestTokens(request))) == Some(GET)
    ensures RequestTokens(request) != []
    ensures Step(st, request, env) == DoGet(st.(reply := st.reply.(error := false)), RequestTokens(request), env)
  {
  }

  lemma StepQuit(st: ClientState, request: string, env: Env)
    requires ParseCommand(CommandOf(RequestTokens(request))) == Some(QUIT)
    ensures Step(st, request, env) == DoQuit(st.(reply := st.reply.(error := false)), RequestTokens(request), env)
  {
  }

  /** A CONNECT request: validate, try the connection, print, and log in. */
  function DoConnect(st: ClientState, splitted: seq<string>, env: Env): ClientState
    requires |splitted| >= 1
  {
    var v := ConnectCheck(splitted);
    if v.Refuse? then Print(st, LocalByCode(st.reply, v.code))
    else
      var st1 := st.(host := v.host, port := v.port);
      if env.connectOk then
        OnConnect(Print(st1.(connected := true), WithMessage(st1.reply, ConnectAccepted(v.host, v.port))), env)
      else Print(st1, WithMessage(st1.reply, ConnectFailed))
  }

  /** A GET request: validate, check the connection, print, and transfer. */
  function DoGet(st: ClientState, splitted: seq<string>, env: Env): ClientState
    requires |splitted| >= 1
  {
    var v := GetCheck(splitted);
    if v.Refuse? then Print(st, LocalByCode(st.reply, v.code))
    else if st.connected then OnGet(Print(st, WithMessage(st.reply, GetAccepted(v.path))), v.path, env)
    else Print(st, LocalByCode(st.reply, 0))
  }

  /** A QUIT request: validate, check the connection, print, and send QUIT. */
  function DoQuit(st: ClientState, splitted: seq<string>, env: Env): ClientState {
    var v := QuitCheck(splitted);
    if v.Refuse? then Print(st, LocalByCode(st.reply, v.code))
    else if st.connected then OnQuit(Print(st.(quit := true), LocalByCode(st.reply, 5)), env)
    else Print(st, LocalByCode(st.reply, 0))
  }

  /** main's loop, for a given handling of one request line: one step per
      line until QUIT is accepted, the input ends, or the client throws. */
  function Loop(step: (ClientState, string, Env) -> ClientState,
                st: ClientState, requests: seq<string>, envs: seq<Env>): ClientState
    requires |envs| == |requests|
    decreases |requests|
  {
    if requests == [] || st.quit || st.crashed then st
    else Loop(step, step(st, requests[0], envs[0]), requests[1..], envs[1..])
  }

  /** main's loop over the user's request lines. */
  function Run(st: ClientState, requests: seq<string>, envs: seq<Env>): ClientState
    requires |envs| == |requests|
  {
    Loop(Step, st, requests, envs)
  }
}

=== FILE: client_tokens.dfy ===
/** The client's hand-written tokenizers (FTPClient.splitRequest and
    ParseResponse.splitRequest) and its parameter rebuilding: a line is cut
    into maximal runs of spaces and of non-spaces. `Runs` is the reference
    definition; the scanning loop the client runs is proved to compute it,
    and the properties that characterise a split into runs are proved to
    determine it uniquely. */
module ClientTokens {
  import opened Text

  predicate AllSpaces(t: string) {
    forall i :: 0 <= i < |t| ==> t[i] == ' '
  }

  predicate NoSpaces(t: string) {
    forall i :: 0 <= i < |t| ==> t[i] != ' '
  }

  /** A run: non-empty, and all spaces or no spaces. */
  predicate Uniform(t: string) {
    t != [] && (AllSpaces(t) || NoSpaces(t))
  }

  /** `ts` splits `s` into runs that alternate between spaces and non-spaces. */
  predicate IsRunSplit(s: string, ts: seq<string>) {
    Concat(ts) == s &&
    (forall k :: 0 <= k < |ts| ==> Uniform(ts[k])) &&
    (forall k :: 0 < k < |ts| ==> (ts[k - 1][0] == ' ') != (ts[k][0] == ' '))
  }

  /** The length of the longest prefix of `s` whose characters are all spaces
      or all non-spaces, as `s[0]` is. */
  function RunLength(s: string): (n: nat)
    requires s != []
    ensures 1 <= n <= |s|
    ensures forall i :: 0 <= i < n ==> (s[i] == ' ') == (s[0] == ' ')
    ensures n < |s| ==> (s[n] == ' ') != (s[0] == ' ')
  {
    if |s| == 1 || (s[1] == ' ') != (s[0] == ' ') then 1
    else
      var m := RunLength(s[1..]);
      assert forall i :: 1 <= i < m + 1 ==> s[i] == s[1..][i - 1];
      1 + m
  }

  /** The maximal runs of `s`, first to last. */
  function Runs(s: string): (ts: seq<string>)
    ensures s != [] ==> ts != [] && ts[0] == s[..RunLength(s)]
    decreases |s|
  {
    if s == [] then [] else [s[..RunLength(s)]] + Runs(s[RunLength(s)..])
  }

  /** Leading spaces removed. */
  function TrimLeadingSpaces(s: string): (r: string)
    ensures |r| <= |s| && r == s[|s| - |r|..]
    ensures r != [] ==> r[0] != ' '
    ensures AllSpaces(s[..|s| - |r|])
  {
    if s != [] && s[0] == ' ' then
      var r := TrimLeadingSpaces(s[1..]);
      assert s[..|s| - |r|] == [s[0]] + s[1..][..|s[1..]| - |r|];
      r
    else s
  }

  // ---------------------------------------------------------------------------
  // Runs is the one split into alternating runs

  lemma UniformSame(t: string, j: int)
    requires Uniform(t) && 0 <= j < |t|
    ensures (t[j] == ' ') == (t[0] == ' ')
  {
  }

  lemma {:induction false} RunsIsRunSplit(s: string)
    ensures IsRunSplit(s, Runs(s))
    decreases |s|
  {
    if s != [] {
      var n := RunLength(s);
      RunsIsRunSplit(s[n..]);
      FirstRunSplit(s, Runs(s[n..]));
    }
  }

  /** The first run of `s` in front of a run split of the rest is a run split of `s`. */
  lemma FirstRunSplit(s: string, rest: seq<string>)
    requires s != [] && IsRunSplit(s[RunLength(s)..], rest)
    ensures IsRunSplit(s, [s[..RunLength(s)]] + rest)
  {
    var n := RunLength(s);
    ConcatCons(s[..n], rest);
    assert s[..n] + s[n..] == s;
    var ts := [s[..n]] + rest;
    assert Uniform(s[..n]) by {
      if s[0] == ' ' {
        assert AllSpaces(s[..n]);
      } else {
        assert NoSpaces(s[..n]);
      }
    }
    forall k | 0 < k < |ts|
      ensures (ts[k - 1][0] == ' ') != (ts[k][0] == ' ')
    {
      if k == 1 {
        ConcatCons(rest[0], rest[1..]);
        assert rest == [rest[0]] + rest[1..];
        assert ts[1][0] == s[n..][0];
      } else {
        assert ts[k - 1] == rest[k - 2] && ts[k] == rest[k - 1];
      }
    }
  }

  /** The tail of a run split is a run split of what follows its first run. */
  lemma RunSplitTail(s: string, ts: seq<string>)
    requires IsRunSplit(s, ts) && ts != []
    ensures |ts[0]| <= |s| && s[..|ts[0]|] == ts[0] && IsRunSplit(s[|ts[0]|..], ts[1..])
  {
    ConcatCons(ts[0], ts[1..]);
    assert [ts[0]] + ts[1..] == ts;
  }

  lemma {:induction false} ConcatEmpty(ts: seq<string>)
    requires forall k :: 0 <= k < |ts| ==> ts[k] != []
    ensures Concat(ts) == [] <==> ts == []
  {
    if ts != [] {
      ConcatCons(ts[0], ts[1..]);
      assert [ts[0]] + ts[1..] == ts;
    }
  }

  /** Two splits of the same string into alternating runs are equal: the
      properties of a run split determine it. */
  lemma {:induction false} RunSplitUnique(s: string, a: seq<string>, b: seq<string>)
    requires IsRunSplit(s, a) && IsRunSplit(s, b)
    ensures a == b
    decreases |s|
  {
    ConcatEmpty(a);
    ConcatEmpty(b);
    if a != [] {
      RunSplitTail(s, a);
      RunSplitTail(s, b);
      var n, m := |a[0]|, |b[0]|;
      if n < m {
        FirstOfTail(s, a);
        UniformSame(b[0], n);
        assert false;
      } else if m < n {
        FirstOfTail(s, b);
        UniformSame(a[0], m);
        assert false;
      }
      RunSplitUnique(s[n..], a[1..], b[1..]);
      assert a == [a[0]] + a[1..] && b == [b[0]] + b[1..];
    }
  }

  /** The character right after the first run starts the second run. */
  lemma FirstOfTail(s: string, ts: seq<string>)
    requires IsRunSplit(s, ts) && |ts| > 1
    ensures |ts[0]| < |s| && s[|ts[0]|] == ts[1][0]
  {
    RunSplitTail(s, ts);
    RunSplitTail(s[|ts[0]|..], ts[1..]);
  }

  /** A run split of `s` is Runs(s). */
  lemma RunSplitIsRuns(s: string, ts: seq<string>)
    requires IsRunSplit(s, ts)
    ensures ts == Runs(s)
  {
    RunsIsRunSplit(s);
    RunSplitUnique(s, ts, Runs(s));
  }

  // ---------------------------------------------------------------------------
  // Growing a run split by one character (the scanning loop's step)

  lemma ExtendLastRun(s: string, ts: seq<string>, c: char)
    requires IsRunSplit(s, ts) && ts != []
    requires (ts[|ts| - 1][0] == ' ') == (c == ' ')
    ensures IsRunSplit(s + [c], ts[..|ts| - 1] + [ts[|ts| - 1] + [c]])
  {
    var us := ts[..|ts| - 1] + [ts[|ts| - 1] + [c]];
    assert us[..|us| - 1] == ts[..|ts| - 1];
    var last := ts[|ts| - 1];
    assert Uniform(last + [c]) by {
      if last[0] == ' ' {
        assert AllSpaces(last);
      } else {
        assert NoSpaces(last);
      }
    }
    forall k | 0 < k < |us|
      ensures (us[k - 1][0] == ' ') != (us[k][0] == ' ')
    {
      assert us[k - 1][0] == ts[k - 1][0] && us[k][0] == ts[k][0];
    }
  }

  lemma StartNewRun(s: string, ts: seq<string>, c: char)
    requires IsRunSplit(s, ts)
    requires ts == [] || (ts[|ts| - 1][0] == ' ') != (c == ' ')
    ensures IsRunSplit(s + [c], ts + [[c]])
  {
    var us := ts + [[c]];
    assert us[..|us| - 1] == ts;
  }

  /** Two run splits side by side form one when the runs at the seam differ in kind. */
  lemma RunSplitAppend(x: string, a: seq<string>, y: string, b: seq<string>)
    requires IsRunSplit(x, a) && IsRunSplit(y, b) && a != [] && b != []
    requires (a[|a| - 1][0] == ' ') != (b[0][0] == ' ')
    ensures IsRunSplit(x + y, a + b)
  {
    ConcatAppend(a, b);
    var ab := a + b;
    forall k | 0 < k < |ab|
      ensures (ab[k - 1][0] == ' ') != (ab[k][0] == ' ')
    {
      if k < |a| {
        assert ab[k - 1] == a[k - 1] && ab[k] == a[k];
      } else if k == |a| {
        assert ab[k - 1] == a[|a| - 1] && ab[k] == b[0];
      } else {
        assert ab[k - 1] == b[k - 1 - |a|] && ab[k] == b[k - |a|];
      }
    }
  }

  /** The last run of a run split is a suffix of the string. */
  lemma LastRunSuffix(s: string, ts: seq<string>)
    requires IsRunSplit(s, ts) && ts != []
    ensures var last := ts[|ts| - 1]; |last| <= |s| && s[|s| - |last|..] == last
  {
  }

  // ---------------------------------------------------------------------------
  // The scanning loop shared by both tokenizers

  /** The loop of splitRequest: a list seeded with a single space, extended
      character by character, where a character of the same kind as the last
      element extends it and one of the other kind starts a new element. It
      yields the runs of the line with a space in front. */
  method ScanRuns(request: string) returns (splitter: seq<string>)
    ensures splitter == Runs(" " + request)
  {
    splitter := [" "];
    var space := true;
    var i := 0;
    assert " " + request[..0] == " ";
    assert Concat([" "]) == " " by {
      assert [" "][..0] == [];
    }
    while i < |request|
      invariant 0 <= i <= |request|
      invariant splitter != []
      invariant IsRunSplit(" " + request[..i], splitter)
      invariant space <==> splitter[|splitter| - 1][0] == ' '
    {
      var last := request[i];
      assert " " + request[..i + 1] == (" " + request[..i]) + [last];
      if last == ' ' && space {
        ExtendLastRun(" " + request[..i], splitter, last);
        splitter := splitter[..|splitter| - 1] + [splitter[|splitter| - 1] + [last]];
      } else if last == ' ' && !space {
        StartNewRun(" " + request[..i], splitter, last);
        space := true;
        splitter := splitter + [[last]];
      } else if last != ' ' && !space {
        ExtendLastRun(" " + request[..i], splitter, last);
        splitter := splitter[..|splitter| - 1] + [splitter[|splitter| - 1] + [last]];
      } else {
        StartNewRun(" " + request[..i], splitter, last);
        space := false;
        splitter := splitter + [[last]];
      }
      i := i + 1;
    }
    assert request[..i] == request;
    RunSplitIsRuns(" " + request, splitter);
  }

  /** The first run of a line with a space in front is that space together
      with the line's leading spaces; the rest are the runs of the trimmed line. */
  lemma RunsAfterSpace(request: string)
    ensures var rs := Runs(" " + request);
      rs != [] && AllSpaces(rs[0]) && rs[1..] == Runs(TrimLeadingSpaces(request))
  {
    var s := " " + request;
    var t := TrimLeadingSpaces(request);
    var k := |request| - |t|;
    var n := RunLength(s);
    assert forall i :: 1 <= i < 1 + k ==> s[i] == request[..k][i - 1];
    assert n == 1 + k;
    assert s[n..] == t;
    assert AllSpaces(s[..n]);
  }

  /** The client's tokens for a request line: its runs, leading spaces dropped. */
  function RequestTokens(request: string): seq<string> {
    Runs(TrimLeadingSpaces(request))
  }

  /** FTPClient.splitRequest: scan, then remove the seed element. */
  method SplitRequest(request: string) returns (splitted: seq<string>)
    ensures splitted == RequestTokens(request)
  {
    var splitter := ScanRuns(request);
    RunsAfterSpace(request);
    splitted := splitter[1..];
  }

  /** What the tokens of a request are: runs of the line (leading spaces
      dropped) that concatenate to it, alternate between spaces and
      non-spaces, and start with a non-space run. */
  lemma RequestTokensProperties(request: string)
    ensures var ts := RequestTokens(request);
      IsRunSplit(TrimLeadingSpaces(request), ts) &&
      (ts != [] ==> NoSpaces(ts[0])) &&
      (ts == [] <==> AllSpaces(request))
  {
    var t := TrimLeadingSpaces(request);
    RunsIsRunSplit(t);
    var ts := Runs(t);
    if t != [] {
      UniformSame(ts[0], 0);
      assert ts[0][0] == t[0];
    }
    if ts == [] {
      ConcatEmpty(ts);
      assert request[..|request| - |t|] == request;
    }
  }

  // ---------------------------------------------------------------------------
  // The reply tokenizer

  /** ParseResponse.splitRequest: the runs of the reply with the seed space
      kept; when the last run has no space it is cut in two at its first CR,
      or failing that its first LF. None where no such character exists and
      the client throws. */
  function ReplyTokens(response: string): Option<seq<string>> {
    var rs := Runs(" " + response);
    if rs == [] then None
    else
      var last := rs[|rs| - 1];
      if ' ' in last then Some(rs)
      else
        var cr := IndexOf(last, '\r');
        var index := if cr < 0 then IndexOf(last, '\n') else cr;
        if index < 0 then None
        else Some(rs[..|rs| - 1] + [last[..index], last[index..]])
  }

  method SplitReply(response: string) returns (r: Option<seq<string>>)
    ensures r == ReplyTokens(response)
  {
    var splitter := ScanRuns(response);
    var last := splitter[|splitter| - 1];
    if ' ' !in last {
      var index := IndexOf(last, '\r');
      if index < 0 {
        index := IndexOf(last, '\n');
      }
      if index < 0 {
        return None;
      }
      var a := last[..index];
      var b := last[index..];
      splitter := splitter[..|splitter| - 1] + [a, b];
    }
    return Some(splitter);
  }

  // ---------------------------------------------------------------------------
  // Rebuilding a parameter and checking for ASCII

  /** `token.matches("\\s+")`: one or more whitespace characters. */
  predicate IsWhitespaceRun(t: string) {
    t != [] && forall i :: 0 <= i < |t| ==> IsJavaWhitespace(t[i])
  }

  function SkipWhitespaceRuns(ts: seq<string>): seq<string> {
    if ts != [] && IsWhitespaceRun(ts[0]) then SkipWhitespaceRuns(ts[1..]) else ts
  }

  /** The parameter of a request: the tokens from index 2 on, leading
      whitespace-only tokens skipped, concatenated. */
  function ClientParameter(splitted: seq<string>): string {
    if |splitted| < 3 then "" else Concat(SkipWhitespaceRuns(splitted[2..]))
  }

  lemma {:induction false} SkipWhitespaceRunsSnoc(ts: seq<string>, t: string)
    ensures SkipWhitespaceRuns(ts + [t]) ==
            if SkipWhitespaceRuns(ts) == [] && IsWhitespaceRun(t) then [] else SkipWhitespaceRuns(ts) + [t]
  {
    if ts == [] {
      assert ts + [t] == [t];
      assert [t][1..] == [];
    } else {
      var us := ts + [t];
      assert us[0] == ts[0];
      assert us[1..] == ts[1..] + [t];
      if IsWhitespaceRun(ts[0]) {
        SkipWhitespaceRunsSnoc(ts[1..], t);
      }
    }
  }

  lemma ParameterStep(done: seq<string>, t: string, isBuilding: bool, result: string)
    requires isBuilding <==> SkipWhitespaceRuns(done) != []
    requires result == Concat(SkipWhitespaceRuns(done))
    ensures var building := isBuilding || !IsWhitespaceRun(t);
      (building <==> SkipWhitespaceRuns(done + [t]) != []) &&
      (if building then result + t else result) == Concat(SkipWhitespaceRuns(done + [t]))
  {
    SkipWhitespaceRunsSnoc(done, t);
    if isBuilding || !IsWhitespaceRun(t) {
      ConcatAppend(SkipWhitespaceRuns(done), [t]);
      assert Concat([t]) == t by {
        assert [t][..0] == [];
      }
    }
  }

  /** FTPClient.buildParameter. */
  method BuildParameter(splitted: seq<string>) returns (result: string)
    ensures result == ClientParameter(splitted)
  {
    result := "";
    var isBuilding := false;
    var i := 2;
    while i < |splitted|
      invariant 2 <= i && (i <= |splitted| || i == 2)
      invariant i <= |splitted| ==> (isBuilding <==> SkipWhitespaceRuns(splitted[2..i]) != [])
      invariant i <= |splitted| ==> result == Concat(SkipWhitespaceRuns(splitted[2..i]))
      invariant i > |splitted| ==> result == "" && !isBuilding
    {
      ParameterStep(splitted[2..i], splitted[i], isBuilding, result);
      assert splitted[2..i + 1] == splitted[2..i] + [splitted[i]];
      if !IsWhitespaceRun(splitted[i]) {
        isBuilding := true;
      }
      if isBuilding {
        result := result + splitted[i];
      }
      i := i + 1;
    }
    if |splitted| >= 3 {
      assert splitted[2..i] == splitted[2..];
    }
  }

  /** FTPClient.checkAscii. */
  method CheckAscii(s: string) returns (ok: bool)
    ensures ok <==> IsAscii(s)
  {
    var i := 0;
    while i < |s|
      invariant 0 <= i <= |s|
      invariant forall j :: 0 <= j < i ==> s[j] as int <= 127
    {
      var c := s[i];
      if c as int > 127 {
        return false;
      }
      i := i + 1;
    }
    return true;
  }
}

=== FILE: interop.dfy ===
/** What the two programs agree on: every reply line the server writes on a
    connection (the lines of its reply table and the 200 lines that TYPE,
    PORT and NOOP build) passes the client's reply check, counting as a
    refusal exactly for the client's five failure codes; and the PORT
    argument the client builds is decoded by the server back to the
    client's address and data port. */
module Interop {
  import opened Text
  import opened ServerReplies
  import opened ServerSpec
  import opened ServerProperties
  import opened ClientTokens
  import opened ReplyCheck
  import opened ClientSpec

  /** Text the server may put after a reply code: ASCII, no line end, not
      starting with a space. */
  predicate ReplyTextOk(text: string) {
    IsAscii(text) && '\r' !in text && '\n' !in text && (text == [] || text[0] != ' ')
  }

  /** The runs of `text "."`: the last ends with the dot, so it has no space,
      and no run has a line end. */
  lemma BodyRuns(text: string)
    requires ReplyTextOk(text)
    ensures var body := text + "."; var r := Runs(body);
      r != [] && IsRunSplit(body, r) && r[0][0] == body[0] &&
      NoSpaces(r[|r| - 1]) && '\r' !in r[|r| - 1] && '\n' !in r[|r| - 1]
  {
    var body := text + ".";
    var r := Runs(body);
    RunsIsRunSplit(body);
    ConcatEmpty(r);
    assert r[0] == body[..RunLength(body)];
    LastRunKeeps(body, r, '.');
    assert '\r' !in body && '\n' !in body by {
      assert forall i :: 0 <= i < |text| ==> body[i] == text[i];
    }
  }

  /** The last run of a split is a suffix of the string: it ends with the
      string's last character, and holds only characters of the string. */
  lemma LastRunKeeps(s: string, ts: seq<string>, c: char)
    requires IsRunSplit(s, ts) && ts != [] && s != [] && s[|s| - 1] == c && c != ' '
    ensures var last := ts[|ts| - 1];
      NoSpaces(last) && forall x :: x in last ==> x in s
  {
    var last := ts[|ts| - 1];
    LastRunSuffix(s, ts);
    assert last[|last| - 1] == c;
    UniformSame(last, |last| - 1);
    forall x | x in last
      ensures x in s
    {
      var i :| 0 <= i < |last| && last[i] == x;
      assert s[|s| - |last| + i] == x;
    }
  }

  /** Appending CRLF to a string whose last run has no space extends that run. */
  lemma ExtendByCrlf(s: string, ts: seq<string>)
    requires IsRunSplit(s, ts) && ts != [] && ts[|ts| - 1][0] != ' '
    ensures IsRunSplit(s + CRLF, ts[..|ts| - 1] + [ts[|ts| - 1] + CRLF])
  {
    var n := |ts|;
    var last := ts[n - 1];
    ExtendLastRun(s, ts, '\r');
    var r1 := ts[..n - 1] + [last + ['\r']];
    ExtendLastRun(s + ['\r'], r1, '\n');
    assert r1[..|r1| - 1] == ts[..n - 1];
    assert r1[|r1| - 1] + ['\n'] == last + CRLF;
    assert s + ['\r'] + ['\n'] == s + CRLF;
  }

  /** Appending CRLF extends the last run of `text "."`. */
  lemma BodyRunsCrlf(text: string)
    requires ReplyTextOk(text)
    ensures var r := Runs(text + ".");
      r != [] && IsRunSplit(text + "." + CRLF, r[..|r| - 1] + [r[|r| - 1] + CRLF])
  {
    BodyRuns(text);
    var r := Runs(text + ".");
    ExtendByCrlf(text + ".", r);
  }

  /** The seed space, the code's digits and the single space are three runs. */
  lemma CodePrefixRuns(code: nat)
    requires 100 <= code <= 999
    ensures var d := NatToString(code);
      IsRunSplit(" " + d + " ", [" ", d, " "]) && d != [] && d[0] != ' '
  {
    var d := NatToString(code);
    ThreeDigits(code);
    assert IsRunSplit(" ", [" "]) by {
      ConcatCons(" ", []);
      assert [" "] + [] == [" "];
    }
    assert NoSpaces(d) by {
      forall i | 0 <= i < |d|
        ensures d[i] != ' '
      {
        assert IsDigit(d[i]);
      }
    }
    assert IsRunSplit(d, [d]) by {
      ConcatCons(d, []);
      assert [d] + [] == [d];
    }
    RunSplitAppend(" ", [" "], d, [d]);
    assert [" "] + [d] == [" ", d];
    RunSplitAppend(" " + d, [" ", d], " ", [" "]);
    assert [" ", d] + [" "] == [" ", d, " "];
  }

  /** The runs of `text "." CRLF`, whose first run starts as the text does. */
  lemma BodyLineRuns(text: string)
    requires ReplyTextOk(text)
    ensures var r := Runs(text + ".");
      r != [] && var r2 := r[..|r| - 1] + [r[|r| - 1] + CRLF];
      IsRunSplit(text + "." + CRLF, r2) && r2[0][0] == (text + ".")[0]
  {
    BodyRuns(text);
    BodyRunsCrlf(text);
    var r := Runs(text + ".");
    var r2 := r[..|r| - 1] + [r[|r| - 1] + CRLF];
    if |r| == 1 {
      assert r2[0] == r[0] + CRLF;
    } else {
      assert r2[0] == r[0];
    }
  }

  /** The runs of a reply line with the seed space in front. */
  lemma LineRuns(code: nat, text: string)
    requires 100 <= code <= 999 && ReplyTextOk(text)
    ensures var r := Runs(text + ".");
      r != [] &&
      Runs(" " + (NatToString(code) + " " + text + "." + CRLF)) ==
        [" ", NatToString(code), " "] + r[..|r| - 1] + [r[|r| - 1] + CRLF]
  {
    var d := NatToString(code);
    CodePrefixRuns(code);
    BodyLineRuns(text);
    var r := Runs(text + ".");
    var body := text + "." + CRLF;
    assert (text + ".")[0] != ' ' by {
      if text != [] {
        assert (text + ".")[0] == text[0];
      }
    }
    PrefixedRuns(d, body, r[..|r| - 1] + [r[|r| - 1] + CRLF]);
    AppendAssoc(d + " ", text, ".", CRLF);
  }

  lemma AppendAssoc<T>(x: seq<T>, y: seq<T>, z: seq<T>, w: seq<T>)
    ensures x + y + z + w == x + (y + z + w)
  {
  }

  /** The runs of a line whose code prefix is followed by a body that does
      not start with a space: the prefix's runs, then the body's. */
  lemma PrefixedRuns(d: string, body: string, r2: seq<string>)
    requires IsRunSplit(" " + d + " ", [" ", d, " "])
    requires IsRunSplit(body, r2) && r2 != [] && r2[0][0] != ' '
    ensures Runs(" " + (d + " " + body)) == [" ", d, " "] + r2
  {
    assert [" ", d, " "][2][0] == ' ';
    RunSplitAppend(" " + d + " ", [" ", d, " "], body, r2);
    assert " " + d + " " + body == " " + (d + " " + body);
    RunSplitIsRuns(" " + (d + " " + body), [" ", d, " "] + r2);
  }

  /** The tokens the client's reply tokenizer yields when the last run ends
      with CRLF and has no space and no other CR: that run is cut at the CR. */
  lemma ReplyTokensCut(response: string, pre: seq<string>, last: string)
    requires Runs(" " + response) == pre + [last + CRLF]
    requires ' ' !in last && '\r' !in last
    ensures ReplyTokens(response) == Some(pre + [last, CRLF])
  {
    var lastU := last + CRLF;
    assert ' ' !in lastU by {
      assert forall i :: 0 <= i < |last| ==> lastU[i] == last[i];
    }
    IndexOfAfter(last, CRLF, '\r');
    assert lastU[..|last|] == last && lastU[|last|..] == CRLF;
  }

  /** The last run of `text "."` has no space and no CR. */
  lemma LastRunClean(text: string)
    requires ReplyTextOk(text)
    ensures var r := Runs(text + ".");
      r != [] && ' ' !in r[|r| - 1] && '\r' !in r[|r| - 1]
  {
    BodyRuns(text);
    var r := Runs(text + ".");
    assert NoSpaces(r[|r| - 1]);
  }

  /** The tokens the client's reply tokenizer yields for `code SP text "." CRLF`:
      the seed space, the code, the single space, the runs of `text "."`, and
      the CRLF cut off the last run. */
  lemma ReplyLineTokens(code: nat, text: string)
    requires 100 <= code <= 999 && ReplyTextOk(text)
    ensures ReplyTokens(NatToString(code) + " " + text + "." + CRLF) ==
            Some([" ", NatToString(code), " "] + Runs(text + ".") + [CRLF])
  {
    var d := NatToString(code);
    LastRunClean(text);
    LineRuns(code, text);
    var r := Runs(text + ".");
    var pre := [" ", d, " "] + r[..|r| - 1];
    var last := r[|r| - 1];
    ReplyTokensCut(d + " " + text + "." + CRLF, pre, last);
    SplitLast([" ", d, " "], r, CRLF);
  }

  lemma SplitLast<T>(p: seq<T>, r: seq<T>, x: T)
    requires r != []
    ensures p + r[..|r| - 1] + [r[|r| - 1], x] == p + r + [x]
  {
    assert r[..|r| - 1] + [r[|r| - 1]] == r;
  }

  /** The first occurrence of `c` in `a + b`, when `a` lacks it and `b` starts with it. */
  lemma IndexOfAfter(a: string, b: string, c: char)
    requires c !in a && b != [] && b[0] == c
    ensures IndexOf(a + b, c) == |a|
  {
    var s := a + b;
    assert s[|a|] == c;
    assert s[..|a|] == a;
  }

  /** The text the client rebuilds from those tokens: the single space, the
      text and the final dot. */
  lemma ReplyLineText(code: nat, text: string)
    requires 100 <= code <= 999 && ReplyTextOk(text)
    ensures var ts := [" ", NatToString(code), " "] + Runs(text + ".") + [CRLF];
      |ts| >= 5 && ts[2] == " " && ReplyText(ts) == " " + text + "."
  {
    var r := Runs(text + ".");
    RunsIsRunSplit(text + ".");
    ConcatEmpty(r);
    FramedText(NatToString(code), r);
  }

  /** Between the code's space and the CRLF, the client joins the space and
      the runs back together. */
  lemma FramedText(digits: string, r: seq<string>)
    requires r != []
    ensures var ts := [" ", digits, " "] + r + [CRLF];
      |ts| >= 5 && ts[2] == " " && ReplyText(ts) == " " + Concat(r)
  {
    var ts := [" ", digits, " "] + r + [CRLF];
    assert ts[2..|ts| - 1] == [" "] + r;
    ConcatCons(" ", r);
  }

  /** The code stage passes on such a line and records the code's digits. */
  lemma ReplyLineCode(code: nat, text: string, ts: seq<string>)
    requires 100 <= code <= 599 && |ts| >= 3
    ensures var line := NatToString(code) + " " + text + "." + CRLF;
      ParseReplyCode(line, ts, NewResponse) == Stage(true, NewResponse.(replyCode := NatToString(code))) &&
      ReplyCodeOf(line) == Some(code)
  {
    ReplyLineCodeDigits(code, text);
    ParseNatToString(code);
  }

  /** The first space of such a line follows the code's three digits. */
  lemma ReplyLineCodeDigits(code: nat, text: string)
    requires 100 <= code <= 599
    ensures var line := NatToString(code) + " " + text + "." + CRLF;
      IndexOf(line, ' ') == 3 && line[..3] == NatToString(code)
  {
    var d := NatToString(code);
    var rest := " " + text + "." + CRLF;
    var line := d + " " + text + "." + CRLF;
    assert line == d + rest;
    ThreeDigits(code);
    assert ' ' !in d by {
      assert forall i :: 0 <= i < |d| ==> IsDigit(d[i]);
    }
    IndexOfAfter(d, rest, ' ');
    assert line[..3] == d;
  }

  /** The text stage passes on such a line and records the text and its dot. */
  lemma ReplyLineTextStage(code: nat, text: string, m: ServerResponse)
    requires 100 <= code <= 999 && ReplyTextOk(text)
    ensures var ts := [" ", NatToString(code), " "] + Runs(text + ".") + [CRLF];
      ParseReplyText(ts, m) == Some(Stage(true, m.(replyText := " " + text + ".")))
  {
    ReplyLineText(code, text);
    var t := " " + text + ".";
    assert IsAscii(t) by {
      assert forall i :: 1 <= i < |t| - 1 ==> t[i] == text[i - 1];
    }
    assert t != " " by {
      assert |t| >= 2;
    }
    assert t[|t| - 1] == '.';
  }

  /** Every line `code SP text "." CRLF` with a three-digit code in
      [100, 599] and well-behaved text is accepted by the client, unless its
      code is one of the client's five failure codes. */
  lemma WellFormedLineAccepted(code: nat, text: string)
    requires 100 <= code <= 599 && ReplyTextOk(text)
    ensures ParseResponse(NatToString(code) + " " + text + "." + CRLF) == Some(!IsFailureCode(code))
  {
    ReplyLineTokens(code, text);
    ReplyLineChecked(code, text);
  }

  /** The checks the client runs on the tokens of such a line: they pass, and
      the error flag is raised exactly for a failure code. */
  lemma ReplyLineChecked(code: nat, text: string)
    requires 100 <= code <= 599 && ReplyTextOk(text)
    ensures var line := NatToString(code) + " " + text + "." + CRLF;
      var ts := [" ", NatToString(code), " "] + Runs(text + ".") + [CRLF];
      CheckReply(line, ts).Some? && CheckReply(line, ts).value.error == IsFailureCode(code)
  {
    var d := NatToString(code);
    var line := d + " " + text + "." + CRLF;
    var ts := [" ", d, " "] + Runs(text + ".") + [CRLF];
    ReplyLineText(code, text);
    ReplyLineCode(code, text, ts);
    var m1 := NewResponse.(replyCode := d);
    ReplyLineTextStage(code, text, m1);
    assert CrlfAt(line, |line| - 2);
    ParseNatToString(code);
    var m2 := m1.(replyText := " " + text + ".");
    assert CheckReply(line, ts) == Some(if IsFailureCode(code) then ResponseByCode(m2, 0).(error := true) else ResponseByCode(m2, 0));
  }

  /** Printable ASCII, from the space to the tilde. */
  predicate Printable(text: string) {
    forall i :: 0 <= i < |text| ==> ' ' <= text[i] <= '~'
  }

  /** Printable text that does not start with a space can follow a reply code. */
  lemma PrintableOk(text: string)
    requires Printable(text) && text != [] && text[0] != ' '
    ensures ReplyTextOk(text)
  {
    assert forall i :: 0 <= i < |text| ==> text[i] != '\r' && text[i] != '\n';
  }

  /** Every text of the server's table is ASCII, has no line end and does
      not start with a space. */
  lemma TableTextOk(code: int)
    requires InTable(code)
    ensures ReplyTextOk(TableText(code).value)
  {
    match code {
    case 150 | 215 => Printable150And215();
    case 220 | 221 => Printable220And221();
    case 230 | 250 => Printable230And250();
    case 331 => Printable331();
    case 425 => Printable425();
    case 500 => Printable500();
    case 501 => Printable501();
    case 502 | 503 => Printable502And503();
    case 530 | 550 => Printable530And550();
    }
    PrintableOk(TableText(code).value);
  }

  /** A table entry whose text is printable and starts with a character
      other than a space. */
  predicate PrintableEntry(code: int) {
    InTable(code) && var t := TableText(code).value; Printable(t) && t != [] && t[0] != ' '
  }

  // The table's texts are printable, one or two codes at a time.

  lemma Printable150And215()
    ensures PrintableEntry(150) && PrintableEntry(215)
  {
  }

  lemma Printable220And221()
    ensures PrintableEntry(220) && PrintableEntry(221)
  {
  }

  lemma Printable230And250()
    ensures PrintableEntry(230) && PrintableEntry(250)
  {
  }

  lemma Printable331()
    ensures PrintableEntry(331)
  {
  }

  lemma Printable425()
    ensures PrintableEntry(425)
  {
  }

  lemma Printable500()
    ensures PrintableEntry(500)
  {
  }

  lemma Printable501()
    ensures PrintableEntry(501)
  {
  }

  lemma Printable502And503()
    ensures PrintableEntry(502) && PrintableEntry(503)
  {
  }

  lemma Printable530And550()
    ensures PrintableEntry(530) && PrintableEntry(550)
  {
  }

  /** Every line of the server's reply table is accepted by the client's
      check, except the five failure codes, which it refuses: in particular
      425 (no data connection) and 502 (command not implemented) count as
      success. */
  lemma ServerLinesAccepted(code: int)
    requires InTable(code)
    ensures ParseResponse(ReplyLine(code)) == Some(!IsFailureCode(code))
  {
    TableShape(code);
    TableTextOk(code);
    WellFormedLineAccepted(code, TableText(code).value);
  }

  // ---------------------------------------------------------------------------
  // Every line a connection writes

  /** A reply whose line the client can read: a code in [100, 599] and text
      that may follow it. */
  predicate CleanReply(r: Reply) {
    100 <= r.code <= 599 && ReplyTextOk(r.text)
  }

  /** A line the server writes as the message of such a reply. */
  ghost predicate CleanLine(line: string) {
    exists r: Reply :: CleanReply(r) && Message(r) == line
  }

  /** The client reads the message of such a reply, and refuses it exactly
      for its five failure codes. */
  lemma CleanReplyAccepted(r: Reply)
    requires CleanReply(r)
    ensures ParseResponse(Message(r)) == Some(!IsFailureCode(r.code))
  {
    assert IntToString(r.code) == NatToString(r.code);
    WellFormedLineAccepted(r.code, r.text);
  }

  lemma ByCodeClean(r: Reply, code: int)
    requires InTable(code)
    ensures CleanReply(ByCode(r, code))
  {
    TableShape(code);
    TableTextOk(code);
  }

  /** The 200 replies that TYPE and NOOP build with `set`. */
  lemma SetTextsClean(t: string)
    requires t == "A" || t == "I"
    ensures ReplyTextOk("Type set to " + t) && ReplyTextOk("Command OK")
  {
    PrintableOk("Type set to " + t);
    PrintableOk("Command OK");
  }

  /** The 200 reply that PORT builds with `set`: the decoded host and port
      of fields that passed the check are signs and digits. */
  lemma PortTextClean(fields: seq<string>)
    requires |fields| == 6 && forall k :: 0 <= k < 6 ==> PortFieldOk(fields[k])
    ensures Decodable(fields) && ReplyTextOk(PortText(DecodeAddress(fields)))
  {
    assert PortFieldOk(fields[4]) && PortFieldOk(fields[5]);
    forall k | 0 <= k < 4
      ensures Printable(fields[..4][k])
    {
      assert PortFieldOk(fields[k]);
      NumeralPrintable(fields[k]);
    }
    JoinPrintable(fields[..4], '.');
    PortTextPrintable(DecodeAddress(fields));
  }

  /** PORT's 200 text for a printable host. */
  lemma PortTextPrintable(a: Address)
    requires Printable(a.host)
    ensures ReplyTextOk(PortText(a))
  {
    IntToStringPrintable(a.port);
    PrintableAppend("Port command successful (", a.host);
    PrintableAppend("Port command successful (" + a.host, ",");
    PrintableAppend("Port command successful (" + a.host + ",", IntToString(a.port));
    PrintableAppend("Port command successful (" + a.host + "," + IntToString(a.port), ")");
    PrintableOk(PortText(a));
  }

  lemma PrintableAppend(a: string, b: string)
    requires Printable(a) && Printable(b)
    ensures Printable(a + b)
  {
    forall i | 0 <= i < |a + b|
      ensures ' ' <= (a + b)[i] <= '~'
    {
      if i >= |a| {
        assert (a + b)[i] == b[i - |a|];
      }
    }
  }

  /** What Integer.toString writes is printable. */
  lemma IntToStringPrintable(i: int)
    ensures Printable(IntToString(i))
  {
    var n: nat := if i < 0 then -i else i;
    assert AllDigits(NatToString(n));
    if i < 0 {
      PrintableAppend("-", NatToString(n));
    }
  }

  /** What Integer.parseInt reads is printable. */
  lemma NumeralPrintable(f: string)
    requires ParseInt(f).Some?
    ensures Printable(f)
  {
  }

  lemma {:induction false} JoinPrintable(ts: seq<string>, sep: char)
    requires ' ' <= sep <= '~'
    requires forall k :: 0 <= k < |ts| ==> Printable(ts[k])
    ensures Printable(Join(ts, sep))
    decreases |ts|
  {
    if |ts| > 1 {
      var init := ts[..|ts| - 1];
      JoinPrintable(init, sep);
      PrintableAppend(Join(init, sep), [sep]);
      PrintableAppend(Join(init, sep) + [sep], ts[|ts| - 1]);
    }
  }

  /** Every handler leaves a clean reply clean: the codes it sets are in the
      table, and the texts it sets are the three above; a RETR that returns
      without setting a reply, or halts the server, keeps the previous one. */
  lemma DispatchClean(st: ServerState, r: Reply, v: Verb, command: string, p: string,
                      outcome: DataOutcome)
    requires CleanReply(r)
    ensures CleanReply(ServerSpec.Dispatch(st, r, v, command, p, outcome).reply)
  {
    match v
    case USER => UserClean(st, r, command, p);
    case PASS => PassClean(st, r, command, p);
    case TYPE => TypeClean(st, r, command, p);
    case PORT => PortClean(st, r, command, p);
    case RETR => RetrClean(st, r, command, p, outcome);
    case SYST | NOOP | QUIT => NoParamClean(st, r, command);
  }

  /** The error replies every handler may set. */
  lemma ErrorsClean(r: Reply)
    ensures CleanReply(ByCode(r, 500)) && CleanReply(ByCode(r, 501)) &&
            CleanReply(ByCode(r, 503)) && CleanReply(ByCode(r, 530))
  {
    SyntaxErrorsClean(r);
    SequenceErrorsClean(r);
  }

  lemma SyntaxErrorsClean(r: Reply)
    ensures CleanReply(ByCode(r, 500)) && CleanReply(ByCode(r, 501))
  {
    ByCodeClean(r, 500);
    ByCodeClean(r, 501);
  }

  lemma SequenceErrorsClean(r: Reply)
    ensures CleanReply(ByCode(r, 503)) && CleanReply(ByCode(r, 530))
  {
    ByCodeClean(r, 503);
    ByCodeClean(r, 530);
  }

  lemma UserClean(st: ServerState, r: Reply, command: string, p: string)
    requires CleanReply(r)
    ensures CleanReply(ParseUser(st, r, command, p).reply)
  {
    ErrorsClean(r);
    ByCodeClean(r, 331);
  }

  lemma PassClean(st: ServerState, r: Reply, command: string, p: string)
    requires CleanReply(r)
    ensures CleanReply(ParsePass(st, r, command, p).reply)
  {
    ErrorsClean(r);
    var r1 := match ParamError(command, p)
      case Some(e) => ByCode(r, e)
      case None => r;
    assert CleanReply(r1);
    ByCodeClean(r1, 501);
    ProcessPassClean(st, r1);
  }

  lemma ProcessPassClean(st: ServerState, r: Reply)
    requires CleanReply(r)
    ensures CleanReply(ProcessPass(st, r).reply)
  {
    ByCodeClean(r, 503);
    ByCodeClean(r, 230);
  }

  lemma TypeClean(st: ServerState, r: Reply, command: string, p: string)
    requires CleanReply(r)
    ensures CleanReply(ParseType(st, r, command, p).reply)
  {
    ErrorsClean(r);
    if p == "A" || p == "I" {
      SetTextsClean(p);
    }
  }

  lemma PortClean(st: ServerState, r: Reply, command: string, p: string)
    requires CleanReply(r)
    ensures CleanReply(ParsePort(st, r, command, p).reply)
  {
    ErrorsClean(r);
    var fields := Split(p, ',');
    if ParamError(command, p).None? && |fields| == 6 && forall k :: 0 <= k < 6 ==> PortFieldOk(fields[k]) {
      PortTextClean(fields);
    }
  }

  lemma RetrClean(st: ServerState, r: Reply, command: string, p: string, outcome: DataOutcome)
    requires CleanReply(r)
    ensures CleanReply(ParseRetr(st, r, command, p, outcome).reply)
  {
    ErrorsClean(r);
    CopyFileClean(st, r, StripSeparator(p), outcome);
  }

  lemma CopyFileClean(st: ServerState, r: Reply, path: string, outcome: DataOutcome)
    requires CleanReply(r)
    ensures CleanReply(CopyFile(st, r, path, outcome).reply)
  {
    match outcome
    case NoConnection => ByCodeClean(r, 425);
    case FileMissing => ByCodeClean(r, 550);
    case TransferBroken =>
      ByCodeClean(r, 150);
      ByCodeClean(ByCode(r, 150), 550);
    case Transferred =>
      ByCodeClean(r, 150);
      ByCodeClean(ByCode(r, 150), 250);
  }

  lemma NoParamClean(st: ServerState, r: Reply, command: string)
    requires CleanReply(r)
    ensures CleanReply(ParseSyst(st, r, command).reply) &&
            CleanReply(ParseNoop(st, r, command).reply) &&
            CleanReply(ParseQuit(st, r, command).reply)
  {
    ErrorsClean(r);
    ByCodeClean(r, 215);
    ByCodeClean(r, 221);
    SetTextsClean("A");
  }

  /** One command line: the reply it leaves is clean, and every line it
      writes is the message of a clean reply. */
  lemma StepClean(st: ServerState, r: Reply, command: string, tokens: seq<string>,
                  outcome: DataOutcome)
    requires |tokens| > 0 && CleanReply(r)
    ensures var s := ServerSpec.Step(st, r, command, tokens, outcome);
      CleanReply(s.reply) &&
      |s.st.sent| >= |st.sent| && s.st.sent[..|st.sent|] == st.sent &&
      forall k :: |st.sent| <= k < |s.st.sent| ==> CleanLine(s.st.sent[k])
  {
    var s := ServerSpec.Step(st, r, command, tokens, outcome);
    StepSendsReplies(st, r, command, tokens, outcome);
    StepReplyClean(st, r, command, tokens, outcome);
    NewLinesClean(st.sent, s.st.sent, s.reply);
  }

  lemma StepReplyClean(st: ServerState, r: Reply, command: string, tokens: seq<string>,
                       outcome: DataOutcome)
    requires |tokens| > 0 && CleanReply(r)
    ensures CleanReply(ServerSpec.Step(st, r, command, tokens, outcome).reply)
  {
    var r0 := r.(error := false);
    if CommandVerb(tokens).Some? {
      DispatchClean(st, r0, CommandVerb(tokens).value, command, ServerParameter(tokens), outcome);
      StepKnown(st, r, command, tokens, outcome);
    } else {
      ByCodeClean(r0, UnknownVerbCode(ToUpper(tokens[0])));
    }
  }

  /** Nothing, a clean reply's message, or the 150 line and that message,
      written after what was there. */
  lemma NewLinesClean(before: seq<string>, after: seq<string>, r: Reply)
    requires CleanReply(r)
    requires after == before || after == before + [Message(r)] ||
             after == before + [ReplyLine(150), Message(r)]
    ensures |after| >= |before| && after[..|before|] == before &&
            forall k :: |before| <= k < |after| ==> CleanLine(after[k])
  {
    var started := ByCode(Blank, 150);
    ByCodeClean(Blank, 150);
    assert ReplyLine(150) == Message(started);
    forall k | |before| <= k < |after|
      ensures CleanLine(after[k])
    {
      if after[k] == ReplyLine(150) {
        assert CleanReply(started) && Message(started) == after[k];
      } else {
        assert CleanReply(r) && Message(r) == after[k];
      }
    }
  }

  /** The read loop keeps the reply clean and writes only clean lines. */
  lemma {:induction false} RunClean(st: ServerState, r: Reply, reqs: seq<Request>)
    requires Tokenized(reqs) && CleanReply(r)
    ensures var res := ServerSpec.Run(st, r, reqs);
      CleanReply(res.reply) &&
      |res.st.sent| >= |st.sent| && res.st.sent[..|st.sent|] == st.sent &&
      forall k :: |st.sent| <= k < |res.st.sent| ==> CleanLine(res.st.sent[k])
    decreases |reqs|
  {
    if reqs != [] {
      var s := ServerSpec.Step(st, r, reqs[0].command, reqs[0].tokens, reqs[0].outcome);
      StepClean(st, r, reqs[0].command, reqs[0].tokens, reqs[0].outcome);
      if !s.quit && !s.halted {
        var rest := ServerSpec.Run(s.st, s.reply, reqs[1..]);
        RunClean(s.st, s.reply, reqs[1..]);
        assert rest.st.sent[..|st.sent|] == rest.st.sent[..|s.st.sent|][..|st.sent|];
        forall k | |st.sent| <= k < |rest.st.sent|
          ensures CleanLine(rest.st.sent[k])
        {
          if k < |s.st.sent| {
            assert rest.st.sent[k] == rest.st.sent[..|s.st.sent|][k];
          }
        }
      }
    }
  }

  /** Every line a connection writes, the 220 greeting first, is the message
      of a reply with a code in [100, 599] and text the client can read; so
      the client's check accepts each of them (CleanReplyAccepted), refusing
      exactly the five failure codes. */
  lemma ConnectionLinesClean(st: ServerState, reqs: seq<Request>)
    requires Tokenized(reqs)
    ensures var res := Connection(st, reqs);
      |res.st.sent| > |st.sent| && res.st.sent[..|st.sent|] == st.sent &&
      forall k :: |st.sent| <= k < |res.st.sent| ==> CleanLine(res.st.sent[k])
  {
    var greeting := ByCode(Blank, 220);
    ByCodeClean(Blank, 220);
    var start := ServerSpec.Send(st, greeting);
    RunClean(start, greeting, reqs);
    var run := ServerSpec.Run(start, greeting, reqs);
    assert run.st.sent[..|st.sent|] == run.st.sent[..|start.sent|][..|st.sent|];
    forall k | |st.sent| <= k < |run.st.sent|
      ensures CleanLine(run.st.sent[k])
    {
      if k == |st.sent| {
        assert run.st.sent[k] == run.st.sent[..|start.sent|][k] == Message(greeting);
      }
    }
  }

  /** So the client reads every line of a connection, the greeting included,
      and refuses it exactly for a failure code. */
  lemma ConnectionLinesAccepted(st: ServerState, reqs: seq<Request>, k: int)
    requires Tokenized(reqs)
    requires |st.sent| <= k < |Connection(st, reqs).st.sent|
    ensures var line := Connection(st, reqs).st.sent[k];
      exists r: Reply :: CleanReply(r) && Message(r) == line &&
                         ParseResponse(line) == Some(!IsFailureCode(r.code))
  {
    ConnectionLinesClean(st, reqs);
    var line := Connection(st, reqs).st.sent[k];
    assert CleanLine(line);
    var r: Reply :| CleanReply(r) && Message(r) == line;
    CleanReplyAccepted(r);
  }

  /** The client's PORT argument, split at commas the way the server splits it,
      is the four address fields followed by the two port bytes, and the
      server decodes it to the client's address and data port. */
  lemma PortArgumentDecodes(ip: seq<string>, p: int)
    requires |ip| == 4 && ip[3] != []
    requires forall k :: 0 <= k < 4 ==> ',' !in ip[k]
    requires 0 <= p <= 65535
    ensures var fields := Split(HostPort(Join(ip, ','), p), ',');
      fields == ip + [NatToString(p / 256), NatToString(p % 256)] &&
      Decodable(fields) && DecodeAddress(fields) == Address(Join(ip, '.'), p)
  {
    var fields := ip + [NatToString(p / 256), NatToString(p % 256)];
    PortFieldsSplit(ip, p);
    ParseNatToString(p / 256);
    ParseNatToString(p % 256);
    assert fields[..4] == ip;
  }

  /** The PORT argument the client writes splits at its commas into the four
      address parts and the two decimal port fields. */
  lemma PortFieldsSplit(ip: seq<string>, p: int)
    requires |ip| == 4 && ip[3] != []
    requires forall k :: 0 <= k < 4 ==> ',' !in ip[k]
    requires 0 <= p <= 65535
    ensures Split(HostPort(Join(ip, ','), p), ',') == ip + [NatToString(p / 256), NatToString(p % 256)]
  {
    var h := NatToString(p / 256);
    var l := NatToString(p % 256);
    var fields := ip + [h, l];
    assert fields[..5] == ip + [h] && (ip + [h])[..4] == ip;
    assert Join(fields, ',') == HostPort(Join(ip, ','), p);
    forall k | 0 <= k < 6
      ensures ',' !in fields[k]
    {
      if k >= 4 {
        assert forall i :: 0 <= i < |fields[k]| ==> IsDigit(fields[k][i]);
      }
    }
    SplitOfJoin(fields, ',');
  }
}

=== FILE: reply_check.dfy ===
/** The client's check of each reply line the server sends (parseResponse
    with ParseResponse.parseReplyCode and parseReplyText): a reply code in
    [100, 599] before the first space, exactly one space, ASCII text and a
    CRLF (section 4.2 of RFC 959); a well-formed reply whose code is one of
    the five failure codes still counts as a failure. The ServerResponse
    object the check fills in is a value here. */
module ReplyCheck {
  import opened Text
  import opened ClientTokens

  /** The abstract value of a ServerResponse object. */
  datatype ServerResponse = ServerResponse(message: string, replyCode: string, replyText: string, error: bool)

  /** A freshly constructed ServerResponse (code and text not yet set). */
  const NewResponse: ServerResponse := ServerResponse("", "", "", false)

  /** ServerResponse.setReplyByCode: the three diagnostics raise the error
      flag; any other code writes the acceptance message and leaves the flag. */
  function ResponseByCode(m: ServerResponse, code: int): (r: ServerResponse)
    ensures r.replyCode == m.replyCode && r.replyText == m.replyText
    ensures r.error <==> m.error || code in {10, 11, 12}
  {
    match code
    case 10 => m.(message := "ERROR -- reply-code", error := true)
    case 11 => m.(message := "ERROR -- reply-text", error := true)
    case 12 => m.(message := "ERROR -- <CRLF>", error := true)
    case _ => m.(message := "FTP reply " + m.replyCode + " accepted. Text is :" + m.replyText)
  }

  /** The outcome of one stage of the check: whether it passed, and the response value after it. */
  datatype Stage = Stage(ok: bool, msg: ServerResponse)

  /** The codes the client takes as a refusal even in a well-formed reply. */
  predicate IsFailureCode(code: int) {
    code == 500 || code == 501 || code == 503 || code == 530 || code == 550
  }

  /** ParseResponse.parseReplyCode. */
  function ParseReplyCode(reply: string, splitted: seq<string>, m: ServerResponse): (s: Stage)
    ensures s.ok ==> |splitted| >= 3 && 0 <= IndexOf(reply, ' ') &&
                     ParseInt(reply[..IndexOf(reply, ' ')]).Some? &&
                     100 <= ParseInt(reply[..IndexOf(reply, ' ')]).value < 600 &&
                     s.msg == m.(replyCode := reply[..IndexOf(reply, ' ')])
    ensures !s.ok ==> s.msg == ResponseByCode(m, 10)
  {
    if |splitted| < 3 then Stage(false, ResponseByCode(m, 10))
    else
      var space := IndexOf(reply, ' ');
      if space < 0 then Stage(false, ResponseByCode(m, 10))
      else
        var replyCode := reply[..space];
        match ParseInt(replyCode)
        case None => Stage(false, ResponseByCode(m, 10))
        case Some(code) =>
          if code < 100 || code >= 600 then Stage(false, ResponseByCode(m, 10))
          else Stage(true, m.(replyCode := replyCode))
  }

  /** ParseResponse.buildParameter: the tokens strictly between index 1 and the last, concatenated. */
  function ReplyText(splitted: seq<string>): string {
    if |splitted| < 3 then "" else Concat(splitted[2..|splitted| - 1])
  }

  /** A trailing LF, then a trailing CR, removed; None where the text is, or
      becomes, empty and charAt(length - 1) throws. */
  function StripLineEnd(text: string): (r: Option<string>)
    ensures r.None? <==> text == [] || text == "\n"
    ensures r.Some? ==> r.value == text || r.value + "\n" == text ||
                        r.value + "\r" == text || r.value + "\r\n" == text
  {
    if text == [] then None
    else
      var t := if text[|text| - 1] == '\n' then text[..|text| - 1] else text;
      if t == [] then None
      else if t[|t| - 1] == '\r' then Some(t[..|t| - 1])
      else Some(t)
  }

  /** ParseResponse.parseReplyText; None where the client throws. */
  function ParseReplyText(splitted: seq<string>, m: ServerResponse): (s: Option<Stage>)
    requires |splitted| >= 3
    ensures s.Some? && s.value.ok ==>
      splitted[2] == " " && ReplyText(splitted) != " " && IsAscii(ReplyText(splitted)) &&
      StripLineEnd(ReplyText(splitted)).Some? &&
      s.value.msg == m.(replyText := StripLineEnd(ReplyText(splitted)).value)
    ensures s.Some? && !s.value.ok ==> s.value.msg == ResponseByCode(m, 11)
    ensures s.None? ==> splitted[2] == " " && IsAscii(ReplyText(splitted)) &&
                        (ReplyText(splitted) == [] || ReplyText(splitted) == "\n")
  {
    var text := ReplyText(splitted);
    if text == " " then Some(Stage(false, ResponseByCode(m, 11)))
    else if splitted[2] != " " then Some(Stage(false, ResponseByCode(m, 11)))
    else if !IsAscii(text) then Some(Stage(false, ResponseByCode(m, 11)))
    else match StripLineEnd(text)
      case None => None
      case Some(t) => Some(Stage(true, m.(replyText := t)))
  }

  /** parseResponse after splitting: the code and text stages, the CRLF check,
      the acceptance message, and the failure-code rule. None where the client throws. */
  function CheckReply(response: string, splitted: seq<string>): Option<ServerResponse> {
    var codeStage := ParseReplyCode(response, splitted, NewResponse);
    var textStage :=
      if codeStage.ok then ParseReplyText(splitted, codeStage.msg) else Some(codeStage);
    match textStage
    case None => None
    case Some(stage) =>
      var crlf := if stage.ok && !ContainsCrlf(response) then Stage(false, ResponseByCode(stage.msg, 12)) else stage;
      var msg := if crlf.ok then ResponseByCode(crlf.msg, 0) else crlf.msg;
      if !msg.error && ParseInt(msg.replyCode).Some? && IsFailureCode(ParseInt(msg.replyCode).value)
      then Some(msg.(error := true))
      else Some(msg)
  }

  /** parseResponse: Some(true) when the reply is accepted, Some(false) when it
      is refused, None where the client throws. */
  function ParseResponse(response: string): Option<bool> {
    match ReplyTokens(response)
    case None => None
    case Some(splitted) =>
      match CheckReply(response, splitted)
      case None => None
      case Some(msg) => Some(!msg.error)
  }

  /** The reply code of a response: the digits before its first space. */
  function ReplyCodeOf(response: string): Option<int> {
    var space := IndexOf(response, ' ');
    if space < 0 then None else ParseInt(response[..space])
  }

  // ---------------------------------------------------------------------------
  // What an accepted or a refused reply looks like

  /** A reply is accepted exactly when its tokens pass the code check, the
      text check and the CRLF check and its code is not a failure code. */
  lemma AcceptedExactly(response: string, splitted: seq<string>)
    requires ReplyTokens(response) == Some(splitted)
    ensures ParseResponse(response) == Some(true) <==>
      |splitted| >= 3 && ReplyCodeOf(response).Some? &&
      100 <= ReplyCodeOf(response).value <= 599 &&
      !IsFailureCode(ReplyCodeOf(response).value) &&
      splitted[2] == " " && ReplyText(splitted) != " " && ReplyText(splitted) != [] &&
      IsAscii(ReplyText(splitted)) && ContainsCrlf(response)
  {
    CheckAccepted(response, splitted);
  }

  /** The same at the level of the check on the tokens. */
  lemma CheckAccepted(response: string, splitted: seq<string>)
    ensures var m := CheckReply(response, splitted);
      (m.Some? && !m.value.error) <==>
      |splitted| >= 3 && ReplyCodeOf(response).Some? &&
      100 <= ReplyCodeOf(response).value <= 599 &&
      !IsFailureCode(ReplyCodeOf(response).value) &&
      splitted[2] == " " && ReplyText(splitted) != " " && ReplyText(splitted) != [] &&
      IsAscii(ReplyText(splitted)) && ContainsCrlf(response)
  {
    CodeStage(response, splitted);
    var code := ParseReplyCode(response, splitted, NewResponse);
    if code.ok {
      TextStage(splitted, code.msg);
    }
  }

  /** The code stage passes exactly for three tokens and a code in [100, 599]
      before the first space, which it records. */
  lemma CodeStage(response: string, splitted: seq<string>)
    ensures var s := ParseReplyCode(response, splitted, NewResponse);
      (s.ok <==> |splitted| >= 3 && ReplyCodeOf(response).Some? &&
                 100 <= ReplyCodeOf(response).value <= 599) &&
      (s.ok ==> !s.msg.error && ParseInt(s.msg.replyCode) == ReplyCodeOf(response)) &&
      (!s.ok ==> s.msg.error)
  {
  }

  /** The text stage passes exactly for a lone space at index 2 followed by
      non-empty ASCII text other than a single space; it keeps the code and
      the error flag. */
  lemma TextStage(splitted: seq<string>, m: ServerResponse)
    requires |splitted| >= 3
    ensures var s := ParseReplyText(splitted, m);
      (s.Some? && s.value.ok <==>
         splitted[2] == " " && ReplyText(splitted) != " " && ReplyText(splitted) != [] &&
         IsAscii(ReplyText(splitted))) &&
      (s.Some? && s.value.ok ==> s.value.msg.replyCode == m.replyCode && s.value.msg.error == m.error) &&
      (s.Some? && !s.value.ok ==> s.value.msg.error)
  {
    if splitted[2] == " " {
      ReplyTextStart(splitted);
    }
  }

  /** Error 10: no three tokens, no space, or no integer in [100, 599] before
      the first space. The reply is refused and the text is never examined. */
  lemma BadReplyCode(response: string, splitted: seq<string>)
    requires ReplyTokens(response) == Some(splitted)
    requires |splitted| < 3 || ReplyCodeOf(response).None? ||
             ReplyCodeOf(response).value < 100 || ReplyCodeOf(response).value > 599
    ensures CheckReply(response, splitted) == Some(ResponseByCode(NewResponse, 10))
    ensures ParseResponse(response) == Some(false)
  {
  }

  /** Error 11: a good code followed by more than one space, or by ASCII-free
      or space-only text. */
  lemma BadReplyText(response: string, splitted: seq<string>)
    requires ReplyTokens(response) == Some(splitted)
    requires ParseReplyCode(response, splitted, NewResponse).ok
    requires splitted[2] != " " || ReplyText(splitted) == " " || !IsAscii(ReplyText(splitted))
    ensures CheckReply(response, splitted).Some?
    ensures CheckReply(response, splitted).value.message == "ERROR -- reply-text"
    ensures ParseResponse(response) == Some(false)
  {
  }

  /** Error 12: a well-formed code and text on a line without CRLF. */
  lemma MissingCrlf(response: string, splitted: seq<string>)
    requires ReplyTokens(response) == Some(splitted)
    requires ParseReplyCode(response, splitted, NewResponse).ok
    requires ParseReplyText(splitted, ParseReplyCode(response, splitted, NewResponse).msg).Some?
    requires ParseReplyText(splitted, ParseReplyCode(response, splitted, NewResponse).msg).value.ok
    requires !ContainsCrlf(response)
    ensures CheckReply(response, splitted).Some?
    ensures CheckReply(response, splitted).value.message == "ERROR -- <CRLF>"
    ensures ParseResponse(response) == Some(false)
  {
  }

  /** A well-formed reply carries its code and its text with the line end
      removed, and the acceptance message; it is refused exactly for the five
      failure codes. */
  lemma WellFormedReply(response: string, splitted: seq<string>)
    requires ParseReplyCode(response, splitted, NewResponse).ok
    requires ParseReplyText(splitted, ParseReplyCode(response, splitted, NewResponse).msg).Some?
    requires ParseReplyText(splitted, ParseReplyCode(response, splitted, NewResponse).msg).value.ok
    requires ContainsCrlf(response)
    ensures var m := CheckReply(response, splitted);
      var code := response[..IndexOf(response, ' ')];
      var text := StripLineEnd(ReplyText(splitted)).value;
      m.Some? && m.value.replyCode == code && m.value.replyText == text &&
      m.value.message == "FTP reply " + code + " accepted. Text is :" + text &&
      (m.value.error <==> IsFailureCode(ParseInt(code).value))
  {
  }

  /** The client throws exactly where its tokenizer finds no line end in a
      final non-space run, or where the text between the single space and the
      last token is empty. */
  lemma CrashCases(response: string)
    ensures ParseResponse(response).None? <==>
      ReplyTokens(response).None? ||
      (var ts := ReplyTokens(response).value;
       ParseReplyCode(response, ts, NewResponse).ok && ts[2] == " " && ReplyText(ts) == [])
  {
    if ReplyTokens(response).Some? {
      CheckCrash(response, ReplyTokens(response).value);
    }
  }

  /** The check on the tokens throws exactly where the code stage passes and
      the text between the single space and the last token is empty. */
  lemma CheckCrash(response: string, ts: seq<string>)
    ensures CheckReply(response, ts).None? <==>
      ParseReplyCode(response, ts, NewResponse).ok && ts[2] == " " && ReplyText(ts) == []
  {
    var code := ParseReplyCode(response, ts, NewResponse);
    if code.ok {
      TextCrash(ts, code.msg);
    }
  }

  /** The text stage throws exactly on an empty text after a single space. */
  lemma TextCrash(splitted: seq<string>, m: ServerResponse)
    requires |splitted| >= 3
    ensures ParseReplyText(splitted, m).None? <==> splitted[2] == " " && ReplyText(splitted) == []
  {
    if splitted[2] == " " {
      ReplyTextStart(splitted);
    }
  }

  /** With a lone space at index 2 the text starts with that space, or is empty. */
  lemma ReplyTextStart(splitted: seq<string>)
    requires |splitted| >= 3 && splitted[2] == " "
    ensures ReplyText(splitted) == [] || ReplyText(splitted)[0] == ' '
  {
    if |splitted| > 3 {
      var middle := splitted[2..|splitted| - 1];
      ConcatCons(middle[0], middle[1..]);
      assert middle == [middle[0]] + middle[1..];
    }
  }
}

=== FILE: server.dfy ===
/** The FTP server as the program runs it: the static session flags of
    FTPServer (with FileManager's hostAddress) as the fields of a Server
    object, the reply as a ServerReply object updated in place, and one
    method per handler. Every method is proved to do exactly what the
    corresponding function of ServerSpec says. */
module FtpServer {
  import opened Text
  import opened ServerReplies
  import opened ServerSpec

  /** checkParam: the first space must be at offset 4 (else 500) and the
      parameter must be non-empty (else 501). */
  method CheckParam(command: string, parameter: string, reply: ServerReply) returns (ok: bool)
    modifies reply
    ensures ok <==> ParamError(command, parameter).None?
    ensures reply.State() == match ParamError(command, parameter)
                             case Some(e) => ByCode(old(reply.State()), e)
                             case None => old(reply.State())
  {
    if IndexOf(command, ' ') != 4 {
      reply.SetReplyByCode(500);
      return false;
    }
    if parameter == "" {
      reply.SetReplyByCode(501);
      return false;
    }
    return true;
  }

  /** checkNoParam: CRLF must follow the four-letter verb directly (else 501). */
  method CheckNoParam(command: string, reply: ServerReply) returns (ok: bool)
    modifies reply
    ensures ok <==> NoParamError(command).None?
    ensures reply.State() == if ok then old(reply.State()) else ByCode(old(reply.State()), 501)
  {
    if IndexOfCrlf(command) != 4 {
      reply.SetReplyByCode(501);
      return false;
    }
    return true;
  }

  /** checkAscii: every character is at most 127 (else 501). */
  method CheckAscii(str: string, reply: ServerReply) returns (ok: bool)
    modifies reply
    ensures ok <==> IsAscii(str)
    ensures reply.State() == if ok then old(reply.State()) else ByCode(old(reply.State()), 501)
  {
    var i := 0;
    while i < |str|
      invariant 0 <= i <= |str|
      invariant forall j :: 0 <= j < i ==> str[j] as int <= 127
      invariant reply.State() == old(reply.State())
    {
      if str[i] as int > 127 {
        reply.SetReplyByCode(501);
        return false;
      }
      i := i + 1;
    }
    return true;
  }

  /** buildParameter: the tokens between the verb and the line ending are
      concatenated, starting at the first one that is not a single
      whitespace character. With fewer than three tokens the index of the
      line-ending test is out of bounds and the parameter is empty. */
  method BuildParameter(splitted: seq<string>) returns (result: string)
    ensures result == ServerParameter(splitted)
  {
    result := "";
    if |splitted| < 3 {
      return;
    }
    var isBuilding := false;
    var fromBack := if IsLoneCr(splitted[|splitted| - 3]) then 3 else 2;
    var hi := |splitted| - fromBack;
    var i := 2;
    assert splitted[2..i] == [];
    while i < hi
      invariant 2 <= i && (i <= hi || i == 2)
      invariant isBuilding <==> SkipBlankTokens(splitted[2..i]) != []
      invariant result == Concat(SkipBlankTokens(splitted[2..i]))
    {
      ghost var done := splitted[2..i];
      BuildStep(done, splitted[i], isBuilding, result);
      assert splitted[2..i + 1] == done + [splitted[i]];
      if !IsBlankToken(splitted[i]) {
        isBuilding := true;
      }
      if isBuilding {
        result := result + splitted[i];
      }
      i := i + 1;
    }
    if hi <= 2 {
      assert splitted[2..2] == [];
    }
  }

  /** One iteration of buildParameter's loop keeps its invariant. */
  lemma BuildStep(done: seq<string>, t: string, isBuilding: bool, result: string)
    requires isBuilding <==> SkipBlankTokens(done) != []
    requires result == Concat(SkipBlankTokens(done))
    ensures var building := isBuilding || !IsBlankToken(t);
      (building <==> SkipBlankTokens(done + [t]) != []) &&
      (if building then result + t else result) == Concat(SkipBlankTokens(done + [t]))
  {
    SkipBlankTokensSnoc(done, t);
    if isBuilding || !IsBlankToken(t) {
      ConcatAppend(SkipBlankTokens(done), [t]);
      assert Concat([t]) == t by {
        assert [t][..0] == [];
      }
    }
  }

  /** Skipping leading blank tokens commutes with appending a token, once a
      non-blank token has been seen. */
  lemma {:induction false} SkipBlankTokensSnoc(ts: seq<string>, t: string)
    ensures SkipBlankTokens(ts + [t]) ==
            if SkipBlankTokens(ts) == [] && IsBlankToken(t) then [] else SkipBlankTokens(ts) + [t]
  {
    if ts == [] {
      assert ts + [t] == [t];
      assert [t][1..] == [];
    } else {
      var us := ts + [t];
      assert us[0] == ts[0];
      assert us[1..] == ts[1..] + [t];
      if IsBlankToken(ts[0]) {
        SkipBlankTokensSnoc(ts[1..], t);
      }
    }
  }

  /** buildAddress: the four address fields joined by ".", and the port
      computed in 32-bit arithmetic from the last two fields. */
  method BuildAddress(splitted: seq<string>) returns (a: Address)
    requires Decodable(splitted)
    ensures a == DecodeAddress(splitted)
  {
    var address := "";
    var i := 0;
    while i < 4
      invariant 0 <= i <= 4
      invariant address == if i == 0 then "" else Join(splitted[..i], '.') + (if i < 4 then "." else "")
    {
      assert splitted[..i + 1][..i] == splitted[..i];
      address := address + splitted[i];
      if i != 3 {
        address := address + ".";
      }
      i := i + 1;
    }
    var multiplier := ParseInt(splitted[4]).value;
    var adder := ParseInt(splitted[5]).value;
    a := Address(address, Wrap32(multiplier * 256 + adder));
  }

  /** The server: FTPServer's session flags, FileManager's hostAddress, the
      lines written on the control connection and the files written on data
      connections. */
  class Server {
    var userSet: bool
    var loggedIn: bool
    var portSet: bool
    var hostAddress: Option<Address>
    var sent: seq<string>
    var delivered: seq<string>

    function State(): ServerState
      reads this
    {
      ServerState(userSet, loggedIn, portSet, hostAddress, sent, delivered)
    }

    constructor ()
      ensures State() == Fresh
    {
      userSet := false;
      loggedIn := false;
      portSet := false;
      hostAddress := None;
      sent := [];
      delivered := [];
    }

    /** sendReply: the reply's message goes out on the control connection. */
    method SendReply(reply: ServerReply)
      modifies this
      ensures State() == Send(old(State()), reply.State())
    {
      sent := sent + [reply.GetMessage()];
    }

    /** checkAuthentication. */
    method CheckAuthentication(reply: ServerReply) returns (ok: bool)
      modifies reply
      ensures ok <==> AuthError(State()).None?
      ensures reply.State() == match AuthError(State())
                               case Some(e) => ByCode(old(reply.State()), e)
                               case None => old(reply.State())
    {
      if !userSet {
        reply.SetReplyByCode(530);
        return false;
      } else if !loggedIn {
        reply.SetReplyByCode(503);
        return false;
      }
      return true;
    }

    method ProcessUser(reply: ServerReply) returns (ok: bool)
      modifies this, reply
      ensures Outcome(State(), reply.State(), ok) == ServerSpec.ProcessUser(old(State()), old(reply.State()))
    {
      if userSet {
        reply.SetReplyByCode(503);
        return false;
      } else {
        userSet := true;
        reply.SetReplyByCode(331);
        return true;
      }
    }

    method ParseUser(command: string, username: string, reply: ServerReply) returns (ok: bool)
      modifies this, reply
      ensures Outcome(State(), reply.State(), ok) ==
              ServerSpec.ParseUser(old(State()), old(reply.State()), command, username)
    {
      ok := CheckParam(command, username, reply);
      if !ok {
        return;
      }
      ok := CheckAscii(username, reply);
      if !ok {
        return;
      }
      ok := ProcessUser(reply);
    }

    method ProcessPass(reply: ServerReply) returns (ok: bool)
      modifies this, reply
      ensures Outcome(State(), reply.State(), ok) == ServerSpec.ProcessPass(old(State()), old(reply.State()))
    {
      if !userSet {
        reply.SetReplyByCode(503);
        return false;
      }
      if loggedIn {
        reply.SetReplyByCode(503);
        return false;
      }
      loggedIn := true;
      reply.SetReplyByCode(230);
      return true;
    }

    /** The result of checkParam is computed and then ignored. */
    method ParsePass(command: string, password: string, reply: ServerReply) returns (ok: bool)
      modifies this, reply
      ensures Outcome(State(), reply.State(), ok) ==
              ServerSpec.ParsePass(old(State()), old(reply.State()), command, password)
    {
      var _ := CheckParam(command, password, reply);
      ok := CheckAscii(password, reply);
      if !ok {
        return;
      }
      ok := ProcessPass(reply);
    }

    method ProcessType(t: string, reply: ServerReply) returns (ok: bool)
      modifies reply
      ensures Outcome(State(), reply.State(), ok) == ServerSpec.ProcessType(State(), old(reply.State()), t)
    {
      ok := CheckAuthentication(reply);
      if !ok {
        return;
      }
      reply.Set(200, "Type set to " + t);
    }

    method ParseType(command: string, t: string, reply: ServerReply) returns (ok: bool)
      modifies reply
      ensures Outcome(State(), reply.State(), ok) ==
              ServerSpec.ParseType(State(), old(reply.State()), command, t)
    {
      ok := CheckParam(command, t, reply);
      if !ok {
        return;
      }
      if t != "A" && t != "I" {
        reply.SetReplyByCode(501);
        return false;
      }
      ok := ProcessType(t, reply);
    }

    method ProcessPort(portString: string, reply: ServerReply) returns (ok: bool)
      requires Decodable(Split(portString, ','))
      modifies this, reply
      ensures Outcome(State(), reply.State(), ok) ==
              ServerSpec.ProcessPort(old(State()), old(reply.State()), portString)
    {
      ok := CheckAuthentication(reply);
      if !ok {
        return;
      }
      var a := BuildAddress(Split(portString, ','));
      hostAddress := Some(a);
      reply.Set(200, PortText(a));
      portSet := true;
    }

    /** The loop of parsePORT over the six fields, stopping at the first one
        that is not an integer or is above 255. */
    static method CheckPortFields(address: seq<string>) returns (ok: bool)
      requires |address| == 6
      ensures ok <==> forall k :: 0 <= k < 6 ==> PortFieldOk(address[k])
    {
      var k := 0;
      while k < 6
        invariant 0 <= k <= 6
        invariant forall j :: 0 <= j < k ==> PortFieldOk(address[j])
      {
        var n := ParseInt(address[k]);
        if n.None? || n.value > 255 {
          return false;
        }
        k := k + 1;
      }
      return true;
    }

    /** parsePORT: six fields, each an integer not above 255, checked in order. */
    method ParsePort(command: string, portString: string, reply: ServerReply) returns (ok: bool)
      modifies this, reply
      ensures Outcome(State(), reply.State(), ok) ==
              ServerSpec.ParsePort(old(State()), old(reply.State()), command, portString)
    {
      ok := CheckParam(command, portString, reply);
      if !ok {
        return;
      }
      var address := Split(portString, ',');
      if |address| != 6 {
        reply.SetReplyByCode(501);
        return false;
      }
      var fieldsOk := CheckPortFields(address);
      if !fieldsOk {
        reply.SetReplyByCode(501);
        return false;
      }
      assert PortFieldOk(address[4]) && PortFieldOk(address[5]);
      ok := ProcessPort(portString, reply);
    }

    /** FileManager.copyFile, with the platform's outcome as input: the server
        halts when the stored address cannot be given to the socket
        constructor (none stored, or a port outside [0, 65535]); otherwise
        425 when the data connection fails, 550 when the file does not open,
        150 sent then 550 when copying fails, 150 sent then 250 when the file
        is delivered. */
    method CopyFile(filePath: string, reply: ServerReply, outcome: DataOutcome)
      returns (ok: bool, halted: bool)
      modifies this, reply
      ensures Outcome(State(), reply.State(), ok, halted) ==
              ServerSpec.CopyFile(old(State()), old(reply.State()), filePath, outcome)
    {
      if hostAddress.None? || !PortInRange(hostAddress.value.port) {
        return false, true;
      }
      if outcome == NoConnection {
        reply.SetReplyByCode(425);
        return false, false;
      }
      if outcome == FileMissing {
        reply.SetReplyByCode(550);
        return false, false;
      }
      reply.SetReplyByCode(150);
      SendReply(reply);
      if outcome == TransferBroken {
        reply.SetReplyByCode(550);
        return false, false;
      }
      delivered := delivered + [filePath];
      reply.SetReplyByCode(250);
      return true, false;
    }

    method ProcessRetr(filePath: string, reply: ServerReply, outcome: DataOutcome)
      returns (ok: bool, halted: bool)
      modifies this, reply
      ensures Outcome(State(), reply.State(), ok, halted) ==
              ServerSpec.ProcessRetr(old(State()), old(reply.State()), filePath, outcome)
    {
      var path := filePath;
      if IndexOf(path, '/') == 0 || IndexOf(path, '\\') == 0 {
        path := path[1..];
      }
      ok, halted := CopyFile(path, reply, outcome);
      if ok {
        portSet := false;
      }
    }

    method ParseRetr(command: string, filePath: string, reply: ServerReply, outcome: DataOutcome)
      returns (ok: bool, halted: bool)
      modifies this, reply
      ensures Outcome(State(), reply.State(), ok, halted) ==
              ServerSpec.ParseRetr(old(State()), old(reply.State()), command, filePath, outcome)
    {
      halted := false;
      ok := CheckParam(command, filePath, reply);
      if !ok {
        return;
      }
      ok := CheckAscii(filePath, reply);
      if !ok {
        return;
      }
      if !portSet {
        reply.SetReplyByCode(503);
        return false, false;
      }
      if !ContainsCrlf(command) {
        return false, false;
      }
      ok := CheckAuthentication(reply);
      if !ok {
        return;
      }
      ok, halted := ProcessRetr(filePath, reply, outcome);
    }

    method ParseSyst(command: string, reply: ServerReply) returns (ok: bool)
      modifies reply
      ensures Outcome(State(), reply.State(), ok) == ServerSpec.ParseSyst(State(), old(reply.State()), command)
    {
      ok := CheckNoParam(command, reply);
      if !ok {
        return;
      }
      ok := CheckAuthentication(reply);
      if !ok {
        return;
      }
      reply.SetReplyByCode(215);
    }

    method ParseNoop(command: string, reply: ServerReply) returns (ok: bool)
      modifies reply
      ensures Outcome(State(), reply.State(), ok) == ServerSpec.ParseNoop(State(), old(reply.State()), command)
    {
      ok := CheckNoParam(command, reply);
      if !ok {
        return;
      }
      ok := CheckAuthentication(reply);
      if !ok {
        return;
      }
      reply.Set(200, "Command OK");
    }

    method ParseQuit(command: string, reply: ServerReply) returns (ok: bool)
      modifies reply
      ensures Outcome(State(), reply.State(), ok) == ServerSpec.ParseQuit(State(), old(reply.State()), command)
    {
      ok := CheckNoParam(command, reply);
      if !ok {
        return;
      }
      reply.SetReplyByCode(221);
    }

    /** The switch on the verb in the read loop. */
    method DispatchVerb(verb: Verb, command: string, parameter: string, reply: ServerReply,
                        outcome: DataOutcome) returns (accepted: bool, halted: bool)
      modifies this, reply
      ensures Outcome(State(), reply.State(), accepted, halted) ==
              Dispatch(old(State()), old(reply.State()), verb, command, parameter, outcome)
    {
      halted := false;
      match verb {
        case USER => accepted := ParseUser(command, parameter, reply);
        case PASS => accepted := ParsePass(command, parameter, reply);
        case TYPE => accepted := ParseType(command, parameter, reply);
        case PORT => accepted := ParsePort(command, parameter, reply);
        case RETR => accepted, halted := ParseRetr(command, parameter, reply, outcome);
        case SYST => accepted := ParseSyst(command, reply);
        case NOOP => accepted := ParseNoop(command, reply);
        case QUIT => accepted := ParseQuit(command, reply);
      }
    }

    /** One pass of the read loop: the error flag is lowered, the parameter
        rebuilt, the verb validated and dispatched, and the reply sent once;
        the results say whether the loop ends (QUIT) and whether the handler
        halted the server, in which case nothing is sent. */
    method HandleCommand(command: string, splitted: seq<string>, reply: ServerReply, outcome: DataOutcome)
      returns (quit: bool, halted: bool)
      requires |splitted| > 0
      modifies this, reply
      ensures StepResult(State(), reply.State(), quit, halted) ==
              Step(old(State()), old(reply.State()), command, splitted, outcome)
    {
      reply.SetErrorFlag(false);
      var parameter := BuildParameter(splitted);
      var ftpCommand := ToUpper(splitted[0]);
      var verb := ParseVerb(ftpCommand);
      if verb.None? {
        var length := Utf16Length(ftpCommand);
        if length == 3 || length == 4 {
          reply.SetReplyByCode(502);
        } else {
          reply.SetReplyByCode(500);
        }
        SendReply(reply);
        return false, false;
      }
      var accepted;
      accepted, halted := DispatchVerb(verb.value, command, parameter, reply, outcome);
      if halted {
        return false, true;
      }
      if verb.value == QUIT {
        SendReply(reply);
        return true, false;
      }
      if reply.errorFlag {
        SendReply(reply);
        return false, false;
      }
      if !ContainsCrlf(command) {
        SendReply(reply);
        return false, false;
      }
      SendReply(reply);
      return false, false;
    }

    /** resetState. */
    method ResetState()
      modifies this
      ensures State() == Reset(old(State()))
    {
      userSet := false;
      loggedIn := false;
      portSet := false;
    }

    /** One client connection: the 220 greeting, command lines handled in
        order until QUIT, the end of input or a halt, then resetState unless
        the server halted. Returns how many lines were handled and whether
        the server halted. */
    method ServeConnection(requests: seq<Request>) returns (handled: nat, halted: bool)
      requires Tokenized(requests)
      modifies this
      ensures State() == Connection(old(State()), requests).st
      ensures handled == Connection(old(State()), requests).handled
      ensures halted == Connection(old(State()), requests).halted
    {
      var reply := new ServerReply();
      reply.SetReplyByCode(220);
      SendReply(reply);
      handled, halted := ReadLoop(requests, reply);
      if !halted {
        ResetState();
      }
    }

    /** The read loop: command lines handled in order until QUIT, the end of
        input, or a line that halts the server. */
    method ReadLoop(requests: seq<Request>, reply: ServerReply) returns (handled: nat, halted: bool)
      requires Tokenized(requests)
      modifies this, reply
      ensures RunResult(State(), reply.State(), handled, halted) == Run(old(State()), old(reply.State()), requests)
    {
      var quit := false;
      halted := false;
      handled := 0;
      while handled < |requests| && !quit && !halted
        invariant 0 <= handled <= |requests|
        invariant !quit && !halted ==>
          (var rest := Run(State(), reply.State(), requests[handled..]);
           Run(old(State()), old(reply.State()), requests) == rest.(handled := rest.handled + handled))
        invariant quit || halted ==>
          Run(old(State()), old(reply.State()), requests) == RunResult(State(), reply.State(), handled, halted)
        decreases |requests| - handled
      {
        var req := requests[handled];
        assert requests[handled..][1..] == requests[handled + 1..];
        quit, halted := HandleCommand(req.command, req.tokens, reply, req.outcome);
        handled := handled + 1;
      }
    }
  }
}

=== FILE: server_properties.dfy ===
/** What the server's transition table guarantees: the session invariant,
    the reply chosen for every kind of rejected command, the USER/PASS
    sequence, the authentication gate, PORT decoding and the one-PORT-one-RETR
    rule, and the scenarios of a typical session. */
module ServerProperties {
  import opened Text
  import opened ServerReplies
  import opened ServerSpec

  /** The command a token array names: its first token, upper-cased, decoded. */
  function CommandVerb(tokens: seq<string>): Option<Verb>
    requires |tokens| > 0
  {
    ParseVerb(ToUpper(tokens[0]))
  }

  /** The state apart from the control-connection transcript. */
  predicate SameSession(a: ServerState, b: ServerState) {
    a.userSet == b.userSet && a.loggedIn == b.loggedIn && a.portSet == b.portSet &&
    a.address == b.address && a.delivered == b.delivered
  }

  // ---------------------------------------------------------------------------
  // The session invariant

  lemma DispatchPreservesInv(st: ServerState, r: Reply, verb: Verb, command: string,
                             parameter: string, outcome: DataOutcome)
    requires Inv(st)
    ensures Inv(Dispatch(st, r, verb, command, parameter, outcome).st)
  {
    match verb
    case PORT => PortPreservesInv(st, r, command, parameter);
    case USER | PASS | TYPE | RETR | SYST | NOOP | QUIT =>
  }

  /** PORT sets portSet only for a logged-in user, with the address stored. */
  lemma PortPreservesInv(st: ServerState, r: Reply, command: string, parameter: string)
    requires Inv(st)
    ensures Inv(ParsePort(st, r, command, parameter).st)
  {
    if ParamError(command, parameter).None? {
      var fields := Split(parameter, ',');
      if |fields| == 6 && !(exists k :: 0 <= k < 6 && !PortFieldOk(fields[k])) {
        assert PortFieldOk(fields[4]) && PortFieldOk(fields[5]);
      }
    }
  }

  /** Every command line preserves portSet ==> loggedIn ==> userSet. */
  lemma StepPreservesInv(st: ServerState, r: Reply, command: string, tokens: seq<string>,
                         outcome: DataOutcome)
    requires Inv(st) && |tokens| > 0
    ensures Inv(Step(st, r, command, tokens, outcome).st)
  {
    if CommandVerb(tokens).Some? {
      DispatchPreservesInv(st, r.(error := false), CommandVerb(tokens).value, command,
                           ServerParameter(tokens), outcome);
    }
  }

  lemma {:induction false} RunPreservesInv(st: ServerState, r: Reply, reqs: seq<Request>)
    requires Inv(st) && Tokenized(reqs)
    ensures Inv(Run(st, r, reqs).st)
    decreases |reqs|
  {
    if reqs != [] {
      var s := Step(st, r, reqs[0].command, reqs[0].tokens, reqs[0].outcome);
      StepPreservesInv(st, r, reqs[0].command, reqs[0].tokens, reqs[0].outcome);
      if !s.quit && !s.halted {
        RunPreservesInv(s.st, s.reply, reqs[1..]);
      }
    }
  }

  /** A connection starts with the 220 greeting and, unless the server
      halted, leaves all three flags false for the next client; the session
      is never left outside the invariant on the way. */
  lemma ConnectionLifecycle(st: ServerState, reqs: seq<Request>)
    requires Inv(st) && Tokenized(reqs)
    ensures var res := Connection(st, reqs);
      (!res.halted ==> !res.st.userSet && !res.st.loggedIn && !res.st.portSet) && Inv(res.st) &&
      |res.st.sent| > |st.sent| && res.st.sent[|st.sent|] == ReplyLine(220)
  {
    var greeting := ByCode(Blank, 220);
    ByCodeProperties(Blank, 220);
    var start := Send(st, greeting);
    RunPreservesInv(start, greeting, reqs);
    RunKeepsTranscript(start, greeting, reqs);
    var run := Run(start, greeting, reqs);
    assert run.st.sent[..|start.sent|][|st.sent|] == start.sent[|st.sent|] == ReplyLine(220);
  }

  /** The transcript only grows. */
  lemma {:induction false} RunKeepsTranscript(st: ServerState, r: Reply, reqs: seq<Request>)
    requires Tokenized(reqs)
    ensures var res := Run(st, r, reqs);
      |res.st.sent| >= |st.sent| && res.st.sent[..|st.sent|] == st.sent
    decreases |reqs|
  {
    if reqs != [] {
      var s := Step(st, r, reqs[0].command, reqs[0].tokens, reqs[0].outcome);
      StepSendsReplies(st, r, reqs[0].command, reqs[0].tokens, reqs[0].outcome);
      assert s.st.sent[..|st.sent|] == st.sent;
      if !s.quit && !s.halted {
        var rest := Run(s.st, s.reply, reqs[1..]);
        RunKeepsTranscript(s.st, s.reply, reqs[1..]);
        assert Run(st, r, reqs).st == rest.st;
        assert rest.st.sent[..|st.sent|] == rest.st.sent[..|s.st.sent|][..|st.sent|];
      }
    }
  }

  // ---------------------------------------------------------------------------
  // One reply per command

  /** Every command line that does not halt the server writes exactly its
      reply on the control connection, preceded by the 150 line when a RETR
      got as far as opening the file; nothing written before is changed. A
      line that halts the server is a RETR and writes nothing. */
  lemma StepSendsReplies(st: ServerState, r: Reply, command: string, tokens: seq<string>,
                         outcome: DataOutcome)
    requires |tokens| > 0
    ensures var s := Step(st, r, command, tokens, outcome);
      (!s.halted ==>
         s.st.sent == st.sent + [Message(s.reply)] ||
         s.st.sent == st.sent + [ReplyLine(150), Message(s.reply)]) &&
      (s.halted ==> CommandVerb(tokens) == Some(RETR) && s.st == st && !s.quit)
  {
    if CommandVerb(tokens).Some? {
      StepKnown(st, r, command, tokens, outcome);
      DispatchSends(st, r.(error := false), CommandVerb(tokens).value, command,
                    ServerParameter(tokens), outcome);
    }
  }

  /** The handlers themselves write at most the 150 line, and only RETR does;
      only RETR can halt the server, and then nothing has changed. */
  lemma DispatchSends(st: ServerState, r: Reply, verb: Verb, command: string,
                      parameter: string, outcome: DataOutcome)
    ensures var o := Dispatch(st, r, verb, command, parameter, outcome);
      (o.st.sent == st.sent || (verb == RETR && o.st.sent == st.sent + [ReplyLine(150)])) &&
      (o.halted ==> verb == RETR && o.st == st && o.reply == r)
  {
    match verb
    case RETR => RetrSends(st, r, command, parameter, outcome);
    case USER | PASS => LoginKeepsSent(st, r, verb, command, parameter, outcome);
    case TYPE => TypeKeepsSent(st, r, command, parameter);
    case PORT => PortKeepsSent(st, r, command, parameter);
    case SYST | NOOP | QUIT =>
  }

  /** USER and PASS write nothing and never halt. */
  lemma LoginKeepsSent(st: ServerState, r: Reply, verb: Verb, command: string, parameter: string,
                       outcome: DataOutcome)
    requires verb == USER || verb == PASS
    ensures var o := Dispatch(st, r, verb, command, parameter, outcome);
      o.st.sent == st.sent && !o.halted
  {
  }

  /** TYPE writes nothing and never halts. */
  lemma TypeKeepsSent(st: ServerState, r: Reply, command: string, parameter: string)
    ensures var o := ParseType(st, r, command, parameter); o.st.sent == st.sent && !o.halted
  {
  }

  /** PORT writes nothing and never halts. */
  lemma PortKeepsSent(st: ServerState, r: Reply, command: string, parameter: string)
    ensures var o := ParsePort(st, r, command, parameter); o.st.sent == st.sent && !o.halted
  {
  }

  lemma RetrSends(st: ServerState, r: Reply, command: string, parameter: string, outcome: DataOutcome)
    ensures var o := ParseRetr(st, r, command, parameter, outcome);
      (o.st.sent == st.sent || o.st.sent == st.sent + [ReplyLine(150)]) &&
      (o.halted ==> o.st == st && o.reply == r)
  {
    ByCodeProperties(r, 150);
  }

  // ---------------------------------------------------------------------------
  // The rebuilt parameter

  lemma {:induction false} SkipBlankTokensShape(ts: seq<string>)
    ensures var r := SkipBlankTokens(ts);
      |r| <= |ts| && r == ts[|ts| - |r|..] && (r != [] ==> !IsBlankToken(r[0])) &&
      forall k :: 0 <= k < |ts| - |r| ==> IsBlankToken(ts[k])
  {
    if ts != [] && IsBlankToken(ts[0]) {
      SkipBlankTokensShape(ts[1..]);
      var r := SkipBlankTokens(ts);
      assert ts[1..][|ts[1..]| - |r|..] == ts[|ts| - |r|..];
      assert forall k :: 1 <= k < |ts| - |r| ==> ts[k] == ts[1..][k - 1];
    }
  }

  /** The parameter is the concatenation of the tokens from the first one
      after the verb that is not a single whitespace character up to the line
      ending (the last two tokens, or three when a lone CR precedes them). */
  lemma ServerParameterShape(tokens: seq<string>)
    requires |tokens| >= 3 && ParameterEnd(tokens) > 2
    ensures exists k ::
              2 <= k <= ParameterEnd(tokens) &&
              (forall j :: 2 <= j < k ==> IsBlankToken(tokens[j])) &&
              (k < ParameterEnd(tokens) ==> !IsBlankToken(tokens[k])) &&
              ServerParameter(tokens) == Concat(tokens[k..ParameterEnd(tokens)])
  {
    var hi := ParameterEnd(tokens);
    var ts := tokens[2..hi];
    SkipBlankTokensShape(ts);
    var r := SkipBlankTokens(ts);
    var k := 2 + |ts| - |r|;
    assert tokens[k..hi] == r;
    assert forall j :: 2 <= j < k ==> tokens[j] == ts[j - 2];
  }

  /** Spaces inside a parameter are lost: "RETR my file" CRLF, whose token
      array has empty strings where the spaces were, asks for "myfile". */
  lemma EmbeddedSpaceLost()
    ensures ServerParameter(["RETR", "", "my", "", "file", "", "\n"]) == "myfile"
  {
    var tokens := ["RETR", "", "my", "", "file", "", "\n"];
    assert !IsLoneCr(tokens[4]);
    assert tokens[2..5] == ["my", "", "file"];
    assert !IsBlankToken("my");
    assert Concat(["my", "", "file"]) == "my" + "" + "file" by {
      assert ["my", "", "file"][..2] == ["my", ""];
      assert ["my", ""][..1] == ["my"];
      assert ["my"][..0] == [];
    }
  }

  // ---------------------------------------------------------------------------
  // Verb validation

  /** A verb outside the list gets 502 when its upper-cased form is three or
      four UTF-16 code units long and 500 otherwise, with the error flag
      raised; the loop goes on. */
  lemma UnknownVerb(st: ServerState, r: Reply, command: string, tokens: seq<string>,
                    outcome: DataOutcome)
    requires |tokens| > 0 && CommandVerb(tokens).None?
    ensures var s := Step(st, r, command, tokens, outcome);
      var length := Utf16Length(ToUpper(tokens[0]));
      s.reply.code == (if length == 3 || length == 4 then 502 else 500) && s.reply.error && !s.quit
  {
    var verb := ToUpper(tokens[0]);
    StepUnknownVerb(st, r, command, tokens, outcome);
    ByCodeProperties(r.(error := false), UnknownVerbCode(verb));
  }

  /** Such a line sends that reply and changes nothing else. */
  lemma UnknownVerbSession(st: ServerState, r: Reply, command: string, tokens: seq<string>,
                           outcome: DataOutcome)
    requires |tokens| > 0 && CommandVerb(tokens).None?
    ensures var s := Step(st, r, command, tokens, outcome);
      SameSession(s.st, st) && s.st.sent == st.sent + [ReplyLine(s.reply.code)]
  {
    StepUnknownVerb(st, r, command, tokens, outcome);
    UnknownVerbLine(r, ToUpper(tokens[0]));
  }

  /** The reply to an unknown verb is written as its table line. */
  lemma UnknownVerbLine(r: Reply, verb: string)
    ensures var r1 := ByCode(r.(error := false), UnknownVerbCode(verb));
      r1.code == UnknownVerbCode(verb) && Message(r1) == ReplyLine(r1.code)
  {
    ByCodeProperties(r.(error := false), UnknownVerbCode(verb));
  }

  /** Such a line sends the code's reply and does nothing else. */
  lemma StepUnknownVerb(st: ServerState, r: Reply, command: string, tokens: seq<string>,
                        outcome: DataOutcome)
    requires |tokens| > 0 && CommandVerb(tokens).None?
    ensures var r1 := ByCode(r.(error := false), UnknownVerbCode(ToUpper(tokens[0])));
      Step(st, r, command, tokens, outcome) == StepResult(Send(st, r1), r1, false)
  {
  }

  /** For an ASCII verb that length is the verb's own length. */
  lemma AsciiVerbLength(verb: string)
    requires forall i :: 0 <= i < |verb| ==> verb[i] as int < 128
    ensures Utf16Length(ToUpper(verb)) == |verb|
  {
    ToUpperAscii(verb);
    var u := ToUpper(verb);
    assert forall i :: 0 <= i < |u| ==> u[i] as int <= 0xFFFF by {
      assert forall i :: 0 <= i < |u| ==> u[i] == UpperChar(verb[i]);
    }
  }

  /** A token names a command only when it is made of ASCII characters and
      the ten characters whose upper case is ASCII. */
  lemma VerbCharacters(tokens: seq<string>)
    requires |tokens| > 0 && CommandVerb(tokens).Some?
    ensures forall i :: 0 <= i < |tokens[0]| ==>
      tokens[0][i] as int < 128 || tokens[0][i] in UpperToAscii
  {
    VerbNameAscii(CommandVerb(tokens).value);
    ToUpperAsciiSource(tokens[0]);
  }

  lemma VerbNameAscii(v: Verb)
    ensures forall i :: 0 <= i < |VerbName(v)| ==> VerbName(v)[i] as int < 128
  {
    match v
    case USER => assert VerbName(v) == "USER";
    case PASS => assert VerbName(v) == "PASS";
    case TYPE => assert VerbName(v) == "TYPE";
    case PORT => assert VerbName(v) == "PORT";
    case RETR => assert VerbName(v) == "RETR";
    case SYST => assert VerbName(v) == "SYST";
    case NOOP => assert VerbName(v) == "NOOP";
    case QUIT => assert VerbName(v) == "QUIT";
  }

  /** Java's full upper-casing reaches the server's verbs from non-ASCII
      spellings: long s, sharp s, the st ligature and dotless i. */
  lemma LongSVerb()
    ensures CommandVerb(["u\U{017F}er"]) == Some(USER)
  {
    UpperLongSWord();
  }

  lemma SharpSVerb()
    ensures CommandVerb(["PA\U{00DF}"]) == Some(PASS)
  {
    UpperSharpSWord();
  }

  lemma LigatureVerb()
    ensures CommandVerb(["SY\U{FB06}"]) == Some(SYST)
  {
    UpperLigatureWord();
  }

  lemma DotlessIVerb()
    ensures CommandVerb(["qu\U{0131}t"]) == Some(QUIT)
  {
    UpperDotlessIWord();
  }

  /** The 502/500 choice counts UTF-16 code units of the upper-cased verb:
      sharp s doubles, a ligature counts its letters, a character above
      U+FFFF counts twice, and U+0149 becomes a modifier letter and N. */
  lemma SharpSLength()
    ensures UnknownVerbCode(ToUpper("\U{00DF}")) == 500
    ensures UnknownVerbCode(ToUpper("\U{00DF}\U{00DF}")) == 502
  {
    ToUpperCons('\U{00DF}', "");
    ToUpperCons('\U{00DF}', "\U{00DF}");
    UpperOfSharpS();
  }

  lemma LigatureLength()
    ensures UnknownVerbCode(ToUpper("\U{FB03}")) == 502
  {
    ToUpperCons('\U{FB03}', "");
    UpperOfLigatureFfi();
  }

  lemma AstralLength()
    ensures UnknownVerbCode(ToUpper("\U{1D538}\U{1D538}")) == 502
  {
    ToUpperCons('\U{1D538}', "");
    ToUpperCons('\U{1D538}', "\U{1D538}");
    UpperOfAstral('\U{1D538}');
  }

  lemma ApostropheNLength()
    ensures UnknownVerbCode(ToUpper("\U{0149}\U{0149}")) == 502
  {
    ToUpperCons('\U{0149}', "");
    ToUpperCons('\U{0149}', "\U{0149}");
    UpperOfApostropheN();
  }

  // ---------------------------------------------------------------------------
  // Parameter rules

  /** A verb that takes a parameter (USER, TYPE, PORT, RETR) is rejected with
      500 unless its first space is at offset 4, and with 501 when the
      parameter is empty; the session is unchanged. */
  lemma ParameterRequired(st: ServerState, r: Reply, command: string, tokens: seq<string>,
                          outcome: DataOutcome)
    requires |tokens| > 0
    requires CommandVerb(tokens) in {Some(USER), Some(TYPE), Some(PORT), Some(RETR)}
    requires IndexOf(command, ' ') != 4 || ServerParameter(tokens) == ""
    ensures var s := Step(st, r, command, tokens, outcome);
      s.reply.code == (if IndexOf(command, ' ') != 4 then 500 else 501) &&
      s.reply.error && SameSession(s.st, st) && !s.quit
  {
    StepKnown(st, r, command, tokens, outcome);
    var p := ServerParameter(tokens);
    DispatchParamError(st, r.(error := false), CommandVerb(tokens).value, command, p, outcome);
    ByCodeProperties(r.(error := false), ParamError(command, p).value);
  }

  lemma DispatchParamError(st: ServerState, r: Reply, v: Verb, command: string, p: string,
                           outcome: DataOutcome)
    requires v == USER || v == TYPE || v == PORT || v == RETR
    requires ParamError(command, p).Some?
    ensures Dispatch(st, r, v, command, p, outcome) == Fail(st, r, ParamError(command, p).value)
  {
    match v {
      case USER =>
      case TYPE =>
      case PORT =>
      case RETR =>
    }
  }

  /** A parameterless verb (SYST, NOOP, QUIT) is rejected with 501 unless
      CRLF comes right after it; the session is unchanged. */
  lemma NoParameterAllowed(st: ServerState, r: Reply, command: string, tokens: seq<string>,
                           outcome: DataOutcome)
    requires |tokens| > 0
    requires CommandVerb(tokens) in {Some(SYST), Some(NOOP), Some(QUIT)}
    requires IndexOfCrlf(command) != 4
    ensures var s := Step(st, r, command, tokens, outcome);
      s.reply.code == 501 && s.reply.error && SameSession(s.st, st) &&
      (s.quit <==> CommandVerb(tokens) == Some(QUIT))
  {
    StepKnown(st, r, command, tokens, outcome);
    DispatchNoParam(st, r.(error := false), CommandVerb(tokens).value, command, ServerParameter(tokens), outcome);
    ByCodeProperties(r.(error := false), 501);
  }

  lemma DispatchNoParam(st: ServerState, r: Reply, v: Verb, command: string, p: string,
                        outcome: DataOutcome)
    requires v == SYST || v == NOOP || v == QUIT
    requires IndexOfCrlf(command) != 4
    ensures Dispatch(st, r, v, command, p, outcome) == Fail(st, r, 501)
  {
    match v {
      case SYST =>
      case NOOP =>
      case QUIT =>
    }
  }

  /** A known verb: the handler's outcome is sent, and only QUIT ends the
      loop; a handler that halts the server sends nothing. */
  lemma StepKnown(st: ServerState, r: Reply, command: string, tokens: seq<string>,
                  outcome: DataOutcome)
    requires |tokens| > 0 && CommandVerb(tokens).Some?
    ensures var o := Dispatch(st, r.(error := false), CommandVerb(tokens).value, command,
                              ServerParameter(tokens), outcome);
      Step(st, r, command, tokens, outcome) ==
      if o.halted then StepResult(o.st, o.reply, false, true)
      else StepResult(Send(o.st, o.reply), o.reply, CommandVerb(tokens) == Some(QUIT))
  {
  }

  /** TYPE accepts only "A" and "I": any other well-placed parameter gets 501. */
  lemma TypeValues(st: ServerState, r: Reply, command: string, tokens: seq<string>,
                   outcome: DataOutcome)
    requires |tokens| > 0 && CommandVerb(tokens) == Some(TYPE)
    requires ParamError(command, ServerParameter(tokens)).None?
    ensures var s := Step(st, r, command, tokens, outcome);
      var t := ServerParameter(tokens);
      (t != "A" && t != "I" ==> s.reply.code == 501 && SameSession(s.st, st)) &&
      (t == "A" || t == "I" ==>
         SameSession(s.st, st) &&
         (st.loggedIn && st.userSet <==> s.reply == Reply(200, "Type set to " + t, false)))
  {
    StepKnown(st, r, command, tokens, outcome);
  }

  // ---------------------------------------------------------------------------
  // USER and PASS

  /** USER with a well-formed ASCII name succeeds (331, userSet raised) exactly
      when no USER was accepted before; otherwise 503 and nothing changes. */
  lemma UserSequence(st: ServerState, r: Reply, command: string, tokens: seq<string>,
                     outcome: DataOutcome)
    requires |tokens| > 0 && CommandVerb(tokens) == Some(USER)
    requires ParamError(command, ServerParameter(tokens)).None?
    requires IsAscii(ServerParameter(tokens))
    ensures var s := Step(st, r, command, tokens, outcome);
      (!st.userSet ==> s.reply.code == 331 && !s.reply.error && s.st.userSet &&
                       s.st == Send(st.(userSet := true), s.reply)) &&
      (st.userSet ==> s.reply.code == 503 && s.st == Send(st, s.reply))
  {
  }

  /** PASS with an ASCII parameter succeeds (230, loggedIn raised) exactly when
      USER was accepted and PASS was not, and this holds whether or not the
      parameter check passed: its result is discarded. Otherwise 503 and
      nothing changes. */
  lemma PassSequence(st: ServerState, r: Reply, command: string, tokens: seq<string>,
                     outcome: DataOutcome)
    requires |tokens| > 0 && CommandVerb(tokens) == Some(PASS)
    requires IsAscii(ServerParameter(tokens))
    ensures var s := Step(st, r, command, tokens, outcome);
      (st.userSet && !st.loggedIn ==> s.reply.code == 230 && s.st == Send(st.(loggedIn := true), s.reply)) &&
      (!st.userSet || st.loggedIn ==> s.reply.code == 503 && s.st == Send(st, s.reply))
  {
  }

  /** The consequence: a bare "PASS" line after USER fails the parameter
      check (500) and still logs the client in with 230. */
  lemma PassWithoutPassword(st: ServerState, r: Reply)
    requires st.userSet && !st.loggedIn
    ensures var tokens := ["PASS", "", "\n"];
      var s := Step(st, r, "PASS\r\n", tokens, NoConnection);
      ParamError("PASS\r\n", ServerParameter(tokens)) == Some(500) &&
      s.reply.code == 230 && s.st == Send(st.(loggedIn := true), s.reply)
  {
    BarePassLine();
    PassSequence(st, r, "PASS\r\n", ["PASS", "", "\n"], NoConnection);
  }

  /** The server's token array for "PASS" CRLF: verb PASS, empty parameter. */
  lemma BarePassLine()
    ensures var tokens := ["PASS", "", "\n"];
      CommandVerb(tokens) == Some(PASS) && ServerParameter(tokens) == "" &&
      IndexOf("PASS\r\n", ' ') == -1
  {
    UpperPass(["PASS", "", "\n"]);
    assert !IsLoneCr("PASS");
  }

  // ---------------------------------------------------------------------------
  // The authentication gate

  /** The checks that come before the gate, per verb. */
  predicate PassesSyntax(verb: Option<Verb>, command: string, parameter: string) {
    match verb
    case Some(TYPE) => ParamError(command, parameter).None? && (parameter == "A" || parameter == "I")
    case Some(PORT) =>
      ParamError(command, parameter).None? &&
      var fields := Split(parameter, ',');
      |fields| == 6 && forall k :: 0 <= k < 6 ==> PortFieldOk(fields[k])
    case Some(SYST) => NoParamError(command).None?
    case Some(NOOP) => NoParamError(command).None?
    case _ => false
  }

  /** TYPE, PORT, SYST and NOOP that pass their syntax checks get 530 when no
      USER was accepted and 503 when USER was but PASS was not, and change
      nothing; once logged in they succeed. */
  lemma AuthenticationGate(st: ServerState, r: Reply, command: string, tokens: seq<string>,
                           outcome: DataOutcome)
    requires |tokens| > 0
    requires PassesSyntax(CommandVerb(tokens), command, ServerParameter(tokens))
    ensures var s := Step(st, r, command, tokens, outcome);
      (!st.userSet ==> s.reply.code == 530 && s.st == Send(st, s.reply)) &&
      (st.userSet && !st.loggedIn ==> s.reply.code == 503 && s.st == Send(st, s.reply)) &&
      (st.userSet && st.loggedIn ==>
         !s.reply.error && (s.reply.code == 200 || s.reply.code == 215))
  {
    StepKnown(st, r, command, tokens, outcome);
    DispatchGate(st, r.(error := false), CommandVerb(tokens).value, command, ServerParameter(tokens), outcome);
  }

  /** The gate at the level of the handlers. */
  lemma DispatchGate(st: ServerState, r: Reply, v: Verb, command: string, p: string,
                     outcome: DataOutcome)
    requires !r.error && PassesSyntax(Some(v), command, p)
    ensures var o := Dispatch(st, r, v, command, p, outcome);
      (!st.userSet ==> o.reply.code == 530 && o.st == st) &&
      (st.userSet && !st.loggedIn ==> o.reply.code == 503 && o.st == st) &&
      (st.userSet && st.loggedIn ==> !o.reply.error && (o.reply.code == 200 || o.reply.code == 215))
  {
    if v == PORT {
      var fields := Split(p, ',');
      assert PortFieldOk(fields[4]) && PortFieldOk(fields[5]);
      assert !(exists k :: 0 <= k < 6 && !PortFieldOk(fields[k]));
    }
  }

  /** RETR needs no gate of its own in a valid session: it reaches the gate
      only with portSet, and portSet implies a completed login. */
  lemma RetrGateNeverFires(st: ServerState)
    requires Inv(st) && st.portSet
    ensures AuthError(st).None?
  {
  }

  // ---------------------------------------------------------------------------
  // PORT

  /** PORT, once logged in and with its parameter in place, is accepted
      exactly when the parameter has six comma-separated integer fields none
      above 255; then the address is the first four fields joined by "." and
      the port is field 5 * 256 + field 6, and portSet is raised. */
  lemma PortRule(st: ServerState, r: Reply, command: string, tokens: seq<string>,
                 outcome: DataOutcome)
    requires |tokens| > 0 && CommandVerb(tokens) == Some(PORT)
    requires ParamError(command, ServerParameter(tokens)).None?
    requires st.userSet && st.loggedIn
    ensures var s := Step(st, r, command, tokens, outcome);
      var fields := Split(ServerParameter(tokens), ',');
      var wellFormed := |fields| == 6 && forall k :: 0 <= k < 6 ==> PortFieldOk(fields[k]);
      (wellFormed ==>
         s.reply.code == 200 && s.st.portSet &&
         s.st.address == Some(DecodeAddress(fields))) &&
      (!wellFormed ==> s.reply.code == 501 && SameSession(s.st, st))
  {
    StepKnown(st, r, command, tokens, outcome);
    ParsePortRule(st, r.(error := false), command, ServerParameter(tokens));
  }

  /** The same rule for the handler alone, which never halts. */
  lemma ParsePortRule(st: ServerState, r: Reply, command: string, p: string)
    requires ParamError(command, p).None?
    requires st.userSet && st.loggedIn
    ensures var o := ParsePort(st, r, command, p);
      var fields := Split(p, ',');
      var wellFormed := |fields| == 6 && forall k :: 0 <= k < 6 ==> PortFieldOk(fields[k]);
      !o.halted &&
      (wellFormed ==>
         o.reply.code == 200 && o.st.portSet &&
         o.st.address == Some(DecodeAddress(fields))) &&
      (!wellFormed ==> o.reply.code == 501 && SameSession(o.st, st))
  {
    var fields := Split(p, ',');
    if |fields| == 6 && forall k :: 0 <= k < 6 ==> PortFieldOk(fields[k]) {
      assert PortFieldOk(fields[4]) && PortFieldOk(fields[5]);
      assert !(exists k :: 0 <= k < 6 && !PortFieldOk(fields[k]));
    }
  }

  /** With the last two fields in [0, 255] (as any real client sends them) the
      32-bit arithmetic cannot wrap: the port is exactly high * 256 + low, a
      TCP port number in [0, 65535]. */
  lemma DecodedPortExact(fields: seq<string>)
    requires Decodable(fields)
    requires 0 <= ParseInt(fields[4]).value <= 255 && 0 <= ParseInt(fields[5]).value <= 255
    ensures DecodeAddress(fields).port == ParseInt(fields[4]).value * 256 + ParseInt(fields[5]).value
    ensures 0 <= DecodeAddress(fields).port <= 65535
  {
  }

  /** A negative field passes the check, and the arithmetic then wraps:
      with "-8388609" as high field and "0" as low field the product
      -8388609 * 256 lies 256 below MinInt, so the decoded port is the
      positive 0x7FFF_FF00. */
  lemma NegativeFieldWraps()
    ensures var fields := ["1", "2", "3", "4", "-8388609", "0"];
      Decodable(fields) && DecodeAddress(fields).port == 0x7FFF_FF00
  {
    var fields := ["1", "2", "3", "4", "-8388609", "0"];
    ParseLargeNegative();
    assert fields[4] == "-8388609";
    assert ParseInt(fields[5]) == Some(0);
    assert Wrap32(-8388609 * 256 + 0) == 0x7FFF_FF00;
  }

  lemma ParseLargeNegative()
    ensures ParseInt("-8388609") == Some(-8388609)
  {
    RenderLargeField();
    ParseNegToString(8388609);
  }

  lemma RenderLargeField()
    ensures NatToString(8388609) == "8388609"
  {
    assert NatToString(83) == "83";
    assert NatToString(83886) == NatToString(83) + "886";
    assert NatToString(8388609) == NatToString(83886) + "09";
  }

  // ---------------------------------------------------------------------------
  // RETR

  /** RETR without a preceding PORT is answered 503 before any data
      connection is attempted: no 150 line, no file, no 425. */
  lemma RetrBeforePort(st: ServerState, r: Reply, command: string, tokens: seq<string>,
                       outcome: DataOutcome)
    requires |tokens| > 0 && CommandVerb(tokens) == Some(RETR)
    requires ParamError(command, ServerParameter(tokens)).None?
    requires IsAscii(ServerParameter(tokens))
    requires !st.portSet
    ensures var s := Step(st, r, command, tokens, outcome);
      s.reply.code == 503 && s.st == Send(st, s.reply) && s.st.delivered == st.delivered
  {
  }

  /** A RETR that passes its checks, with a stored port the socket
      constructor accepts, hands the path, without one leading "/" or "\",
      to the file manager; only a completed copy clears portSet and delivers
      the file, 150 is sent first whenever the file opened, and the failures
      are 425 and 550. */
  lemma RetrTransfer(st: ServerState, r: Reply, command: string, tokens: seq<string>,
                     outcome: DataOutcome)
    requires Inv(st) && |tokens| > 0 && CommandVerb(tokens) == Some(RETR)
    requires ParamError(command, ServerParameter(tokens)).None?
    requires IsAscii(ServerParameter(tokens))
    requires st.portSet && ContainsCrlf(command)
    requires PortInRange(st.address.value.port)
    ensures var s := Step(st, r, command, tokens, outcome);
      var path := StripSeparator(ServerParameter(tokens));
      !s.halted && !s.quit &&
      (s.st.portSet <==> outcome != Transferred) &&
      (s.st.delivered == if outcome == Transferred then st.delivered + [path] else st.delivered) &&
      s.reply.code == (match outcome
                       case NoConnection => 425
                       case FileMissing => 550
                       case TransferBroken => 550
                       case Transferred => 250) &&
      (outcome == TransferBroken || outcome == Transferred <==>
         s.st.sent == st.sent + [ReplyLine(150), Message(s.reply)])
  {
    var r0 := r.(error := false);
    ByCodeProperties(r0, 150);
    var s := Step(st, r, command, tokens, outcome);
    if outcome == NoConnection || outcome == FileMissing {
      assert s.st.sent == st.sent + [Message(s.reply)];
      assert Message(s.reply) != ReplyLine(150) by {
        ThreeDigitPrefixDiffers(s.reply.code, 150, s.reply.text, TableText(150).value);
      }
    }
  }

  /** The same RETR with a stored port outside [0, 65535] (which PORT stores
      when a field is negative) halts the server: the socket constructor
      throws IllegalArgumentException, which nothing catches, so no reply is
      sent, no file is delivered and the read loop ends. */
  lemma RetrHalts(st: ServerState, r: Reply, command: string, tokens: seq<string>,
                  outcome: DataOutcome)
    requires Inv(st) && |tokens| > 0 && CommandVerb(tokens) == Some(RETR)
    requires ParamError(command, ServerParameter(tokens)).None?
    requires IsAscii(ServerParameter(tokens))
    requires st.portSet && ContainsCrlf(command)
    requires !PortInRange(st.address.value.port)
    ensures var s := Step(st, r, command, tokens, outcome);
      s.halted && !s.quit && s.st == st
  {
  }

  /** A halting line ends the read loop there, with nothing sent for it. */
  lemma RunHalts(st: ServerState, r: Reply, reqs: seq<Request>)
    requires Tokenized(reqs) && reqs != []
    requires Step(st, r, reqs[0].command, reqs[0].tokens, reqs[0].outcome).halted
    ensures Run(st, r, reqs) == RunResult(st, r.(error := false), 1, true)
  {
    StepSendsReplies(st, r, reqs[0].command, reqs[0].tokens, reqs[0].outcome);
    StepKnown(st, r, reqs[0].command, reqs[0].tokens, reqs[0].outcome);
    DispatchSends(st, r.(error := false), CommandVerb(reqs[0].tokens).value, reqs[0].command,
                  ServerParameter(reqs[0].tokens), reqs[0].outcome);
  }

  /** "PORT 1,2,3,4,-1,0" passes the field check and stores the port
      -1 * 256 + 0 = -256, which a later RETR cannot connect to. */
  lemma NegativeFieldOutOfRange()
    ensures var fields := ["1", "2", "3", "4", "-1", "0"];
      Decodable(fields) && DecodeAddress(fields).port == -256 &&
      !PortInRange(DecodeAddress(fields).port)
  {
    var fields := ["1", "2", "3", "4", "-1", "0"];
    assert ParseInt(fields[4]) == Some(-1) by { ParseNegToString(1); }
    assert ParseInt(fields[5]) == Some(0) by { ParseNatToString(0); }
  }

  /** Two reply lines with different codes in [100, 999] differ. */
  lemma ThreeDigitPrefixDiffers(c1: int, c2: int, t1: string, t2: string)
    requires 100 <= c1 < 1000 && 100 <= c2 < 1000 && c1 != c2
    ensures Message(Reply(c1, t1, false)) != Message(Reply(c2, t2, true))
  {
    ThreeDigits(c1);
    ThreeDigits(c2);
    NatToStringValue(c1);
    NatToStringValue(c2);
    var m1 := Message(Reply(c1, t1, false));
    var m2 := Message(Reply(c2, t2, true));
    assert m1[..3] == NatToString(c1);
    assert m2[..3] == NatToString(c2);
  }

  // ---------------------------------------------------------------------------
  // Scenarios

  /** The token array the server's splitting regex gives for the line
      "USER anonymous" CRLF names USER, with the well-placed ASCII parameter
      "anonymous": UserSequence then applies to it. */
  lemma AnonymousUserLine()
    ensures var tokens := ["USER", "", "anonymous", "", "\n"];
      CommandVerb(tokens) == Some(USER) && ServerParameter(tokens) == "anonymous" &&
      ParamError("USER anonymous\r\n", ServerParameter(tokens)).None? &&
      IsAscii(ServerParameter(tokens))
  {
    UpperUser();
    UserSpace();
    UserParameter();
  }

  lemma UpperUser()
    ensures CommandVerb(["USER", "", "anonymous", "", "\n"]) == Some(USER)
  {
    assert ToUpper("USER") == "USER";
  }

  lemma UserSpace()
    ensures IndexOf("USER anonymous\r\n", ' ') == 4
  {
  }

  lemma UserParameter()
    ensures ServerParameter(["USER", "", "anonymous", "", "\n"]) == "anonymous"
    ensures IsAscii("anonymous")
  {
    SingleTokenParameter(["USER", "", "anonymous", "", "\n"]);
  }

  /** Likewise "PASS guest@" CRLF names PASS with the parameter "guest@". */
  lemma GuestPassLine()
    ensures var tokens := ["PASS", "", "guest@", "", "\n"];
      CommandVerb(tokens) == Some(PASS) && ServerParameter(tokens) == "guest@" &&
      ParamError("PASS guest@\r\n", ServerParameter(tokens)).None? &&
      IsAscii(ServerParameter(tokens))
  {
    UpperPass(["PASS", "", "guest@", "", "\n"]);
    PassSpace();
    PassParameter();
  }

  lemma UpperPass(tokens: seq<string>)
    requires |tokens| > 0 && tokens[0] == "PASS"
    ensures CommandVerb(tokens) == Some(PASS)
  {
    assert ToUpper("PASS") == "PASS";
  }

  lemma PassSpace()
    ensures IndexOf("PASS guest@\r\n", ' ') == 4
  {
  }

  lemma PassParameter()
    ensures ServerParameter(["PASS", "", "guest@", "", "\n"]) == "guest@"
    ensures IsAscii("guest@")
  {
    SingleTokenParameter(["PASS", "", "guest@", "", "\n"]);
  }

  /** "VERB", "", word, "", "\n": the parameter is the word. */
  lemma SingleTokenParameter(tokens: seq<string>)
    requires |tokens| == 5 && !IsBlankToken(tokens[2])
    ensures ServerParameter(tokens) == tokens[2]
  {
    assert tokens[2..3] == [tokens[2]];
    assert Concat([tokens[2]]) == tokens[2] by {
      assert [tokens[2]][..0] == [];
    }
  }
}

=== FILE: server_replies.dfy ===
/** The server's reply encoder: the closed code-to-text table of
    ServerReply.setReplyByCode, the error flag it raises, and the wire line
    `code SP text "." CRLF` of getMessage (section 4.2 of RFC 959). */
module ServerReplies {
  import opened Text

  /** The abstract value of a ServerReply object. */
  datatype Reply = Reply(code: int, text: string, error: bool)

  /** A freshly constructed ServerReply. */
  const Blank: Reply := Reply(0, "", false)

  /** The fixed table: the text of every code setReplyByCode knows. */
  function TableText(code: int): Option<string> {
    match code
    case 150 => Some("File status okay")
    case 215 => Some("UNIX Type: L8")
    case 220 => Some("COMP 431 FTP server ready")
    case 221 => Some("Goodbye")
    case 230 => Some("Guest login OK")
    case 250 => Some("Requested file action completed")
    case 331 => Some("Guest access OK, send password")
    case 425 => Some("Can not open data connection")
    case 500 => Some("Syntax error, command unrecognized")
    case 501 => Some("Syntax error in parameter")
    case 502 => Some("Command not implemented")
    case 503 => Some("Bad sequence of commands")
    case 530 => Some("Not logged in")
    case 550 => Some("File not found or access denied")
    case _ => None
  }

  predicate InTable(code: int) {
    TableText(code).Some?
  }

  /** The codes for which setReplyByCode raises the error flag. */
  predicate IsErrorCode(code: int) {
    code == 425 || code == 500 || code == 501 || code == 502 ||
    code == 503 || code == 530 || code == 550
  }

  /** The effect of setReplyByCode(code) on a reply: the code is stored, the
      text is replaced only for a code of the table, and the error flag is
      raised for an error code and otherwise left as it was. */
  function ByCode(r: Reply, code: int): Reply {
    Reply(code, if InTable(code) then TableText(code).value else r.text,
          r.error || IsErrorCode(code))
  }

  /** The effect of set(code, text): code and text replaced, error flag untouched. */
  function WithText(r: Reply, code: int, text: string): Reply {
    Reply(code, text, r.error)
  }

  /** getMessage(): the line written to the control connection. */
  function Message(r: Reply): string {
    IntToString(r.code) + " " + r.text + "." + CRLF
  }

  /** The line sent for a code of the table, whatever the reply held before. */
  function ReplyLine(code: int): string
    requires InTable(code)
  {
    NatToString(code) + " " + TableText(code).value + "." + CRLF
  }

  /** Every code of the table is a three-digit code in [100, 599], and the
      error codes are all in the table. */
  lemma TableShape(code: int)
    ensures IsErrorCode(code) ==> InTable(code)
    ensures InTable(code) ==> 100 <= code <= 599
  {
  }

  /** setReplyByCode never lowers the error flag, raises it exactly for the
      seven error codes, and for a code of the table yields the same wire line
      whatever the reply held before (the encoding is deterministic). */
  lemma ByCodeProperties(r: Reply, code: int)
    ensures ByCode(r, code).code == code
    ensures r.error ==> ByCode(r, code).error
    ensures !r.error ==> (ByCode(r, code).error <==> IsErrorCode(code))
    ensures InTable(code) ==> Message(ByCode(r, code)) == ReplyLine(code)
  {
  }

  /** The encoding of a table code is the same from any two prior states. */
  lemma ReplyLineDeterministic(r1: Reply, r2: Reply, code: int)
    requires InTable(code)
    ensures Message(ByCode(r1, code)) == Message(ByCode(r2, code))
  {
    ByCodeProperties(r1, code);
    ByCodeProperties(r2, code);
  }

  /** The ServerReply object: one per client connection, updated in place by
      every handler. */
  class ServerReply {
    var replyCode: int
    var replyText: string
    var errorFlag: bool

    function State(): Reply
      reads this
    {
      Reply(replyCode, replyText, errorFlag)
    }

    constructor ()
      ensures State() == Blank
    {
      replyCode := 0;
      replyText := "";
      errorFlag := false;
    }

    method SetErrorFlag(flag: bool)
      modifies this
      ensures State() == old(State()).(error := flag)
    {
      errorFlag := flag;
    }

    method Set(code: int, text: string)
      modifies this
      ensures State() == WithText(old(State()), code, text)
    {
      replyCode := code;
      replyText := text;
    }

    method SetReplyByCode(code: int)
      modifies this
      ensures State() == ByCode(old(State()), code)
    {
      replyCode := code;
      var text := TableText(code);
      if text.Some? {
        replyText := text.value;
      }
      if IsErrorCode(code) {
        errorFlag := true;
      }
    }

    function GetMessage(): string
      reads this
    {
      Message(State())
    }
  }
}

=== FILE: server_spec.dfy ===
/** The server's command interpreter as a transition table: for every verb,
    the parse stage (syntax checks in their fixed order) followed by the
    process stage (session flags, authentication gate, data transfer), as
    pure functions over the abstract session state and the reply object.
    The imperative server (module FtpServer) is proved to follow these
    functions step by step; the properties of the protocol are lemmas here. */
module ServerSpec {
  import opened Text
  import opened ServerReplies

  /** Host and port decoded from a PORT parameter (the file manager's hostAddress). */
  datatype Address = Address(host: string, port: int)

  /** What the platform does once RETR reaches the file manager: the data
      connection cannot be opened (425), the file cannot be opened (550), the
      file opened and 150 was sent but copying failed (550), or the file was
      copied (150 then 250). */
  datatype DataOutcome = NoConnection | FileMissing | TransferBroken | Transferred

  /** The server's state: the three session flags, the address the last PORT
      decoded, every line written on the control connection, and every file
      written on a data connection. */
  datatype ServerState = ServerState(
    userSet: bool,
    loggedIn: bool,
    portSet: bool,
    address: Option<Address>,
    sent: seq<string>,
    delivered: seq<string>)

  const Fresh: ServerState := ServerState(false, false, false, None, [], [])

  /** portSet implies loggedIn implies userSet; a set port has a decoded address. */
  predicate Inv(st: ServerState) {
    (st.portSet ==> st.loggedIn) && (st.loggedIn ==> st.userSet) &&
    (st.portSet ==> st.address.Some?)
  }

  /** The result of a parse or process handler: the new state, the reply
      object, and the boolean the handler returns. `halted` marks a handler
      that threw an exception nothing catches, which ends the server process
      (only copyFile can). */
  datatype Outcome = Outcome(st: ServerState, reply: Reply, ok: bool, halted: bool := false)

  function Fail(st: ServerState, r: Reply, code: int): Outcome {
    Outcome(st, ByCode(r, code), false)
  }

  /** sendReply: the reply's wire line is appended to the control connection. */
  function Send(st: ServerState, r: Reply): ServerState {
    st.(sent := st.sent + [Message(r)])
  }

  /** resetState after a connection closes. */
  function Reset(st: ServerState): ServerState {
    st.(userSet := false, loggedIn := false, portSet := false)
  }

  // ---------------------------------------------------------------------------
  // Syntax checks (checkParam, checkNoParam, checkLineEnd, checkAuthentication)

  /** checkParam: the first space must be at offset 4 (else 500) and the
      parameter must be non-empty (else 501). */
  function ParamError(command: string, parameter: string): Option<int> {
    if IndexOf(command, ' ') != 4 then Some(500)
    else if parameter == "" then Some(501)
    else None
  }

  /** checkNoParam: the first CRLF must be at offset 4 (else 501). */
  function NoParamError(command: string): Option<int> {
    if IndexOfCrlf(command) != 4 then Some(501) else None
  }

  /** checkAuthentication: 530 when no USER was accepted, 503 when USER was
      accepted but PASS was not. */
  function AuthError(st: ServerState): Option<int> {
    if !st.userSet then Some(530) else if !st.loggedIn then Some(503) else None
  }

  // ---------------------------------------------------------------------------
  // The parameter rebuilt from the server's token array (buildParameter)

  /** `token.matches("\\s")`: exactly one whitespace character. */
  predicate IsBlankToken(t: string) {
    |t| == 1 && IsJavaWhitespace(t[0])
  }

  /** The exclusive end of the parameter's tokens: the last two tokens (three
      when the third from the end is a lone CR) are the line ending. */
  function ParameterEnd(tokens: seq<string>): int
    requires |tokens| >= 3
  {
    |tokens| - (if IsLoneCr(tokens[|tokens| - 3]) then 3 else 2)
  }

  /** `token.equals("\r")`. */
  predicate IsLoneCr(t: string) {
    |t| == 1 && t[0] == '\r'
  }

  function SkipBlankTokens(ts: seq<string>): (r: seq<string>)
  {
    if ts != [] && IsBlankToken(ts[0]) then SkipBlankTokens(ts[1..]) else ts
  }

  /** The parameter: the tokens from index 2 up to the line ending, after the
      leading single-whitespace tokens, concatenated; empty with fewer than
      three tokens. */
  function ServerParameter(tokens: seq<string>): string {
    if |tokens| < 3 then ""
    else
      var hi := ParameterEnd(tokens);
      if hi <= 2 then "" else Concat(SkipBlankTokens(tokens[2..hi]))
  }

  // ---------------------------------------------------------------------------
  // PORT parameter and address decoding (parsePORT, buildAddress)

  /** One field of a PORT parameter passes the check: Integer.parseInt succeeds
      and the value is not above 255 (negative values pass). */
  predicate PortFieldOk(f: string) {
    ParseInt(f).Some? && ParseInt(f).value <= 255
  }

  /** What buildAddress needs: six fields, the last two of them integers. */
  predicate Decodable(fields: seq<string>) {
    |fields| >= 6 && ParseInt(fields[4]).Some? && ParseInt(fields[5]).Some?
  }

  /** buildAddress: the first four fields joined by "." and, in 32-bit
      arithmetic, f5 * 256 + f6. */
  function DecodeAddress(fields: seq<string>): Address
    requires Decodable(fields)
  {
    Address(Join(fields[..4], '.'), Wrap32(ParseInt(fields[4]).value * 256 + ParseInt(fields[5]).value))
  }

  function PortText(a: Address): string {
    "Port command successful (" + a.host + "," + IntToString(a.port) + ")"
  }

  // ---------------------------------------------------------------------------
  // The handlers

  function ProcessUser(st: ServerState, r: Reply): Outcome {
    if st.userSet then Fail(st, r, 503)
    else Outcome(st.(userSet := true), ByCode(r, 331), true)
  }

  function ParseUser(st: ServerState, r: Reply, command: string, username: string): Outcome {
    match ParamError(command, username)
    case Some(e) => Fail(st, r, e)
    case None =>
      if !IsAscii(username) then Fail(st, r, 501) else ProcessUser(st, r)
  }

  function ProcessPass(st: ServerState, r: Reply): Outcome {
    if !st.userSet then Fail(st, r, 503)
    else if st.loggedIn then Fail(st, r, 503)
    else Outcome(st.(loggedIn := true), ByCode(r, 230), true)
  }

  /** parsePASS runs checkParam but does not act on its result: only the
      reply it sets survives, and processing goes on. */
  function ParsePass(st: ServerState, r: Reply, command: string, password: string): Outcome {
    var r1 := match ParamError(command, password)
      case Some(e) => ByCode(r, e)
      case None => r;
    if !IsAscii(password) then Fail(st, r1, 501) else ProcessPass(st, r1)
  }

  function ProcessType(st: ServerState, r: Reply, t: string): Outcome {
    match AuthError(st)
    case Some(e) => Fail(st, r, e)
    case None => Outcome(st, WithText(r, 200, "Type set to " + t), true)
  }

  function ParseType(st: ServerState, r: Reply, command: string, t: string): Outcome {
    match ParamError(command, t)
    case Some(e) => Fail(st, r, e)
    case None =>
      if t != "A" && t != "I" then Fail(st, r, 501) else ProcessType(st, r, t)
  }

  function ProcessPort(st: ServerState, r: Reply, portString: string): Outcome
    requires Decodable(Split(portString, ','))
  {
    match AuthError(st)
    case Some(e) => Fail(st, r, e)
    case None =>
      var a := DecodeAddress(Split(portString, ','));
      Outcome(st.(address := Some(a), portSet := true), WithText(r, 200, PortText(a)), true)
  }

  function ParsePort(st: ServerState, r: Reply, command: string, portString: string): Outcome {
    match ParamError(command, portString)
    case Some(e) => Fail(st, r, e)
    case None =>
      var fields := Split(portString, ',');
      if |fields| != 6 then Fail(st, r, 501)
      else if exists k :: 0 <= k < 6 && !PortFieldOk(fields[k]) then Fail(st, r, 501)
      else ProcessPort(st, r, portString)
  }

  /** A single leading "/" or "\" is removed from the requested path. */
  function StripSeparator(path: string): string {
    if |path| > 0 && (path[0] == '/' || path[0] == '\\') then path[1..] else path
  }

  /** A data port `new Socket` accepts: Java throws IllegalArgumentException,
      which is not an IOException, for any other value. */
  predicate PortInRange(port: int) {
    0 <= port <= 65535
  }

  /** FileManager.copyFile with the platform's outcome. Without a stored
      address (a null hostAddress) or with a stored port outside [0, 65535]
      the socket constructor throws an exception that is not caught: the
      server halts before any reply is set or sent. */
  function CopyFile(st: ServerState, r: Reply, path: string, outcome: DataOutcome): Outcome {
    if st.address.None? || !PortInRange(st.address.value.port) then Outcome(st, r, false, true)
    else match outcome
    case NoConnection => Fail(st, r, 425)
    case FileMissing => Fail(st, r, 550)
    case TransferBroken =>
      var started := ByCode(r, 150);
      Fail(Send(st, started), started, 550)
    case Transferred =>
      var started := ByCode(r, 150);
      Outcome(Send(st, started).(delivered := st.delivered + [path]), ByCode(started, 250), true)
  }

  /** processRETR: portSet is cleared only when the copy succeeds. */
  function ProcessRetr(st: ServerState, r: Reply, path: string, outcome: DataOutcome): Outcome {
    var o := CopyFile(st, r, StripSeparator(path), outcome);
    if o.ok then o.(st := o.st.(portSet := false)) else o
  }

  /** parseRETR: a missing CRLF makes it return false without setting any reply. */
  function ParseRetr(st: ServerState, r: Reply, command: string, path: string, outcome: DataOutcome): Outcome {
    match ParamError(command, path)
    case Some(e) => Fail(st, r, e)
    case None =>
      if !IsAscii(path) then Fail(st, r, 501)
      else if !st.portSet then Fail(st, r, 503)
      else if !ContainsCrlf(command) then Outcome(st, r, false)
      else match AuthError(st)
        case Some(e) => Fail(st, r, e)
        case None => ProcessRetr(st, r, path, outcome)
  }

  function ParseSyst(st: ServerState, r: Reply, command: string): Outcome {
    match NoParamError(command)
    case Some(e) => Fail(st, r, e)
    case None =>
      match AuthError(st)
      case Some(e) => Fail(st, r, e)
      case None => Outcome(st, ByCode(r, 215), true)
  }

  function ParseNoop(st: ServerState, r: Reply, command: string): Outcome {
    match NoParamError(command)
    case Some(e) => Fail(st, r, e)
    case None =>
      match AuthError(st)
      case Some(e) => Fail(st, r, e)
      case None => Outcome(st, WithText(r, 200, "Command OK"), true)
  }

  function ParseQuit(st: ServerState, r: Reply, command: string): Outcome {
    match NoParamError(command)
    case Some(e) => Fail(st, r, e)
    case None => Outcome(st, ByCode(r, 221), true)
  }

  // ---------------------------------------------------------------------------
  // One line of input: the body of the server's read loop

  /** The commands the server implements. */
  datatype Verb = USER | PASS | TYPE | PORT | RETR | SYST | NOOP | QUIT

  function VerbName(v: Verb): string {
    match v
    case USER => "USER"
    case PASS => "PASS"
    case TYPE => "TYPE"
    case PORT => "PORT"
    case RETR => "RETR"
    case SYST => "SYST"
    case NOOP => "NOOP"
    case QUIT => "QUIT"
  }

  /** The chain of `verb.equals(...)` tests: the command named by an
      upper-cased verb, if any. */
  function ParseVerb(verb: string): (v: Option<Verb>)
    ensures v.Some? ==> VerbName(v.value) == verb
    ensures v.None? ==> forall x :: VerbName(x) != verb
  {
    if verb == "USER" then Some(USER)
    else if verb == "PASS" then Some(PASS)
    else if verb == "TYPE" then Some(TYPE)
    else if verb == "PORT" then Some(PORT)
    else if verb == "RETR" then Some(RETR)
    else if verb == "SYST" then Some(SYST)
    else if verb == "NOOP" then Some(NOOP)
    else if verb == "QUIT" then Some(QUIT)
    else None
  }

  /** The reply to a verb that is not in the list: 502 when its Java length,
      in UTF-16 code units, is three or four, 500 otherwise. */
  function UnknownVerbCode(verb: string): int {
    var length := Utf16Length(verb);
    if length == 3 || length == 4 then 502 else 500
  }

  function Dispatch(st: ServerState, r: Reply, verb: Verb, command: string,
                    parameter: string, outcome: DataOutcome): Outcome
  {
    match verb
    case USER => ParseUser(st, r, command, parameter)
    case PASS => ParsePass(st, r, command, parameter)
    case TYPE => ParseType(st, r, command, parameter)
    case PORT => ParsePort(st, r, command, parameter)
    case RETR => ParseRetr(st, r, command, parameter, outcome)
    case SYST => ParseSyst(st, r, command)
    case NOOP => ParseNoop(st, r, command)
    case QUIT => ParseQuit(st, r, command)
  }

  datatype StepResult = StepResult(st: ServerState, reply: Reply, quit: bool, halted: bool := false)

  /** One command line: the error flag is lowered, the parameter is rebuilt,
      the verb (first token, upper-cased) is validated and dispatched, and the
      reply is sent once; QUIT ends the connection whether or not it parsed.
      A handler that halts the server sends nothing. */
  function Step(st: ServerState, r: Reply, command: string, tokens: seq<string>,
                outcome: DataOutcome): StepResult
    requires |tokens| > 0
  {
    var r0 := r.(error := false);
    var parameter := ServerParameter(tokens);
    var verb := ToUpper(tokens[0]);
    match ParseVerb(verb)
    case None =>
      var r1 := ByCode(r0, UnknownVerbCode(verb));
      StepResult(Send(st, r1), r1, false)
    case Some(v) =>
      var o := Dispatch(st, r0, v, command, parameter, outcome);
      if o.halted then StepResult(o.st, o.reply, false, true)
      else StepResult(Send(o.st, o.reply), o.reply, v == QUIT)
  }

  /** A command line as the server receives it: the raw line, its token array,
      and what the platform does if it turns out to be a RETR. */
  datatype Request = Request(command: string, tokens: seq<string>, outcome: DataOutcome)

  predicate Tokenized(reqs: seq<Request>) {
    forall k :: 0 <= k < |reqs| ==> |reqs[k].tokens| > 0
  }

  datatype RunResult = RunResult(st: ServerState, reply: Reply, handled: nat, halted: bool := false)

  /** The read loop of one connection: command lines are handled in order
      until QUIT, the end of input, or a line that halts the server. */
  function Run(st: ServerState, r: Reply, reqs: seq<Request>): (res: RunResult)
    requires Tokenized(reqs)
    ensures res.handled <= |reqs|
    decreases |reqs|
  {
    if reqs == [] then RunResult(st, r, 0)
    else
      var s := Step(st, r, reqs[0].command, reqs[0].tokens, reqs[0].outcome);
      if s.quit || s.halted then RunResult(s.st, s.reply, 1, s.halted)
      else
        var rest := Run(s.st, s.reply, reqs[1..]);
        RunResult(rest.st, rest.reply, rest.handled + 1, rest.halted)
  }

  /** A whole connection: the 220 greeting, the read loop, then resetState,
      which a halted server never reaches. */
  function Connection(st: ServerState, reqs: seq<Request>): RunResult
    requires Tokenized(reqs)
  {
    var greeting := ByCode(Blank, 220);
    var run := Run(Send(st, greeting), greeting, reqs);
    if run.halted then run else run.(st := Reset(run.st))
  }
}

=== FILE: text.dfy ===
/** Character and string primitives shared by the FTP server and client:
    the Java library behaviour both programs rely on (String.indexOf,
    String.split with a one-character separator, Integer.parseInt,
    Integer.toString, String.toUpperCase and String.length) written out over `seq<char>`. */
module Text {

  datatype Option<+T> = None | Some(value: T)

  const CRLF: string := "\r\n"

  const MinInt: int := -0x8000_0000
  const MaxInt: int := 0x7FFF_FFFF

  /** Java `int` arithmetic: the 32-bit two's-complement wrap-around of `x`. */
  function Wrap32(x: int): (r: int)
    ensures MinInt <= r <= MaxInt
    ensures MinInt <= x <= MaxInt ==> r == x
    ensures (r - x) % 0x1_0000_0000 == 0
  {
    (x - MinInt) % 0x1_0000_0000 + MinInt
  }

  /** Java `x++` on an `int`: the next value, where the largest wraps round
      to the smallest; an `int` stays an `int`. */
  function Inc32(x: int): (r: int)
    ensures MinInt <= x <= MaxInt ==> MinInt <= r <= MaxInt
    ensures x < MaxInt ==> r == x + 1
  {
    if x == MaxInt then MinInt else x + 1
  }

  /** On an `int` the increment is the wrap-around of the successor. */
  lemma IncIsWrap(x: int)
    requires MinInt <= x <= MaxInt
    ensures Inc32(x) == Wrap32(x + 1)
  {
    if x == MaxInt {
      assert Wrap32(x + 1) == MinInt;
    }
  }

  /** Every character is at most 127 (the checkAscii loops of both programs). */
  predicate IsAscii(s: string) {
    forall i :: 0 <= i < |s| ==> s[i] as int <= 127
  }

  /** Java's regex class `\s`: space, tab, newline, vertical tab, form feed, carriage return. */
  predicate IsJavaWhitespace(c: char) {
    c == ' ' || 9 <= c as int <= 13
  }

  predicate IsDigit(c: char) {
    '0' <= c <= '9'
  }

  predicate IsLetter(c: char) {
    'a' <= c <= 'z' || 'A' <= c <= 'Z'
  }

  predicate AllDigits(s: string) {
    forall i :: 0 <= i < |s| ==> IsDigit(s[i])
  }

  /** `s.indexOf(c)`: the first position of `c`, or -1. */
  function IndexOf(s: string, c: char): (i: int)
    ensures -1 <= i < |s|
    ensures i == -1 <==> c !in s
    ensures 0 <= i ==> s[i] == c && c !in s[..i]
  {
    if |s| == 0 then -1
    else if s[0] == c then 0
    else
      var j := IndexOf(s[1..], c);
      if j < 0 then -1 else (assert s[..j + 1] == [s[0]] + s[1..][..j]; j + 1)
  }

  /** There is a carriage return immediately followed by a line feed at `i`. */
  predicate CrlfAt(s: string, i: int) {
    0 <= i && i + 1 < |s| && s[i] == '\r' && s[i + 1] == '\n'
  }

  /** `s.indexOf("\r\n")`: the first position of CRLF, or -1. */
  function IndexOfCrlf(s: string): (i: int)
    ensures -1 <= i < |s|
    ensures 0 <= i ==> CrlfAt(s, i) && forall j :: 0 <= j < i ==> !CrlfAt(s, j)
    ensures i == -1 <==> forall j :: 0 <= j < |s| ==> !CrlfAt(s, j)
  {
    if |s| < 2 then -1
    else if s[0] == '\r' && s[1] == '\n' then 0
    else
      var j := IndexOfCrlf(s[1..]);
      assert forall k :: 1 <= k < |s| ==> (CrlfAt(s, k) <==> CrlfAt(s[1..], k - 1));
      if j < 0 then -1 else j + 1
  }

  /** `s.contains("\r\n")`. */
  predicate ContainsCrlf(s: string) {
    IndexOfCrlf(s) >= 0
  }

  /** The upper-case form of an ASCII letter; every other character unchanged. */
  function UpperChar(c: char): char {
    if 'a' <= c <= 'z' then (c as int - 32) as char else c
  }

  /** Java `length()`: the number of UTF-16 code units, two for a character
      above U+FFFF. */
  function Utf16Units(c: char): nat {
    if c as int <= 0xFFFF then 1 else 2
  }

  function Utf16Length(s: string): (n: nat)
    ensures |s| <= n <= 2 * |s|
    ensures n == |s| <==> forall i :: 0 <= i < |s| ==> s[i] as int <= 0xFFFF
  {
    if s == [] then 0
    else
      var n := Utf16Units(s[0]) + Utf16Length(s[1..]);
      assert forall i :: 1 <= i < |s| ==> s[i] == s[1..][i - 1];
      n
  }

  /** The characters other than the ASCII letters whose Java upper-case form
      is plain ASCII: dotless i, long s, sharp s and the Latin ligatures
      U+FB00 to U+FB06. */
  const UpperToAscii: set<char> :=
    {'\U{0131}', '\U{017F}', '\U{00DF}', '\U{FB00}', '\U{FB01}', '\U{FB02}',
     '\U{FB03}', '\U{FB04}', '\U{FB05}', '\U{FB06}'}

  /** The unconditional special casings of the Unicode Character Database
      that Java's `toUpperCase` applies: each turns one character into
      several. The first eight give plain ASCII (sharp s gives "SS", the
      Latin ligatures U+FB00 to U+FB06 their letters); the rest, in code
      point order, give Greek, Armenian or Latin letters with marks. */
  const SpecialCount: nat := 102

  /** The character of the k-th special casing. */
  function SpecialKey(k: nat): (c: char)
    requires k < SpecialCount
    ensures 128 <= c as int <= 0xFFFF
    ensures k < 8 ==> c in UpperToAscii
    ensures 0 < k < 8 ==> c as int == 0xFAFF + k
  {
    if k < 26 then SpecialKeys0(k)
    else if k < 52 then SpecialKeys1(k)
    else if k < 78 then SpecialKeys2(k)
    else SpecialKeys3(k)
  }

  /** The upper-case form of the k-th special casing: two or three
      characters, one of the first two outside ASCII after the first eight. */
  function SpecialValue(k: nat): (u: string)
    requires k < SpecialCount
    ensures |u| >= 2
    ensures k >= 8 ==> u[0] as int >= 128 || u[1] as int >= 128
  {
    if k < 26 then SpecialValues0(k)
    else if k < 52 then SpecialValues1(k)
    else if k < 78 then SpecialValues2(k)
    else SpecialValues3(k)
  }

  /** Entries 0 to 25 of the table. */
  function SpecialKeys0(k: nat): (c: char)
    requires 0 <= k < 26
    ensures 128 <= c as int <= 0xFFFF
    ensures k < 8 ==> c in UpperToAscii
    ensures 0 < k < 8 ==> c as int == 0xFAFF + k
  {
    match k
    case 0 => '\U{00DF}'
    case 1 => '\U{FB00}'
    case 2 => '\U{FB01}'
    case 3 => '\U{FB02}'
    case 4 => '\U{FB03}'
    case 5 => '\U{FB04}'
    case 6 => '\U{FB05}'
    case 7 => '\U{FB06}'
    case 8 => '\U{0149}'
    case 9 => '\U{01F0}'
    case 10 => '\U{0390}'
    case 11 => '\U{03B0}'
    case 12 => '\U{0587}'
    case 13 => '\U{1E96}'
    case 14 => '\U{1E97}'
    case 15 => '\U{1E98}'
    case 16 => '\U{1E99}'
    case 17 => '\U{1E9A}'
    case 18 => '\U{1F50}'
    case 19 => '\U{1F52}'
    case 20 => '\U{1F54}'
    case 21 => '\U{1F56}'
    case 22 => '\U{1F80}'
    case 23 => '\U{1F81}'
    case 24 => '\U{1F82}'
    case _ => '\U{1F83}'
  }

  function SpecialValues0(k: nat): (u: string)
    requires 0 <= k < 26
    ensures |u| >= 2
    ensures k >= 8 ==> u[0] as int >= 128 || u[1] as int >= 128
  {
    match k
    case 0 => "SS"
    case 1 => "FF"
    case 2 => "FI"
    case 3 => "FL"
    case 4 => "FFI"
    case 5 => "FFL"
    case 6 => "ST"
    case 7 => "ST"
    case 8 => "\U{02BC}N"
    case 9 => "J\U{030C}"
    case 10 => "\U{0399}\U{0308}\U{0301}"
    case 11 => "\U{03A5}\U{0308}\U{0301}"
    case 12 => "\U{0535}\U{0552}"
    case 13 => "H\U{0331}"
    case 14 => "T\U{0308}"
    case 15 => "W\U{030A}"
    case 16 => "Y\U{030A}"
    case 17 => "A\U{02BE}"
    case 18 => "\U{03A5}\U{0313}"
    case 19 => "\U{03A5}\U{0313}\U{0300}"
    case 20 => "\U{03A5}\U{0313}\U{0301}"
    case 21 => "\U{03A5}\U{0313}\U{0342}"
    case 22 => "\U{1F08}\U{0399}"
    case 23 => "\U{1F09}\U{0399}"
    case 24 => "\U{1F0A}\U{0399}"
    case _ => "\U{1F0B}\U{0399}"
  }

  /** Entries 26 to 51 of the table. */
  function SpecialKeys1(k: nat): (c: char)
    requires 26 <= k < 52
    ensures 128 <= c as int <= 0xFFFF
    ensures k < 8 ==> c in UpperToAscii
  {
    match k
    case 26 => '\U{1F84}'
    case 27 => '\U{1F85}'
    case 28 => '\U{1F86}'
    case 29 => '\U{1F87}'
    case 30 => '\U{1F88}'
    case 31 => '\U{1F89}'
    case 32 => '\U{1F8A}'
    case 33 => '\U{1F8B}'
    case 34 => '\U{1F8C}'
    case 35 => '\U{1F8D}'
    case 36 => '\U{1F8E}'
    case 37 => '\U{1F8F}'
    case 38 => '\U{1F90}'
    case 39 => '\U{1F91}'
    case 40 => '\U{1F92}'
    case 41 => '\U{1F93}'
    case 42 => '\U{1F94}'
    case 43 => '\U{1F95}'
    case 44 => '\U{1F96}'
    case 45 => '\U{1F97}'
    case 46 => '\U{1F98}'
    case 47 => '\U{1F99}'
    case 48 => '\U{1F9A}'
    case 49 => '\U{1F9B}'
    case 50 => '\U{1F9C}'
    case _ => '\U{1F9D}'
  }

  function SpecialValues1(k: nat): (u: string)
    requires 26 <= k < 52
    ensures |u| >= 2
    ensures k >= 8 ==> u[0] as int >= 128 || u[1] as int >= 128
  {
    match k
    case 26 => "\U{1F0C}\U{0399}"
    case 27 => "\U{1F0D}\U{0399}"
    case 28 => "\U{1F0E}\U{0399}"
    case 29 => "\U{1F0F}\U{0399}"
    case 30 => "\U{1F08}\U{0399}"
    case 31 => "\U{1F09}\U{0399}"
    case 32 => "\U{1F0A}\U{0399}"
    case 33 => "\U{1F0B}\U{0399}"
    case 34 => "\U{1F0C}\U{0399}"
    case 35 => "\U{1F0D}\U{0399}"
    case 36 => "\U{1F0E}\U{0399}"
    case 37 => "\U{1F0F}\U{0399}"
    case 38 => "\U{1F28}\U{0399}"
    case 39 => "\U{1F29}\U{0399}"
    case 40 => "\U{1F2A}\U{0399}"
    case 41 => "\U{1F2B}\U{0399}"
    case 42 => "\U{1F2C}\U{0399}"
    case 43 => "\U{1F2D}\U{0399}"
    case 44 => "\U{1F2E}\U{0399}"
    case 45 => "\U{1F2F}\U{0399}"
    case 46 => "\U{1F28}\U{0399}"
    case 47 => "\U{1F29}\U{0399}"
    case 48 => "\U{1F2A}\U{0399}"
    case 49 => "\U{1F2B}\U{0399}"
    case 50 => "\U{1F2C}\U{0399}"
    case _ => "\U{1F2D}\U{0399}"
  }

  /** Entries 52 to 77 of the table. */
  function SpecialKeys2(k: nat): (c: char)
    requires 52 <= k < 78
    ensures 128 <= c as int <= 0xFFFF
    ensures k < 8 ==> c in UpperToAscii
  {
    match k
    case 52 => '\U{1F9E}'
    case 53 => '\U{1F9F}'
    case 54 => '\U{1FA0}'
    case 55 => '\U{1FA1}'
    case 56 => '\U{1FA2}'
    case 57 => '\U{1FA3}'
    case 58 => '\U{1FA4}'
    case 59 => '\U{1FA5}'
    case 60 => '\U{1FA6}'
    case 61 => '\U{1FA7}'
    case 62 => '\U{1FA8}'
    case 63 => '\U{1FA9}'
    case 64 => '\U{1FAA}'
    case 65 => '\U{1FAB}'
    case 66 => '\U{1FAC}'
    case 67 => '\U{1FAD}'
    case 68 => '\U{1FAE}'
    case 69 => '\U{1FAF}'
    case 70 => '\U{1FB2}'
    case 71 => '\U{1FB3}'
    case 72 => '\U{1FB4}'
    case 73 => '\U{1FB6}'
    case 74 => '\U{1FB7}'
    case 75 => '\U{1FBC}'
    case 76 => '\U{1FC2}'
    case _ => '\U{1FC3}'
  }

  function SpecialValues2(k: nat): (u: string)
    requires 52 <= k < 78
    ensures |u| >= 2
    ensures k >= 8 ==> u[0] as int >= 128 || u[1] as int >= 128
  {
    match k
    case 52 => "\U{1F2E}\U{0399}"
    case 53 => "\U{1F2F}\U{0399}"
    case 54 => "\U{1F68}\U{0399}"
    case 55 => "\U{1F69}\U{0399}"
    case 56 => "\U{1F6A}\U{0399}"
    case 57 => "\U{1F6B}\U{0399}"
    case 58 => "\U{1F6C}\U{0399}"
    case 59 => "\U{1F6D}\U{0399}"
    case 60 => "\U{1F6E}\U{0399}"
    case 61 => "\U{1F6F}\U{0399}"
    case 62 => "\U{1F68}\U{0399}"
    case 63 => "\U{1F69}\U{0399}"
    case 64 => "\U{1F6A}\U{0399}"
    case 65 => "\U{1F6B}\U{0399}"
    case 66 => "\U{1F6C}\U{0399}"
    case 67 => "\U{1F6D}\U{0399}"
    case 68 => "\U{1F6E}\U{0399}"
    case 69 => "\U{1F6F}\U{0399}"
    case 70 => "\U{1FBA}\U{0399}"
    case 71 => "\U{0391}\U{0399}"
    case 72 => "\U{0386}\U{0399}"
    case 73 => "\U{0391}\U{0342}"
    case 74 => "\U{0391}\U{0342}\U{0399}"
    case 75 => "\U{0391}\U{0399}"
    case 76 => "\U{1FCA}\U{0399}"
    case _ => "\U{0397}\U{0399}"
  }

  /** Entries 78 to 101 of the table. */
  function SpecialKeys3(k: nat): (c: char)
    requires 78 <= k < 102
    ensures 128 <= c as int <= 0xFFFF
    ensures k < 8 ==> c in UpperToAscii
  {
    match k
    case 78 => '\U{1FC4}'
    case 79 => '\U{1FC6}'
    case 80 => '\U{1FC7}'
    case 81 => '\U{1FCC}'
    case 82 => '\U{1FD2}'
    case 83 => '\U{1FD3}'
    case 84 => '\U{1FD6}'
    case 85 => '\U{1FD7}'
    case 86 => '\U{1FE2}'
    case 87 => '\U{1FE3}'
    case 88 => '\U{1FE4}'
    case 89 => '\U{1FE6}'
    case 90 => '\U{1FE7}'
    case 91 => '\U{1FF2}'
    case 92 => '\U{1FF3}'
    case 93 => '\U{1FF4}'
    case 94 => '\U{1FF6}'
    case 95 => '\U{1FF7}'
    case 96 => '\U{1FFC}'
    case 97 => '\U{FB13}'
    case 98 => '\U{FB14}'
    case 99 => '\U{FB15}'
    case 100 => '\U{FB16}'
    case _ => '\U{FB17}'
  }

  function SpecialValues3(k: nat): (u: string)
    requires 78 <= k < 102
    ensures |u| >= 2
    ensures k >= 8 ==> u[0] as int >= 128 || u[1] as int >= 128
  {
    match k
    case 78 => "\U{0389}\U{0399}"
    case 79 => "\U{0397}\U{0342}"
    case 80 => "\U{0397}\U{0342}\U{0399}"
    case 81 => "\U{0397}\U{0399}"
    case 82 => "\U{0399}\U{0308}\U{0300}"
    case 83 => "\U{0399}\U{0308}\U{0301}"
    case 84 => "\U{0399}\U{0342}"
    case 85 => "\U{0399}\U{0308}\U{0342}"
    case 86 => "\U{03A5}\U{0308}\U{0300}"
    case 87 => "\U{03A5}\U{0308}\U{0301}"
    case 88 => "\U{03A1}\U{0313}"
    case 89 => "\U{03A5}\U{0342}"
    case 90 => "\U{03A5}\U{0308}\U{0342}"
    case 91 => "\U{1FFA}\U{0399}"
    case 92 => "\U{03A9}\U{0399}"
    case 93 => "\U{038F}\U{0399}"
    case 94 => "\U{03A9}\U{0342}"
    case 95 => "\U{03A9}\U{0342}\U{0399}"
    case 96 => "\U{03A9}\U{0399}"
    case 97 => "\U{0544}\U{0546}"
    case 98 => "\U{0544}\U{0535}"
    case 99 => "\U{0544}\U{053B}"
    case 100 => "\U{054E}\U{0546}"
    case _ => "\U{0544}\U{053D}"
  }

  /** The special casing of `c` among those from index `k` on. */
  function FindSpecial(c: char, k: nat): (r: Option<string>)
    requires k <= SpecialCount
    ensures r.Some? ==> exists j :: k <= j < SpecialCount && SpecialKey(j) == c && r.value == SpecialValue(j)
    ensures r.None? ==> forall j :: k <= j < SpecialCount ==> SpecialKey(j) != c
    decreases SpecialCount - k
  {
    if k == SpecialCount then None
    else if SpecialKey(k) == c then Some(SpecialValue(k))
    else FindSpecial(c, k + 1)
  }

  /** The search stops at the first entry for the character. */
  lemma {:induction false} FindSpecialAt(c: char, k: nat, j: nat)
    requires k <= j < SpecialCount && SpecialKey(j) == c
    requires forall i :: k <= i < j ==> SpecialKey(i) != c
    ensures FindSpecial(c, k) == Some(SpecialValue(j))
    decreases j - k
  {
    if k < j {
      FindSpecialAt(c, k + 1, j);
    }
  }

  /** Java `toUpperCase` on one character, in a locale without language
      rules: the ASCII letters, dotless i and long s, and the special
      casings. Any other character is kept: its Java upper-case form, when
      it has one, is a single character outside ASCII with the same UTF-16
      length. */
  function UpperOf(c: char): (u: string)
    ensures |u| >= 1 && Utf16Length(u) >= Utf16Units(c)
    ensures c as int < 128 ==> u == [UpperChar(c)]
    ensures (forall i :: 0 <= i < |u| ==> u[i] as int < 128) ==> c as int < 128 || c in UpperToAscii
  {
    if c as int < 128 then [UpperChar(c)]
    else if c == '\U{0131}' then "I"
    else if c == '\U{017F}' then "S"
    else
      match FindSpecial(c, 0)
      case Some(v) => v
      case None => [c]
  }

  /** Java `s.toUpperCase()`: the upper-case forms of the characters, in
      order; it never shortens the string. */
  function ToUpper(s: string): (u: string)
    ensures |u| >= |s|
  {
    if s == [] then [] else UpperOf(s[0]) + ToUpper(s[1..])
  }

  /** Nor does it shorten it counted in UTF-16 code units, Java's `length()`. */
  lemma {:induction false} ToUpperUtf16(s: string)
    ensures Utf16Length(ToUpper(s)) >= Utf16Length(s)
    decreases |s|
  {
    if s != [] {
      ToUpperUtf16(s[1..]);
      Utf16Append(UpperOf(s[0]), ToUpper(s[1..]));
    }
  }

  /** An ASCII string keeps its length and has its letters raised. */
  lemma {:induction false} ToUpperAscii(s: string)
    requires forall i :: 0 <= i < |s| ==> s[i] as int < 128
    ensures |ToUpper(s)| == |s| && forall i :: 0 <= i < |s| ==> ToUpper(s)[i] == UpperChar(s[i])
    decreases |s|
  {
    if s != [] {
      ToUpperAscii(s[1..]);
      var u := ToUpper(s);
      assert u == [UpperChar(s[0])] + ToUpper(s[1..]);
      assert forall i :: 1 <= i < |s| ==> u[i] == ToUpper(s[1..])[i - 1] && s[i] == s[1..][i - 1];
    }
  }

  /** An upper-cased string is plain ASCII only when every character was
      ASCII or one of `UpperToAscii`. */
  lemma {:induction false} ToUpperAsciiSource(s: string)
    requires forall i :: 0 <= i < |ToUpper(s)| ==> ToUpper(s)[i] as int < 128
    ensures forall i :: 0 <= i < |s| ==> s[i] as int < 128 || s[i] in UpperToAscii
    decreases |s|
  {
    if s != [] {
      var head, tail := UpperOf(s[0]), ToUpper(s[1..]);
      assert ToUpper(s) == head + tail;
      AsciiAppend(head, tail);
      assert forall i :: 0 <= i < |head| ==> head[i] as int < 128;
      assert s[0] as int < 128 || s[0] in UpperToAscii;
      ToUpperAsciiSource(s[1..]);
      assert forall i :: 1 <= i < |s| ==> s[i] == s[1..][i - 1];
    }
  }

  /** ToUpper one character at a time, from the front. */
  lemma ToUpperCons(c: char, s: string)
    ensures ToUpper([c] + s) == UpperOf(c) + ToUpper(s)
  {
    assert ([c] + s)[0] == c && ([c] + s)[1..] == s;
  }

  /** A character with an entry in the table: its upper case is the entry's. */
  lemma UpperOfSpecial(c: char, j: nat)
    requires j < SpecialCount && SpecialKey(j) == c
    requires c != '\U{0131}' && c != '\U{017F}'
    requires forall i :: 0 <= i < j ==> SpecialKey(i) != c
    ensures UpperOf(c) == SpecialValue(j)
  {
    FindSpecialAt(c, 0, j);
  }

  /** Upper case of a few characters outside ASCII: sharp s becomes two
      letters, the dotless i and the long s become plain ASCII letters,
      ligatures split into their letters, and a character above U+FFFF
      that has no upper-case form stays as it is. */
  lemma UpperOfSharpS()
    ensures UpperOf('\U{00DF}') == "SS"
  {
    UpperOfSpecial('\U{00DF}', 0);
  }

  lemma UpperOfLigatureFfi()
    ensures UpperOf('\U{FB03}') == "FFI"
  {
    UpperOfSpecial('\U{FB03}', 4);
  }

  lemma UpperOfLigatureSt()
    ensures UpperOf('\U{FB06}') == "ST"
  {
    UpperOfSpecial('\U{FB06}', 7);
  }

  lemma UpperOfApostropheN()
    ensures UpperOf('\U{0149}') == "\U{02BC}N"
  {
    UpperOfSpecial('\U{0149}', 8);
  }

  /** Words that reach plain ASCII letters only through the characters
      outside ASCII in them: long s, sharp s, the st ligature, dotless i. */
  lemma UpperLongSWord()
    ensures ToUpper("u\U{017F}er") == "USER"
  {
    ToUpperFour('u', '\U{017F}', 'e', 'r');
  }

  lemma UpperSharpSWord()
    ensures ToUpper("PA\U{00DF}") == "PASS"
  {
    ToUpperThree('P', 'A', '\U{00DF}');
    UpperOfSharpS();
  }

  lemma UpperLigatureWord()
    ensures ToUpper("SY\U{FB06}") == "SYST"
  {
    ToUpperThree('S', 'Y', '\U{FB06}');
    UpperOfLigatureSt();
  }

  lemma UpperDotlessIWord()
    ensures ToUpper("qu\U{0131}t") == "QUIT"
  {
    ToUpperFour('q', 'u', '\U{0131}', 't');
  }

  /** ToUpper of a three- or four-character string, character by character. */
  lemma ToUpperThree(a: char, b: char, c: char)
    ensures ToUpper([a, b, c]) == UpperOf(a) + (UpperOf(b) + UpperOf(c))
  {
    assert ToUpper([c]) == UpperOf(c) + ToUpper([]) == UpperOf(c);
    assert [b, c][1..] == [c];
    assert ToUpper([b, c]) == UpperOf(b) + UpperOf(c);
    assert [a, b, c][1..] == [b, c];
  }

  lemma ToUpperFour(a: char, b: char, c: char, d: char)
    ensures ToUpper([a, b, c, d]) == UpperOf(a) + (UpperOf(b) + (UpperOf(c) + UpperOf(d)))
  {
    ToUpperThree(b, c, d);
    assert [a, b, c, d][1..] == [b, c, d];
  }

  lemma UpperOfAstral(c: char)
    requires c as int > 0xFFFF
    ensures UpperOf(c) == [c]
  {
    assert FindSpecial(c, 0).None?;
  }

  lemma {:induction false} Utf16Append(a: string, b: string)
    ensures Utf16Length(a + b) == Utf16Length(a) + Utf16Length(b)
    decreases |a|
  {
    if a == [] {
      assert a + b == b;
    } else {
      Utf16Append(a[1..], b);
      assert (a + b)[0] == a[0] && (a + b)[1..] == a[1..] + b;
    }
  }

  /** A concatenation is plain ASCII exactly when both parts are. */
  lemma AsciiAppend(a: string, b: string)
    ensures (forall i :: 0 <= i < |a + b| ==> (a + b)[i] as int < 128) <==>
      (forall i :: 0 <= i < |a| ==> a[i] as int < 128) && (forall i :: 0 <= i < |b| ==> b[i] as int < 128)
  {
    assert forall i :: 0 <= i < |a| ==> (a + b)[i] == a[i];
    assert forall i :: 0 <= i < |b| ==> (a + b)[|a| + i] == b[i];
  }

  /** The concatenation of a sequence of strings. */
  function Concat(ts: seq<string>): string {
    if ts == [] then [] else Concat(ts[..|ts| - 1]) + ts[|ts| - 1]
  }

  lemma {:induction false} ConcatAppend(ts: seq<string>, us: seq<string>)
    ensures Concat(ts + us) == Concat(ts) + Concat(us)
  {
    if us == [] {
      assert ts + us == ts;
    } else {
      ConcatAppend(ts, us[..|us| - 1]);
      assert (ts + us)[..|ts + us| - 1] == ts + us[..|us| - 1];
    }
  }

  lemma ConcatCons(t: string, us: seq<string>)
    ensures Concat([t] + us) == t + Concat(us)
  {
    ConcatAppend([t], us);
    assert Concat([t]) == Concat([]) + t;
  }

  /** `String.join(sep, ts)`. */
  function Join(ts: seq<string>, sep: char): string {
    if ts == [] then []
    else if |ts| == 1 then ts[0]
    else Join(ts[..|ts| - 1], sep) + [sep] + ts[|ts| - 1]
  }

  // ---------------------------------------------------------------------------
  // String.split with a single literal separator character

  /** Every piece between separators, including empty ones (always at least one piece). */
  function Pieces(s: string, sep: char): (ps: seq<string>)
    ensures |ps| >= 1
    ensures forall k :: 0 <= k < |ps| ==> sep !in ps[k]
    decreases |s|
  {
    var i := IndexOf(s, sep);
    if i < 0 then [s] else [s[..i]] + Pieces(s[i + 1..], sep)
  }

  function DropTrailingEmpty(ps: seq<string>): (r: seq<string>)
    ensures |r| <= |ps| && r == ps[..|r|]
    ensures r != [] ==> r[|r| - 1] != []
    ensures forall k :: |r| <= k < |ps| ==> ps[k] == []
  {
    if ps == [] then []
    else if ps[|ps| - 1] == [] then DropTrailingEmpty(ps[..|ps| - 1])
    else ps
  }

  /** Java `s.split(sep)`: the input itself when the separator does not occur,
      otherwise the pieces with the trailing empty pieces removed. */
  function Split(s: string, sep: char): (r: seq<string>)
    ensures sep !in s ==> r == [s]
    ensures forall k :: 0 <= k < |r| ==> sep !in r[k]
  {
    if sep !in s then [s] else DropTrailingEmpty(Pieces(s, sep))
  }

  lemma PiecesJoin(a: string, sep: char, b: string)
    requires sep !in a
    ensures Pieces(a + [sep] + b, sep) == [a] + Pieces(b, sep)
  {
    var s := a + [sep] + b;
    var i := IndexOf(s, sep);
    assert s[|a|] == sep;
    assert s[..|a|] == a;
    assert s[i + 1..] == b;
  }

  lemma {:induction false} PiecesOfJoin(ts: seq<string>, sep: char)
    requires |ts| >= 1
    requires forall k :: 0 <= k < |ts| ==> sep !in ts[k]
    ensures Pieces(Join(ts, sep), sep) == ts
  {
    if |ts| == 1 {
    } else {
      PiecesOfJoin(ts[1..], sep);
      JoinCons(ts, sep);
      PiecesJoin(ts[0], sep, Join(ts[1..], sep));
      assert ts == [ts[0]] + ts[1..];
    }
  }

  lemma {:induction false} JoinCons(ts: seq<string>, sep: char)
    requires |ts| >= 2
    ensures Join(ts, sep) == ts[0] + [sep] + Join(ts[1..], sep)
    decreases |ts|
  {
    if |ts| == 2 {
      assert ts[..1] == [ts[0]];
    } else {
      JoinCons(ts[..|ts| - 1], sep);
      assert ts[..|ts| - 1][1..] == ts[1..][..|ts[1..]| - 1];
      assert ts[..|ts| - 1][0] == ts[0];
    }
  }

  /** Splitting a joined list of separator-free pieces, the last of them
      non-empty, gives the pieces back. */
  lemma SplitOfJoin(ts: seq<string>, sep: char)
    requires |ts| >= 2
    requires forall k :: 0 <= k < |ts| ==> sep !in ts[k]
    requires ts[|ts| - 1] != []
    ensures Split(Join(ts, sep), sep) == ts
  {
    PiecesOfJoin(ts, sep);
    JoinCons(ts, sep);
    var s := Join(ts, sep);
    assert s[|ts[0]|] == sep;
  }

  // ---------------------------------------------------------------------------
  // Decimal numbers: Integer.parseInt and Integer.toString

  function DigitValue(c: char): nat
    requires IsDigit(c)
  {
    c as int - '0' as int
  }

  function DigitChar(d: nat): (c: char)
    requires d < 10
    ensures IsDigit(c) && DigitValue(c) == d
  {
    ('0' as int + d) as char
  }

  /** The value of a string of decimal digits, most significant first. */
  function DigitsValue(s: string): nat
    requires AllDigits(s)
  {
    if |s| == 0 then 0 else 10 * DigitsValue(s[..|s| - 1]) + DigitValue(s[|s| - 1])
  }

  /** Java `Integer.parseInt(s)`: an optional sign, at least one decimal digit,
      and a value inside the 32-bit range; None where Java throws
      NumberFormatException. A string of digits reads as its decimal value,
      and the same after "+" or with "-" for its negation, whenever that
      value fits in 32 bits; a lone sign and a value outside the range are
      refused, and nothing else is read. */
  function ParseInt(s: string): (r: Option<int>)
    ensures r.Some? ==> MinInt <= r.value <= MaxInt
    ensures r.Some? ==>
      |s| > 0 && (IsDigit(s[0]) || s[0] == '-' || s[0] == '+') &&
      (forall k :: 1 <= k < |s| ==> IsDigit(s[k])) && (r.value < 0 ==> s[0] == '-')
    ensures |s| > 0 && AllDigits(s) && DigitsValue(s) <= MaxInt ==> r == Some(DigitsValue(s))
    ensures |s| > 1 && s[0] == '+' && AllDigits(s[1..]) && DigitsValue(s[1..]) <= MaxInt ==>
      r == Some(DigitsValue(s[1..]))
    ensures |s| > 1 && s[0] == '-' && AllDigits(s[1..]) && DigitsValue(s[1..]) <= -MinInt ==>
      r == Some(-(DigitsValue(s[1..]) as int))
    ensures s == "+" || s == "-" ==> r.None?
    ensures |s| > 0 && AllDigits(s) && DigitsValue(s) > MaxInt ==> r.None?
    ensures |s| > 1 && s[0] == '+' && AllDigits(s[1..]) && DigitsValue(s[1..]) > MaxInt ==> r.None?
    ensures |s| > 1 && s[0] == '-' && AllDigits(s[1..]) && DigitsValue(s[1..]) > -MinInt ==> r.None?
  {
    if |s| == 0 then None
    else
      var signed := s[0] == '-' || s[0] == '+';
      var digits := if signed then s[1..] else s;
      if |digits| == 0 || !AllDigits(digits) then None
      else
        var v: int := if s[0] == '-' then -(DigitsValue(digits) as int) else DigitsValue(digits);
        if MinInt <= v <= MaxInt then Some(v) else None
  }

  /** Decimal rendering of a natural number, without leading zeros. */
  function NatToString(n: nat): (s: string)
    ensures |s| >= 1 && AllDigits(s)
    ensures n < 10 <==> |s| == 1
  {
    if n < 10 then [DigitChar(n)] else NatToString(n / 10) + [DigitChar(n % 10)]
  }

  /** Java `Integer.toString(i)`. */
  function IntToString(i: int): string {
    if i < 0 then "-" + NatToString(-i) else NatToString(i)
  }

  lemma {:induction false} NatToStringValue(n: nat)
    ensures DigitsValue(NatToString(n)) == n
  {
    if n >= 10 {
      NatToStringValue(n / 10);
      var s := NatToString(n);
      assert s[..|s| - 1] == NatToString(n / 10);
    }
  }

  /** Integer.parseInt reads back what Integer.toString wrote, for every
      non-negative int. */
  lemma ParseNatToString(n: nat)
    requires n <= MaxInt
    ensures ParseInt(NatToString(n)) == Some(n)
  {
    NatToStringValue(n);
    var s := NatToString(n);
    assert IsDigit(s[0]);
  }

  lemma ParseIntToString(i: int)
    requires MinInt <= i <= MaxInt
    ensures ParseInt(IntToString(i)) == Some(i)
  {
    if i < 0 {
      ParseNegToString(-i);
    } else {
      ParseNatToString(i);
    }
  }

  lemma ParseNegToString(n: nat)
    requires 0 < n <= -MinInt
    ensures ParseInt("-" + NatToString(n)) == Some(-(n as int))
  {
    NatToStringValue(n);
    var s := "-" + NatToString(n);
    assert s[0] == '-' && s[1..] == NatToString(n);
  }

  /** A natural number below 1000 with three digits renders as exactly three digits. */
  lemma ThreeDigits(n: nat)
    requires 100 <= n < 1000
    ensures |NatToString(n)| == 3
  {
    assert 10 <= n / 10 < 100;
    assert 1 <= n / 100 < 10;
    assert n / 10 / 10 == n / 100;
  }
}
